=== FILE: README.md ===
# Bingo Musical — a Dafny model of the game core

Bingo Musical is a desktop music-bingo application. Songs are held in a
library and imported from YouTube (through Invidious mirrors) or from
Spotify playlists. Players hold cards ("cartones") of songs. During a game
the engine draws songs at random and plays a short clip of each. The players
mark what they hear, and the host checks cards for a win.

This project models the core of that application as pure Dafny functions
over immutable datatypes and proves properties about them. One module
corresponds to each core source file:

- `Engine` (`engine.dfy`): the draw-and-play engine. It covers the song
  pool, the drawn list, the current song, the playing and paused flags,
  autoplay, and the audio source with its backup source. Emitted events are
  an appended trace.
- `Card` (`card.dfy`): a stored card, its grid lookup, the free space and
  the JSON round trip.
- `BingoContext` (`context.dfy`): the game state shared by the views. It
  covers cards, marks, the history of played songs and the winner check.
- `Database` (`database.dfy`): the in-memory song table with insert,
  search, update and delete.
- `Player` (`player.dfy`): the audio element wrapper, including URL choice,
  play, pause, resume, stop, volume and the fifteen-second clip.
- `Invidious` (`invidious.dfy`): the mirror client. It covers mirror
  rotation, the request log and its statistics, fetching with retries and
  back-off, audio-format selection, and video-id and playlist-id
  extraction. It also parses ISO 8601 durations.
- `YouTubeImport` (`youtube_import.dfy`): importing a video, a playlist or
  the results of a search, with the cue window of each song.
- `SpotifyApi` (`spotify_api.dfy`): the client-credentials token cache,
  track search, the first preview, playlist-id extraction and the playlist
  listing.
- `SpotifyImport` (`spotify_import.dfy`): importing a Spotify playlist. Each
  track is matched to a YouTube video and gets a clip window. The window is
  the loudest section of the track, or a fixed window.
- `YouTubeApi` (`youtube_api.dfy`): the search service that answers from
  its cache, then Invidious, then the quota-limited official API.
- `Validation` (`validation.dfy`): the audit that no logged request reached
  the official YouTube API.
- `ImportDialog` (`import_dialog.dfy`): source detection and the guard at
  the top of the import action.
- `Formatter` (`formatter.dfy`): title cleaning and the shortening of title
  and artist for printing on a card.

Shared modules:

- `Wrappers`: `Option` and `Result`.
- `Text`: JavaScript string operations and the `\s` class of ECMA-262.
- `Capture`: the first-match semantics of the URL regular expressions.
- `Songs` and `Lists`: the song record, JavaScript truthiness, `find`,
  `filter` and counting.

Whatever the program gets from outside becomes a parameter of the operation
that needs it. This covers the network (mirror replies, Spotify replies,
search results), `Math.random`, `Date` and fresh identifiers. Each
operation is stated for every possible answer.

The code behaves as follows, and the model follows it:

- The engine keeps two flags, `isPlaying` and `isPaused`. It has no explicit
  Idle/Loading/Playing/Paused/Stopped/Errored state machine.
- The clip timer lasts `AudioPlayer.getDuration()` seconds, which is always
  15. It does not use the song's cue window. Stopping or pausing never
  cancels the timer. `Engine.PlaybackTimerFires` is the timer's callback,
  and `Engine.TimerDuringPause` shows that it can leave the engine paused
  but not playing.
- Playing with no current song returns `false` after a warning. It does not
  raise an error.
- Any loaded song can be drawn, whether or not it has audio. The index is
  `Math.floor(Math.random() * n)`. `Engine.EveryIndexReachable` shows that
  every index is possible.
- The winner check does not use card grids or a free space. It compares the
  card's `songs` (or `canciones`) list against the identifiers of the played
  songs. A song is identified by `id`, or by `videoId` when there is no id.
  The line-win mode is a stub that never wins.

## Model

| member | source | states |
|---|---|---|
| Engine.LoadSongs | src/core/BingoEngine.js:18-23 | The pool becomes a copy of the given songs. Nothing is drawn and nothing is current. Playback flags, autoplay and source are kept, and one songsLoaded event with the count is emitted. |
| Engine.SetAudioSource | src/core/BingoEngine.js:25-30 | Only 'invidious' and 'spotify' switch the source, each emitting one event. Any other name leaves the engine exactly as it was. |
| Engine.RandomIndex | src/core/BingoEngine.js:38 | The floor of r·n is a valid pool index whenever 0 ≤ r < 1. It is the unique i with i ≤ r·n < i+1. |
| Engine.EveryIndexReachable | src/core/BingoEngine.js:38 | Every index of a non-empty pool is chosen for some random value in [0,1). |
| Engine.Draw | src/core/BingoEngine.js:32-48 | An empty pool draws nothing and only emits bingoFinished. Otherwise the chosen song leaves the pool at its index, is appended to the drawn list and becomes current. The event carries the new remaining and drawn counts. |
| Engine.DrawConserves | src/core/BingoEngine.js:38-42 | A draw moves one song from the pool to the drawn list. The multiset of pool plus drawn is unchanged, and the old drawn list is a prefix of the new one. |
| Engine.DrawKeepsDistinct | src/core/BingoEngine.js:38-42 | If no song appears twice across drawn and pool, that still holds after a draw, so no song is drawn twice. |
| Engine.ResolveAudio | src/core/BingoEngine.js:72-109 | An audio URL is found only when it is non-empty. From Invidious, a thrown error is reported as is and a returned URL is used. From Spotify, a preview is used when present. |
| Engine.FromSpotify | src/core/BingoEngine.js:78-84 | The Spotify step succeeds exactly when a non-empty preview URL exists, and otherwise fails with the no-source message. |
| Engine.FromInvidious | src/core/BingoEngine.js:72-77 | The Invidious step succeeds exactly when a non-empty URL was returned. A thrown error becomes the failure message, and an empty reply becomes the no-source message. |
| Engine.BackupIsOtherSource | src/core/BingoEngine.js:86-105 | The backup is the other source, tried only when the first returned no URL. With Spotify primary, audio is found iff either source yields it. With Invidious primary, a success comes from one of the two. |
| Engine.PlayCurrentSong | src/core/BingoEngine.js:58-133 | Without a current song nothing changes and the result is false. Otherwise the result is true iff audio was resolved and the player started, and isPlaying matches it. A failure appends playbackError with the reason after playbackStarted. Pool, drawn list and current song are untouched. |
| Engine.Fail | src/core/BingoEngine.js:127-131 | The catch branch stops playing, keeps everything else and appends one playbackError for the song. |
| Engine.DrawNextSong | src/core/BingoEngine.js:32-56 | The song comes from the draw. Autoplay with a non-empty pool then plays it. Otherwise the engine is exactly the result of the draw, whose events are always a prefix. |
| Engine.PlaybackTimerFires | src/core/BingoEngine.js:121-124 | The clip timer clears isPlaying, keeps isPaused and the song lists, and emits playbackEnded for the current song. |
| Engine.PausePlayback | src/core/BingoEngine.js:135-141 | Pausing works only while playing and not paused, setting isPaused and emitting one event. Otherwise it is a no-op. |
| Engine.ResumePlayback | src/core/BingoEngine.js:143-149 | Resuming works only while playing and paused, clearing isPaused and emitting one event. Otherwise it is a no-op. |
| Engine.StopPlayback | src/core/BingoEngine.js:151-156 | After stopping, the engine is neither playing nor paused, the song lists are kept and playbackStopped is emitted. |
| Engine.SetAutoPlay | src/core/BingoEngine.js:158-161 | Only the autoplay flag changes, and one event records the new value. |
| Engine.ResetEngine | src/core/BingoEngine.js:163-169 | Reset stops playback and empties pool, drawn list and current song. Autoplay and source are kept, and the events are playbackStopped then reset. |
| Engine.GetState | src/core/BingoEngine.js:171-182 | The snapshot's total is remaining plus drawn, and every other field mirrors the engine. |
| Engine.TotalKeptByDraw | src/core/BingoEngine.js:171-175 | Drawing, with or without autoplay, never changes the reported total of songs. Reloading the pool resets the total to the pool size. |
| Engine.ResetIsStopThenClear | src/core/BingoEngine.js:163-169 | Reset equals stop followed by clearing the song lists, and leaves a total of zero. |
| Engine.OperationsKeepPausedOnlyWhilePlaying | src/core/BingoEngine.js:135-169 | Every operation other than the timer keeps the invariant "paused implies playing". |
| Engine.TimerDuringPause | src/core/BingoEngine.js:121-149 | A timer that fires during a pause breaks "paused implies playing", and afterwards neither pause nor resume has any effect. |
| Engine.PauseThenResume | src/core/BingoEngine.js:135-149 | Pause followed by resume returns to playing and not paused, with exactly the two events. |
| Card.Construct | src/models/BingoCard.js:4-9 | Each field takes the given value when it is truthy, and otherwise the fresh id, an empty grid, the current time, or null. |
| Card.ConstructDefaults | src/models/BingoCard.js:4-9 | A card built from nothing has the fresh id, an empty grid, the current time and no seed. |
| Card.ConstructWellFormed | src/models/BingoCard.js:4-9 | Any construction with a non-empty fresh id and timestamp yields a card with non-empty id and creation time. |
| Card.ToJson | src/models/BingoCard.js:25-37 | Serialising keeps every field, and rebuilding a well-formed card from its JSON gives the same card back. |
| Card.GetSongAt | src/models/BingoCard.js:12-17 | Coordinates outside 5×5 give null. Inside, a present cell gives its song. A missing row is a fault exactly when the grid has no such row. |
| Card.GetSongAtFullGrid | src/models/BingoCard.js:12-17 | A full 5×5 grid never faults or gives undefined, and an empty grid faults at every in-range coordinate. |
| Card.IsFreeSpace | src/models/BingoCard.js:20-22 | The free space is exactly the centre cell (2, 2). |
| BingoContext.AgregarCarton | src/core/BingoContext.jsx:56-65 | Exactly one card is appended, with its id (given or fresh), no marks and the creation time. Existing cards and the history are kept. |
| BingoContext.EliminarCarton | src/core/BingoContext.jsx:68-70 | Exactly the cards with the given id are removed, and the count drops by their number. |
| BingoContext.EliminarCartonConcat | src/core/BingoContext.jsx:68-70 | Removal keeps the order: on a list of two parts, the kept cards of the first part come before those of the second. |
| BingoContext.EliminarCartonSingle | src/core/BingoContext.jsx:68-70 | A single card is kept exactly when its id differs from the one removed. |
| BingoContext.EliminarCartonAbsent | src/core/BingoContext.jsx:68-70 | Removing an id that no card carries leaves the game unchanged. |
| BingoContext.AgregarThenEliminar | src/core/BingoContext.jsx:56-70 | Adding a card under an id no other card has, then removing that id, gives back the original game. |
| BingoContext.ApplyPatch | src/core/BingoContext.jsx:75 | Each field the patch carries (id, either song list, marks, creation date) overrides the card's. Every other field is kept. |
| BingoContext.ActualizarCarton | src/core/BingoContext.jsx:73-77 | Cards with the id get the patch merged in. All other cards, in place, and the history are unchanged. |
| BingoContext.ActualizarCartonEmpty | src/core/BingoContext.jsx:73-77 | Updating with a patch that sets nothing leaves the game unchanged. |
| BingoContext.AgregarCancion | src/core/BingoContext.jsx:80-88 | The played song is appended to the history with its order number (length plus one) and timestamp, and the old history is kept as a prefix. |
| BingoContext.AgregarCancionNumbered | src/core/BingoContext.jsx:80-88 | A history numbered 1..n stays numbered 1..n+1. |
| BingoContext.Mark | src/core/BingoContext.jsx:92-103 | Only the card with the id is affected. Its marks gain the song once, and a song already marked leaves the card unchanged. |
| BingoContext.MarcarCancion | src/core/BingoContext.jsx:91-104 | Marking applies Mark to every card in place and leaves the history alone. |
| BingoContext.MarcarCancionIdempotent | src/core/BingoContext.jsx:91-104 | Marking the same song twice is the same as marking it once. |
| BingoContext.MarcarCancionKeepsMarksDistinct | src/core/BingoContext.jsx:91-104 | Marks without repetitions stay without repetitions. |
| BingoContext.PlayedKeys | src/core/BingoContext.jsx:112 | The set of played keys holds exactly the keys (id, else videoId) of the history's songs. |
| BingoContext.AllPlayed | src/core/BingoContext.jsx:116-118 | True iff every song of the card has its key among the played keys. |
| BingoContext.VerificarGanador | src/core/BingoContext.jsx:107-133 | An unknown card id gives card-not-found. A win happens iff the mode is carton_lleno and every song of the first card with that id has been played. Line mode is a non-winning stub. |
| BingoContext.WinnerStaysWinner | src/core/BingoContext.jsx:111-124 | Playing more songs never turns a winning card into a losing one. |
| BingoContext.MissingSongLoses | src/core/BingoContext.jsx:115-124 | A card with a song that was never played cannot win a full-card check. |
| BingoContext.MarcarCancionKeepsVerdict | src/core/BingoContext.jsx:91-133 | Manual marks do not influence the winner check. |
| BingoContext.IniciarNuevoJuego | src/core/BingoContext.jsx:136-140 | A new game has no cards and no history and is active. |
| BingoContext.FinalizarJuego | src/core/BingoContext.jsx:143-145 | Ending a game only clears the active flag. |
| BingoContext.LimpiarTodo | src/core/BingoContext.jsx:148-155 | Everything is emptied and the game is inactive. |
| Database.Insert | src/core/Database.js:18-22 | The song is appended after all existing rows and returned. |
| Database.InsertMany | src/core/Database.js:24-28 | All songs are appended in order after the existing rows and returned. |
| Database.InsertManyIsRepeatedInsert | src/core/Database.js:18-28 | Inserting many equals inserting them one at a time. |
| Database.FindAll | src/core/Database.js:31-33 | All rows are returned in order. |
| Database.IndexOfId | src/core/Database.js:50 | findIndex gives the first row with the id, or nothing exactly when no row has it. |
| Database.FindById | src/core/Database.js:35-37 | The result is the first row with the id, or nothing exactly when none has it. |
| Database.FindAfterInsert | src/core/Database.js:18-37 | After insertion the song is found by its id, unless an earlier row already had that id, which then shadows it. |
| Database.Search | src/core/Database.js:39-46 | The result holds exactly the rows whose title, artist or album contains the lower-cased query, case-insensitively. |
| Database.SearchAfterInsertMany | src/core/Database.js:24-46 | Searching after a bulk insert returns the old matches followed by the matches among the new songs. |
| Database.SearchEmptyQuery | src/core/Database.js:39-46 | The empty query matches every row. |
| Database.Merge | src/core/Database.js:55 | Every song field the patch carries overrides the stored value, including clearing a nullable field. Every field it does not carry is kept, and updatedAt is always set to now. |
| Database.MergeEmpty | src/core/Database.js:55 | Merging a patch that sets nothing changes only updatedAt. |
| Database.MergeTwice | src/core/Database.js:55 | Merging the same patch twice equals merging it once at the later time. |
| Database.Update | src/core/Database.js:49-58 | A missing id is an error. Otherwise exactly the first row with the id is replaced by the merge, in place, and returned. |
| Database.FindAfterUpdate | src/core/Database.js:35-58 | After an update that keeps the id, looking the id up finds the updated song. |
| Database.UpdateEmptyPatch | src/core/Database.js:49-58 | An empty patch succeeds exactly when the id exists. It then leaves every row as it was apart from updatedAt. |
| Database.Delete | src/core/Database.js:61-70 | A missing id is an error. Otherwise exactly the first row with the id is removed. |
| Database.DeleteMany | src/core/Database.js:72-76 | Exactly the rows whose id is listed are removed. The new count is the number of rows whose id is not listed. |
| Database.DeleteManyConcat | src/core/Database.js:72-76 | Deletion keeps the order: on two lists of rows, the survivors of the first come before those of the second. |
| Database.DeleteManySingle | src/core/Database.js:72-76 | A single row survives exactly when its id is not listed. |
| Database.DeleteManyNothing | src/core/Database.js:72-76 | Deleting an empty list of ids leaves the database unchanged. |
| Database.DeleteIsDeleteMany | src/core/Database.js:61-76 | With unique ids, deleting one id equals deleting the one-element list. |
| Database.Clear | src/core/Database.js:79-82 | No rows remain. |
| Player.ResolveUrl | src/core/AudioPlayer.js:50-68 | The Invidious URL is preferred when non-empty, then the Spotify preview. Otherwise there is no URL, and a chosen URL is never empty. |
| Player.Play | src/core/AudioPlayer.js:18-48 | The song becomes current. Playing succeeds iff a URL exists and the element started. A found URL is loaded from position 0, and without one the source is unchanged. |
| Player.Stop | src/core/AudioPlayer.js:145-149 | Stopping pauses and rewinds to 0 and keeps song, source and volume. |
| Player.Pause | src/core/AudioPlayer.js:151-154 | Pausing keeps position, song, source and volume. |
| Player.Resume | src/core/AudioPlayer.js:156-161 | Resuming plays from the same position. |
| Player.AutoStop | src/core/AudioPlayer.js:36-40 | The fragment timer stops a playing element and leaves a stopped one alone. |
| Player.AudioEnded | src/core/AudioPlayer.js:8-15 | The ended event clears playing and keeps position and song. |
| Player.SetVolume | src/core/AudioPlayer.js:163-165 | The volume is clamped to [0,1]. In-range values are kept exactly. |
| Player.GetDuration | src/core/AudioPlayer.js:175-177 | The fragment length is 15 seconds. |
| Player.SetVolumeIdempotent | src/core/AudioPlayer.js:163-165 | Clamping twice is clamping once, and re-applying the stored volume changes nothing. |
| Player.PauseResume | src/core/AudioPlayer.js:151-161 | Pause then resume restores a playing element exactly. |
| Player.AutoStopAfterStop | src/core/AudioPlayer.js:36-40 | A timer firing after stop or pause has no effect, and firing twice equals once. |
| Player.PlayWithoutUrl | src/core/AudioPlayer.js:18-48 | Without any URL the song becomes current but nothing plays and the result is false. |
| Invidious.CurrentInstance | src/services/InvidiousAPI.js:82-84 | The current instance is always one of the configured mirrors. |
| Invidious.Rotate | src/services/InvidiousAPI.js:86-89 | The index advances by one modulo the number of mirrors, and the log is kept. |
| Invidious.RotateTimesIndex | src/services/InvidiousAPI.js:86-89 | n rotations advance the index by n modulo the number of mirrors. |
| Invidious.FullTurn | src/services/InvidiousAPI.js:86-89 | Rotating a whole number of turns returns to the same client. |
| Invidious.LogRequest | src/services/InvidiousAPI.js:24-35 | Exactly one entry with the given fields is appended, and the index is kept. |
| Invidious.ClearRequestLog | src/services/InvidiousAPI.js:56-59 | The log is emptied and the index kept. |
| Invidious.Bump | src/services/InvidiousAPI.js:68-70 | The counter of the key grows by one and every other counter is unchanged. |
| Invidious.BumpKeySet | src/services/InvidiousAPI.js:68-70 | Bumping adds exactly the key to the set of keys. |
| Invidious.BumpKeys | src/services/InvidiousAPI.js:68-70 | Bumping keeps the keys of the usage table distinct. |
| Invidious.UsageFrom | src/services/InvidiousAPI.js:67-70 | Each mirror's count grows by the number of log entries for it, and the total grows by the log length. |
| Invidious.GetStats | src/services/InvidiousAPI.js:62-80 | Total, successful and failed counts match the log, with successful plus failed equal to total. The per-mirror usage counts the entries of each mirror, with distinct keys. |
| Invidious.FirstSuccess | src/services/InvidiousAPI.js:95-120 | The attempt that first succeeds among the remaining attempts, each on the mirror it rotates to. It is nothing exactly when all of them fail. |
| Invidious.Backoff | src/services/InvidiousAPI.js:131-135 | The waits before successive retries are 1 s, 2 s, 3 s, and so on. |
| Invidious.FetchWithRetry | src/services/InvidiousAPI.js:91-140 | The fetch succeeds iff some attempt of three succeeds, with that attempt's data. Every attempt is logged, each failed attempt rotates the mirror, and the back-off precedes each retry. When all attempts fail, the client is rotated three times. |
| Invidious.Succeed | src/services/InvidiousAPI.js:111-120 | A success after failed attempts logs it, returns its data and identifies it as the first success. |
| Invidious.Fail | src/services/InvidiousAPI.js:122-135 | A failed attempt is logged against the current mirror, the ring advances one step, and a pause of 1000·(attempt+1) ms follows unless it was the last attempt. |
| Invidious.FailureStep | src/services/InvidiousAPI.js:122-136 | A failed attempt extends the log and rotation of failures by one. |
| Invidious.SuccessStep | src/services/InvidiousAPI.js:111-120 | A successful attempt after failures is the first success, and logging it completes the log. |
| Invidious.BestUnique | src/services/InvidiousAPI.js:269-271 | Only one audio format is the best: highest bitrate, earliest on ties. |
| Invidious.SelectAudio | src/services/InvidiousAPI.js:261-271 | The chosen format is the best audio format, and there is none exactly when no format is audio. |
| Invidious.GetAudioUrl | src/services/InvidiousAPI.js:251-286 | A failed fetch, missing formats, or no audio format gives the matching error. Otherwise the result is the best audio format of the first successful reply. |
| Invidious.ExtractVideoId | src/services/InvidiousAPI.js:142-154 | An id is found iff a URL pattern matches or the whole input is an 11-character bare id. A found id is non-empty and made of id characters, or is the bare input. |
| Invidious.BareIdUnchanged | src/services/InvidiousAPI.js:145-150 | A bare 11-character id is returned unchanged. |
| Invidious.WatchUrl | src/services/InvidiousAPI.js:144 | A youtube.com/watch?v= URL gives back the id it carries. |
| Invidious.ShortUrl | src/services/InvidiousAPI.js:144 | A youtu.be/ URL gives back the id it carries. |
| Invidious.EmbedUrl | src/services/InvidiousAPI.js:144 | A youtube.com/embed/ URL gives back the id it carries. |
| Invidious.ExtractPlaylistId | src/services/InvidiousAPI.js:156-159 | A playlist id is found iff "?list=" or "&list=" is followed by at least one character other than '&'. The id contains no '&'. |
| Invidious.PlaylistUrl | src/services/InvidiousAPI.js:157 | A URL with list=<id> gives back the id up to the next '&'. |
| Invidious.NoPlaylist | src/services/InvidiousAPI.js:156-159 | Without "list=" there is no playlist id. |
| Invidious.Designated | src/services/InvidiousAPI.js:293 | Reading an optional "<digits><designator>" group either consumes nothing, with value 0, or consumes digits ending in the designator. |
| Invidious.ParseDuration | src/services/InvidiousAPI.js:288-302 | Numbers pass through. Text without "PT" gives the 180-second default, and ISO text gives a non-negative number of seconds. |
| Invidious.ReadAt | src/services/InvidiousAPI.js:293-297 | A digit run followed by the designator is read as its decimal value and consumed. |
| Invidious.ReadHours | src/services/InvidiousAPI.js:293-298 | An H/M/S time part is read as h·3600 + m·60 + s. |
| Invidious.ReadNoHours | src/services/InvidiousAPI.js:293-298 | An M/S time part is read as m·60 + s. |
| Invidious.ParseFull | src/services/InvidiousAPI.js:293-298 | "PT<h>H<m>M<s>S" parses to h·3600 + m·60 + s. |
| Invidious.ParseMinutesSeconds | src/services/InvidiousAPI.js:293-298 | "PT<m>M<s>S" parses to m·60 + s. |
| Invidious.ParseParts | src/services/InvidiousAPI.js:293-298 | "PT" followed by any mix of hours, minutes and seconds parts, each present or absent, gives the sum of the present parts. An absent part counts 0 (PT45S, PT3M, PT1H30S, …). |
| Invidious.ParseRendered | src/services/InvidiousAPI.js:288-302 | Rendering any h, m and s as ISO text and parsing it gives back h·3600 + m·60 + s. |
| YouTubeApi.Create | src/services/YouTubeAPI.js:5-12 | A new service satisfies the quota invariant. |
| YouTubeApi.ShouldStore | src/services/YouTubeAPI.js:32-34 | With a database, a missing result throws, and only non-empty results are cached. Without a database nothing is cached. |
| YouTubeApi.SearchSongs | src/services/YouTubeAPI.js:14-63 | A cached answer is returned as is. Quota grows by one search cost only when the official API answered under the limit. With a database and no cached answer, a non-empty result is stored, and anything stored is that non-empty returned result. |
| YouTubeApi.CacheFirst | src/services/YouTubeAPI.js:16-22 | A cache hit ignores both searches. |
| YouTubeApi.InvidiousSuccessSpendsNothing | src/services/YouTubeAPI.js:27-36 | A successful Invidious search is the answer, whatever the official API would say, and costs no quota. |
| YouTubeApi.ExhaustedQuotaNeverCallsOfficial | src/services/YouTubeAPI.js:45-62 | Once the quota is spent, a failed Invidious search ends with the quota error, whatever the official API would say. |
| YouTubeApi.OfficialSearchCost | src/services/YouTubeAPI.js:45-60 | An answered official search costs exactly one search, and a failed one costs nothing and reports no service. |
| YouTubeApi.SearchKeepsQuotaInvariant | src/services/YouTubeAPI.js:45-48 | Quota use stays within the limit and a whole number of searches. |
| YouTubeApi.ResetQuota | src/services/YouTubeAPI.js:85-88 | Quota use returns to zero. |
| YouTubeApi.GetQuotaStatus | src/services/YouTubeAPI.js:90-97 | Used plus remaining is the limit, and under the invariant the remainder is a whole number of searches. |
| YouTubeApi.GetVideoUrl | src/services/YouTubeAPI.js:79-82 | The watch URL is strictly longer than the id. |
| YouTubeApi.VideoUrlRoundTrip | src/services/YouTubeAPI.js:79-82 | The id extractor recovers the id from its own watch URL. |
| Validation.AnyFlagged | src/services/ValidationHelper.js:55-58 | True iff some log entry names googleapis.com or youtube.com/api. |
| Validation.CheckForYouTubeApiUsage | src/services/ValidationHelper.js:52-67 | The check fails exactly when some request was flagged. |
| Validation.Cleanup | src/services/ValidationHelper.js:84-87 | The log is emptied and the mirror index kept. |
| Validation.CleanupPasses | src/services/ValidationHelper.js:84-87 | A fresh or cleaned-up client passes the check. |
| Validation.LoggingIsMonotone | src/services/ValidationHelper.js:55-58 | One more request keeps the check passing iff it is not flagged, and never repairs a failure. |
| Validation.MirrorOnlyLogPasses | src/services/ValidationHelper.js:52-67 | A log of requests to the configured mirrors only always passes. |
| Validation.InstancesNotFlagged | src/services/InvidiousAPI.js:5-14 | No configured mirror carries either marker of the official API. |
| ImportDialog.DetectSource | src/components/ImportDialog.jsx:12-16 | Spotify iff the URL names spotify.com. YouTube iff it does not but names youtube.com or youtu.be. Nothing iff it names none of them. |
| ImportDialog.HandleImport | src/components/ImportDialog.jsx:18-33 | A blank URL is refused first. A hand-picked source runs, and in automatic mode detection decides or the URL is refused as undetected. |
| ImportDialog.GuardOrder | src/components/ImportDialog.jsx:19-29 | An all-whitespace URL is refused whatever the selector, and any other URL runs the hand-picked source. |
| ImportDialog.SpotifyWins | src/components/ImportDialog.jsx:13 | A URL containing spotify.com anywhere is Spotify, even if it also names YouTube. |
| YouTubeImport.DurationOr | src/services/YouTubeImporter.cjs:20 | A missing or zero duration becomes the 180-second default. |
| YouTubeImport.CueWindow | src/services/YouTubeImporter.cjs:20-22 | The cue window lies within the video, is min(15, duration) long and starts no later than 30 s. Long videos get 30–45 s. |
| YouTubeImport.WindowOfLongVideos | src/services/YouTubeImporter.cjs:20-22 | Imported windows are at most 15 s, and missing or long durations give 30–45 s. |
| YouTubeImport.SongOf | src/services/YouTubeImporter.cjs:24-38 | The song carries the video id, the default duration and its cue window, with fallback title and artist, and has audio. |
| YouTubeImport.ImportVideo | src/services/YouTubeImporter.cjs:6-43 | An unparseable URL is rejected before any lookup. Lookup failures and missing info are reported. A good lookup gives exactly the song built from the video under the extracted id, and any success has that id and audio. |
| YouTubeImport.InvalidUrlNeedsNoLookup | src/services/YouTubeImporter.cjs:7-11 | The result for an invalid URL does not depend on the lookup. |
| YouTubeImport.BuildSongs | src/services/YouTubeImporter.cjs:64-105 | Exactly the entries with a video id become songs, in order, with one progress report per song. |
| YouTubeImport.AdvanceKeeps | src/services/YouTubeImporter.cjs:64-100 | One loop step keeps "songs are built from the accepted prefix" and "progress reports every song". |
| YouTubeImport.ImportPlaylist | src/services/YouTubeImporter.cjs:45-121 | Invalid URL, failed lookup and empty playlist are errors. Otherwise the songs come from exactly the usable videos, each with audio and a report, and the stats count them all as successful. |
| YouTubeImport.SearchSong | src/services/YouTubeImporter.cjs:131-145 | A search result becomes a song with the fixed 30–45 s window and audio. |
| YouTubeImport.SearchAndImport | src/services/YouTubeImporter.cjs:123-150 | A failed search, or one with a null entry, gives no songs. Otherwise there is one song per result, in order, each with the fixed window. |
| SpotifyApi.Load | src/services/SpotifyAPI.js:5-11 | A loaded client has no valid token and has credentials iff both stored strings are non-empty. |
| SpotifyApi.SetCredentials | src/services/SpotifyAPI.js:13-20 | New credentials are stored, and the cached token is invalid at every time. |
| SpotifyApi.GetAccessToken | src/services/SpotifyAPI.js:26-61 | A valid cached token is returned without a request. Missing credentials and failed requests are errors. A new token is cached until now + (expires_in − 300) seconds. |
| SpotifyApi.CachedTokenNeedsNoRequest | src/services/SpotifyAPI.js:28-30 | With a valid cache the request's outcome is irrelevant. |
| SpotifyApi.TokenReusedUntilExpiry | src/services/SpotifyAPI.js:28-54 | A fresh token is reused for every call before its margin-adjusted expiry. |
| SpotifyApi.ShortLivedTokenNotReused | src/services/SpotifyAPI.js:52-54 | A token that lives no longer than the 300-second margin is never reused. |
| SpotifyApi.SetCredentialsForcesRequest | src/services/SpotifyAPI.js:13-34 | After new credentials, the next token call fails if they are empty and otherwise fetches a new token. |
| SpotifyApi.SearchTrack | src/services/SpotifyAPI.js:63-90 | Tracks are returned iff a token was obtained and the search answered with a non-empty list. |
| SpotifyApi.FirstArtist | src/services/SpotifyAPI.js:108 | The first artist exists exactly when the track lists one. |
| SpotifyApi.FirstPreview | src/services/SpotifyAPI.js:101-113 | The preview of the first track having one, of 30 seconds. There is none iff no track has a preview. |
| SpotifyApi.FirstPreviewIsFirstIndex | src/services/SpotifyAPI.js:101-111 | The loop agrees with find-first over the tracks. |
| SpotifyApi.GetPreviewUrl | src/services/SpotifyAPI.js:92-118 | A failed search gives null. Otherwise the preview is that of the first track that has one, lasting 30 seconds, and it is null iff no track has one. |
| SpotifyApi.NoCredentialsNoPreview | src/services/SpotifyAPI.js:92-118 | Without credentials or a cached token there is no preview. |
| SpotifyApi.ExtractPlaylistId | src/services/SpotifyAPI.js:156-160 | An id is found iff "playlist/" is followed by an alphanumeric run, which is the id. |
| SpotifyApi.PlaylistUrl | src/services/SpotifyAPI.js:157 | A playlist URL gives back its id. |
| SpotifyApi.NoPlaylist | src/services/SpotifyAPI.js:156-160 | Without "playlist/" there is no id. |
| SpotifyApi.EntryOf | src/services/SpotifyAPI.js:143-147 | An entry keeps the track name, takes the first artist or "Artista Desconocido", and has a preview iff the track does. |
| SpotifyApi.ImportPlaylist | src/services/SpotifyAPI.js:120-154 | Token errors come first, then an invalid URL, then a failed track request. A null track fails the import. Otherwise the listing succeeds, with one entry per track, in order. |
| SpotifyApi.CredentialsCheckedFirst | src/services/SpotifyAPI.js:120-129 | Without credentials the import fails before the URL is even looked at. |
| SpotifyImport.ExtractPlaylistId | src/services/SpotifyImporter.js:7-10 | A found id is a non-empty alphanumeric run, and every URL the API client accepts is accepted here too. |
| SpotifyImport.PlaylistUrl | src/services/SpotifyImporter.js:8 | Both the "playlist/" and "playlist:" forms give back the id. |
| SpotifyImport.UriForm | src/services/SpotifyImporter.js:8 | A spotify:playlist: URI gives back its id. |
| SpotifyImport.UriFormRejectedByApi | src/services/SpotifyImporter.js:7-10 | The API client's own extractor rejects the URI form that the importer accepts. |
| SpotifyImport.FindYouTubeVideo | src/services/SpotifyImporter.js:12-26 | The video is the id of the first result for "<title> <artist> official audio", whenever that first result is present. A failed or empty search, or a null first result, gives none. |
| SpotifyImport.FallbackWindow | src/services/SpotifyImporter.js:32-38 | The window is centred in the track: 15 s long when the track allows, the whole track otherwise. |
| SpotifyImport.LoudestFrom | src/services/SpotifyImporter.js:41-43 | The reduce finds the first section of maximal loudness. |
| SpotifyImport.Loudest | src/services/SpotifyImporter.js:41-43 | The index is of maximal loudness and strictly louder than every earlier section. |
| SpotifyImport.LoudestIsUnique | src/services/SpotifyImporter.js:41-43 | Any index that is maximal and first is the one chosen. |
| SpotifyImport.SectionWindow | src/services/SpotifyImporter.js:45-49 | The window starts at the floor of the section start and lasts 15 s, cut at the end of the track. |
| SpotifyImport.DetectBestClip | src/services/SpotifyImporter.js:28-62 | A failed analysis or missing sections give the fallback window. Otherwise the window is at the first loudest section. |
| SpotifyImport.ArtistLine | src/services/SpotifyImporter.js:102 | One artist is shown as is, and none gives the empty string. |
| SpotifyImport.TrackSongFields | src/services/SpotifyImporter.js:84-118 | A track song has the track's name, album and duration in seconds, and the YouTube match of its first artist. It has audio iff a match was found, and its window is fixed or detected as configured. |
| SpotifyImport.BuildSongs | src/services/SpotifyImporter.js:81-130 | Exactly the present tracks become songs, in order, each reported. |
| SpotifyImport.AdvanceKeeps | src/services/SpotifyImporter.js:81-130 | One loop step keeps the built-from and reported invariants. |
| SpotifyImport.ImportPlaylist | src/services/SpotifyImporter.js:64-142 | An invalid URL and a failing playlist or track lookup are errors, and a track without artists fails the import. Good lookups whose tracks all name an artist succeed. Otherwise the songs, progress and playlist name match the listing, and the with-audio and without-audio counts add up to the total. |
| SpotifyImport.WindowsOfImportedSongs | src/services/SpotifyImporter.js:90-97 | Without detection the window is fixed, and a failed analysis gives a window of at most 15 s inside the track. |
| Formatter.RemoveBrackets | src/utils/songFormatter.js:12 | Removing bracketed groups never lengthens the title. |
| Formatter.NoCloserKept | src/utils/songFormatter.js:12 | Removal introduces no closing bracket. |
| Formatter.RemoveBracketsBalanced | src/utils/songFormatter.js:12 | No opening bracket with a later closing bracket survives the removal. |
| Formatter.NoOpenerUnchanged | src/utils/songFormatter.js:12 | A title without opening brackets is unchanged. |
| Formatter.GroupRemoved | src/utils/songFormatter.js:12 | The first bracketed group, opener through first closer, is dropped and the text before it kept. |
| Formatter.CollapseSpaces | src/utils/songFormatter.js:62 | Collapsing keeps emptiness and whether the title starts with whitespace. |
| Formatter.CollapseSpacesShape | src/utils/songFormatter.js:62 | The result has no two consecutive whitespace characters and only plain spaces. |
| Formatter.CollapseIdentity | src/utils/songFormatter.js:62 | Single-spaced text is unchanged. |
| Formatter.CollapseIdempotent | src/utils/songFormatter.js:62 | Collapsing twice equals collapsing once. |
| Formatter.ReplacePipes | src/utils/songFormatter.js:68 | No pipe remains, and text without one is unchanged. |
| Formatter.Stripped | src/utils/songFormatter.js:9-68 | The cleaned title has no pipe before the final trim. |
| Formatter.CleanSongTitle | src/utils/songFormatter.js:6-71 | A missing or empty title gives the empty string. |
| Formatter.CleanTitleShape | src/utils/songFormatter.js:62-70 | A cleaned title has no whitespace at either end and no pipe. |
| Formatter.TrimmedShape | src/utils/songFormatter.js:70 | Trimming pipe-free text gives pipe-free text without edge whitespace. |
| Formatter.PlainTitleUnchanged | src/utils/songFormatter.js:6-71 | With no keyword to remove, a title already trimmed and single-spaced, without brackets, dashes or pipes, is unchanged. |
| Formatter.Truncate | src/utils/songFormatter.js:105-114 | The result fits the maximum. A short text is kept, and a long one is cut to max − 3 characters plus "...". |
| Formatter.TruncateIdempotent | src/utils/songFormatter.js:105-114 | Shortening twice equals shortening once. |
| Formatter.SplitArtist | src/utils/songFormatter.js:84-92 | A known artist or a title without " - " is left as is. |
| Formatter.ArtistFromTitle | src/utils/songFormatter.js:85-92 | Without an artist, "A - T" becomes artist A and title T, both trimmed. |
| Formatter.BlankHeadNotSplit | src/utils/songFormatter.js:85-92 | Without an artist, a title whose text before the first " - " is blank is not split. |
| Formatter.FormatAsWritten | src/utils/songFormatter.js:78-120 | As written, a null song gives empty strings, and a result that is not an error shows the artist after the " - " split, shortened. |
| Formatter.AsWrittenThrowsWithoutTitle | src/utils/songFormatter.js:98-108 | As written, a song without a title throws. |
| Formatter.FormatSongForBingo | src/utils/songFormatter.js:78-120 | Title and artist fit 60 and 40 characters, a null song gives empty strings, and a known artist is the shortened artist. |
| Formatter.CorrectedAgreesWhereDefined | src/utils/songFormatter.js:78-120 | The code as written fails exactly for songs without a title. Elsewhere it agrees with the corrected version, which gives an empty title there. |
| Formatter.FormattedArtistFromTitle | src/utils/songFormatter.js:84-92 | A song without an artist, titled "A - T" with A not blank, is shown with artist A trimmed and shortened. With A blank, the artist stays empty. |
| Formatter.TitleChoice | src/utils/songFormatter.js:95-102 | The shortened cleaned title is used unless it is blank or shorter than 3, and otherwise the shortened original title. The artist shown is the artist after the " - " split, shortened. |
| Formatter.GetCleanTitle | src/utils/songFormatter.js:127-130 | The card title is the formatted title, at most 60 characters. |
| Formatter.GetCleanArtist | src/utils/songFormatter.js:137-140 | The card artist is the formatted artist, at most 40 characters. |
| Text.JoinSplit | src/utils/songFormatter.js:85-91 | Joining the parts of a split with the same separator gives the text back. |
| Text.SplitHeadTail | src/utils/songFormatter.js:85-91 | The first part is the text before the first separator, and the rest rejoined is the text after it. |
| Text.Trim | src/components/ImportDialog.jsx:19 | The trimmed text has no whitespace at either end, and is empty iff the text is all whitespace. |

## Left out

- Network access, timers, `Math.random`, `Date` and `uuid` become parameters. Replies, random draws, clocks and fresh ids are supplied by the caller, and every possible answer is covered.
- Persistence (localStorage, electron-store) and the React state plumbing are not modelled. The operations work on explicit values.
- Console logging, `setValidationMode`, `exportLog`, and the `exportarDatos`/`importarDatos` JSON export are left out. They report or serialise and change no state the model keeps.
- The `successRate` and `percentage` strings of the statistics (`toFixed`) are left out because they involve floating-point formatting. The counts they derive from are modelled.
- The keyword regular expressions of `cleanSongTitle` (src/utils/songFormatter.js:15-59) are abstracted as the `keywords` parameter, a string transformer. Bracket removal, space collapsing, edge dashes, pipes and trimming are modelled exactly.
- `getVideoInfo`, `getPlaylistVideos` and `searchVideos` of the Invidious client (src/services/InvidiousAPI.js:161-249) are oracles. Their request and retry logic is `FetchWithRetry`. The oracles allow every reply, including some the client never gives, such as a failed video lookup or an unbounded result list. The importers' contracts therefore cover more inputs than can occur.
- The field mapping inside those three calls is not modelled. Each maps `author` to the artist with the default 'Canal desconocido', uses `lengthSeconds || 180`, and builds a thumbnail URL.
- `getVideoInfo` is not modelled as never throwing. On any failure it returns the fallback record `{id, title: 'Video de YouTube', artist: 'Canal desconocido', duration: 180}`. The model's `ImportVideo` also covers a failed lookup, which the client never reports.
- The empty-playlist error of `getPlaylistVideos` is not modelled inside the client. The model reports an empty playlist in `YouTubeImport.ImportPlaylist`.
- The `slice(0, maxResults)` of `searchVideos`, and its `[]` on error, are not modelled. `findYouTubeVideo` asks for 1 result and `searchAndImport` for 10, so a search oracle may return longer lists than the client would.
- `getAudioAnalysis`, `getPlaylist` and `getPlaylistTracks`, which the Spotify importer calls, do not exist in `SpotifyAPI.js`. They are oracles.
- `invidious.searchSongs`, which `YouTubeAPI.searchSongs` calls, does not exist either. The Invidious step is an oracle that may fail.
- The engine calls the Invidious client's `getAudioUrl` with a title and an artist, while the client expects a video id. The call is an oracle reply.
- `getInvidiousUrl` and `getSpotifyPreview` inside the audio player are taken as optional URLs.
- Song fields that no operation inspects (year, cover image, popularity, explicit, source type) are not modelled. Neither is a patch that carries them.
- BingoContext.VerificarGanador: the mode is always passed. A call that relies on the default of line 107 is the call with "carton_lleno".
- BingoContext.AgregarCancion: numbers the entry from the current history length. The code reads the length through the callback's closure, which can be stale when two songs are added in one render.
- Invidious.FetchWithRetry: RetriesExhausted carries no text. The code's error message repeats the last failure's message.
- Progress callbacks are always recorded as a list. The case of no callback is the same list, ignored.
- String lengths count Unicode scalar values, where JavaScript counts UTF-16 code units. `toLowerCase` is modelled for ASCII and Latin-1 only.
- Card grid generation, card PDF export and the views are outside this model.
- The line-win mode is a stub in the code and is modelled as such.
- YouTubeImport.BuildSongs: the fresh id of each song is a function of its position. The code calls `uuid` once per song, and this is the same up to renaming.
- Formatter.CleanSongTitle: its own contract states only the empty case. The shape of the result is stated by `Formatter.CleanTitleShape`, and the unchanged case by `Formatter.PlainTitleUnchanged`.
- SpotifyImport.ExtractPlaylistId: the contract states one direction only. Every URL the API client accepts is accepted, and `SpotifyImport.PlaylistUrl` and `SpotifyImport.UriForm` give the positive cases.
- SpotifyImport.BuildSongs: requires every present track to name an artist. The missing-artist case, which throws in the code, is handled and stated by `SpotifyImport.ImportPlaylist`.
- Formatter.RemoveBrackets: its own contract states only the length bound. Its meaning is given by `Formatter.GroupRemoved`, `Formatter.NoOpenerUnchanged` and `Formatter.RemoveBracketsBalanced`.

## Findings

| source | as written | input that shows it | evidently intended | confidence | as-written member | corrected member |
|---|---|---|---|---|---|---|
| src/utils/songFormatter.js:98-108 | When the cleaned title is blank or shorter than 3 characters, the title falls back to `song.title` without a default. For a song without a title, `title.length` then throws a TypeError. | `formatSongForBingo({ artist: "x" })` | Fall back to `song.title \|\| ''`, as lines 81-82 already do for the initial values, giving an empty title. | not executed | Formatter.FormatAsWritten (with Formatter.AsWrittenThrowsWithoutTitle) | Formatter.FormatSongForBingo (with Formatter.CorrectedAgreesWhereDefined) |

=== FILE: capture.dfy ===
/** The one regular-expression shape the URL helpers use:
    `/(?:h1|h2|...)([C]+)/` applied with `String.prototype.match`, i.e. the
    leftmost position where one of the literal heads occurs (tried in order)
    and is followed by at least one character of class `C`; the result is
    group 1, the greedy run of `C` characters. */
module Capture {
  import opened Wrappers
  import opened Text

  /** End of the maximal run of `ok` characters that starts at `i`. */
  function RunEnd(s: string, i: nat, ok: char -> bool): (j: nat)
    requires i <= |s|
    ensures i <= j <= |s|
    ensures forall k :: i <= k < j ==> ok(s[k])
    ensures j == |s| || !ok(s[j])
    decreases |s| - i
  {
    if i < |s| && ok(s[i]) then RunEnd(s, i + 1, ok) else i
  }

  /** A run is determined by where it stops: all `ok` up to `e`, then a
      non-`ok` character or the end of the string. */
  lemma RunEndAt(s: string, i: nat, e: nat, ok: char -> bool)
    requires i <= e <= |s|
    requires forall k :: i <= k < e ==> ok(s[k])
    requires e == |s| || !ok(s[e])
    ensures RunEnd(s, i, ok) == e
  {
  }

  /** Where group 1 starts if the regex matches at position `p`: the first
      head (in order) that occurs at `p` and is followed by an `ok` char. */
  function HeadAt(s: string, p: nat, heads: seq<string>, ok: char -> bool): (c: Option<nat>)
    ensures c.Some? ==> c.value < |s| && ok(s[c.value])
    ensures c.Some? ==> exists k :: 0 <= k < |heads| && OccursAt(s, heads[k], p) && c.value == p + |heads[k]|
    ensures c.None? ==> forall k :: 0 <= k < |heads| && OccursAt(s, heads[k], p) ==>
                          p + |heads[k]| == |s| || !ok(s[p + |heads[k]|])
  {
    if |heads| == 0 then None
    else if OccursAt(s, heads[0], p) && p + |heads[0]| < |s| && ok(s[p + |heads[0]|]) then
      Some(p + |heads[0]|)
    else
      var c := HeadAt(s, p, heads[1..], ok);
      assert c.Some? ==> exists k :: 0 <= k < |heads| - 1 && OccursAt(s, heads[1..][k], p)
                                     && c.value == p + |heads[1..][k]|;
      c
  }

  /** No match starts anywhere in `[lo, hi)`. */
  predicate NoMatchIn(s: string, lo: nat, hi: nat, heads: seq<string>, ok: char -> bool) {
    forall q :: lo <= q < hi ==> HeadAt(s, q, heads, ok).None?
  }

  /** The leftmost match position at or after `from`, with its group start. */
  function FirstMatch(s: string, from: nat, heads: seq<string>, ok: char -> bool): (m: Option<(nat, nat)>)
    requires from <= |s|
    ensures m.Some? ==> from <= m.value.0 <= |s| && HeadAt(s, m.value.0, heads, ok) == Some(m.value.1)
    decreases |s| - from
  {
    var here := HeadAt(s, from, heads, ok);
    if here.Some? then Some((from, here.value))
    else if from == |s| then None
    else FirstMatch(s, from + 1, heads, ok)
  }

  /** The match found is the leftmost one, and none found means none
      anywhere from `from` on. */
  lemma {:induction false} FirstMatchLeftmost(s: string, from: nat, heads: seq<string>, ok: char -> bool)
    requires from <= |s|
    ensures var m := FirstMatch(s, from, heads, ok);
            && (m.Some? ==> NoMatchIn(s, from, m.value.0, heads, ok))
            && (m.None? ==> NoMatchIn(s, from, |s| + 1, heads, ok))
    decreases |s| - from
  {
    if HeadAt(s, from, heads, ok).None? && from < |s| {
      var m := FirstMatch(s, from + 1, heads, ok);
      assert FirstMatch(s, from, heads, ok) == m;
      FirstMatchLeftmost(s, from + 1, heads, ok);
      var hi := if m.Some? then m.value.0 else |s| + 1;
      NoMatchExtend(s, from, hi, heads, ok);
    }
  }

  /** A range without a match grows by one position without a match. */
  lemma NoMatchExtend(s: string, lo: nat, hi: nat, heads: seq<string>, ok: char -> bool)
    requires lo < hi && HeadAt(s, lo, heads, ok).None? && NoMatchIn(s, lo + 1, hi, heads, ok)
    ensures NoMatchIn(s, lo, hi, heads, ok)
  {
  }

  /** `s.match(regex)?.[1] ?? null`. */
  function Extract(s: string, heads: seq<string>, ok: char -> bool): (r: Option<string>)
    ensures r.Some? <==> exists p :: 0 <= p <= |s| && HeadAt(s, p, heads, ok).Some?
    ensures r.Some? ==> |r.value| > 0 && forall i :: 0 <= i < |r.value| ==> ok(r.value[i])
  {
    FirstMatchLeftmost(s, 0, heads, ok);
    match FirstMatch(s, 0, heads, ok)
    case None => None
    case Some((p, c)) =>
      assert HeadAt(s, p, heads, ok).Some?;
      var e := RunEnd(s, c, ok);
      assert forall i :: 0 <= i < e - c ==> s[c..e][i] == s[c + i];
      Some(s[c..e])
  }

  /** A head right after `u`, followed by a maximal run `id`, is what the
      regex captures when no head occurs at any position inside `u`. */
  lemma ExtractAt(u: string, h: string, id: string, tail: string, heads: seq<string>, ok: char -> bool)
    requires h in heads
    requires forall q, j :: 0 <= q < |u| && 0 <= j < |heads| ==> !OccursAt(u + h + id + tail, heads[j], q)
    requires forall j :: 0 <= j < |heads| && OccursAt(u + h + id + tail, heads[j], |u|) ==> heads[j] == h
    requires |id| > 0 && forall i :: 0 <= i < |id| ==> ok(id[i])
    requires tail == [] || !ok(tail[0])
    ensures Extract(u + h + id + tail, heads, ok) == Some(id)
  {
    var s := u + h + id + tail;
    var c := |u| + |h|;
    assert s[|u|..c] == h;
    assert s[c..c + |id|] == id;
    assert forall k :: c <= k < c + |id| ==> s[k] == id[k - c];
    assert c < |s| && ok(s[c]);
    var j :| 0 <= j < |heads| && heads[j] == h;
    assert OccursAt(s, heads[j], |u|);
    assert HeadAt(s, |u|, heads, ok) == Some(c);
    forall q | 0 <= q < |u|
      ensures HeadAt(s, q, heads, ok).None?
    {
      forall k | 0 <= k < |heads| && OccursAt(s, heads[k], q)
        ensures false
      {
      }
    }
    var m := FirstMatch(s, 0, heads, ok);
    FirstMatchLeftmost(s, 0, heads, ok);
    assert m.Some? && m.value.0 == |u| && m.value.1 == c;
    if tail != [] {
      assert s[c + |id|] == tail[0];
    }
    RunEndAt(s, c, c + |id|, ok);
  }

  /** No position inside `u` can start a head when `u` lacks every head's
      first character. */
  lemma ExtractAfter(u: string, h: string, id: string, tail: string, heads: seq<string>, ok: char -> bool)
    requires forall j :: 0 <= j < |heads| ==> |heads[j]| > 0 && heads[j][0] !in u
    requires h in heads
    requires forall j :: 0 <= j < |heads| && OccursAt(u + h + id + tail, heads[j], |u|) ==> heads[j] == h
    requires |id| > 0 && forall i :: 0 <= i < |id| ==> ok(id[i])
    requires tail == [] || !ok(tail[0])
    ensures Extract(u + h + id + tail, heads, ok) == Some(id)
  {
    var s := u + h + id + tail;
    forall q, j | 0 <= q < |u| && 0 <= j < |heads|
      ensures !OccursAt(s, heads[j], q)
    {
      assert s[q] == u[q];
    }
    ExtractAt(u, h, id, tail, heads, ok);
  }

  /** With no head anywhere in `s`, nothing is captured. */
  lemma ExtractNone(s: string, heads: seq<string>, ok: char -> bool)
    requires forall j :: 0 <= j < |heads| ==> !Contains(s, heads[j])
    ensures Extract(s, heads, ok) == None
  {
    forall p | 0 <= p <= |s|
      ensures HeadAt(s, p, heads, ok).None?
    {
      forall k | 0 <= k < |heads| && OccursAt(s, heads[k], p)
        ensures false
      {
      }
    }
  }
}

=== FILE: card.dfy ===
/** The card entity (`src/models/BingoCard.js`): identity, a grid of song
    ids, creation time and the seed it was laid out from. The generator that
    fills grids is not part of the shown source, so grids are taken as
    given. `uuidv4()` and `new Date().toISOString()` are parameters. */
module Card {
  import opened Wrappers
  import opened Songs

  const Size: nat := 5
  const FreeRow: nat := 2
  const FreeCol: nat := 2

  datatype BingoCard = BingoCard(id: string, grid: seq<seq<string>>, createdAt: string, seed: Option<string>)

  /** What the constructor and `fromJSON` accept; every field may be absent. */
  datatype CardData = CardData(
    id: Option<string>,
    grid: Option<seq<seq<string>>>,
    createdAt: Option<string>,
    seed: Option<string>)

  /** `new BingoCard(data)`: a falsy `id` is replaced by a fresh uuid, a
      missing grid by `[]`, a falsy `createdAt` by the current time and a
      falsy `seed` by `null`. An array, even an empty one, is truthy. */
  function Construct(data: CardData, freshId: string, now: string): (c: BingoCard)
    ensures c.id == (if Truthy(data.id) then data.id.value else freshId)
    ensures c.grid == (if data.grid.Some? then data.grid.value else [])
    ensures c.createdAt == (if Truthy(data.createdAt) then data.createdAt.value else now)
    ensures c.seed == (if Truthy(data.seed) then data.seed else None)
  {
    BingoCard(OrElse(data.id, freshId),
              data.grid.GetOr([]),
              OrElse(data.createdAt, now),
              if Truthy(data.seed) then data.seed else None)
  }

  /** The shape every constructed card has: non-empty id and timestamp, and
      never an empty-string seed. */
  predicate WellFormed(c: BingoCard) {
    c.id != [] && c.createdAt != [] && c.seed != Some([])
  }

  /** Construction from empty data yields an empty grid and no seed, and a
      well-formed card whenever the fresh id and the clock are non-empty. */
  lemma ConstructDefaults(freshId: string, now: string)
    ensures Construct(CardData(None, None, None, None), freshId, now)
            == BingoCard(freshId, [], now, None)
    ensures freshId != [] && now != [] ==>
            WellFormed(Construct(CardData(None, None, None, None), freshId, now))
  {
  }

  /** Construction always yields a well-formed card from a non-empty fresh
      id and a non-empty clock reading. */
  lemma ConstructWellFormed(data: CardData, freshId: string, now: string)
    requires freshId != [] && now != []
    ensures WellFormed(Construct(data, freshId, now))
  {
  }

  /** `toJSON()`: exactly id, grid, createdAt and seed. Reading it back
      with `fromJSON` gives the same card, whatever id and time would have
      been generated. */
  function ToJson(c: BingoCard): (d: CardData)
    ensures d.id == Some(c.id) && d.grid == Some(c.grid)
    ensures d.createdAt == Some(c.createdAt) && d.seed == c.seed
    ensures forall freshId: string, now: string ::
              WellFormed(c) ==> FromJson(d, freshId, now) == c
  {
    CardData(Some(c.id), Some(c.grid), Some(c.createdAt), c.seed)
  }

  /** `BingoCard.fromJSON(data)` is the constructor. */
  function FromJson(d: CardData, freshId: string, now: string): BingoCard {
    Construct(d, freshId, now)
  }

  /** What `getSongAt` can produce. `Null` is the explicit `null` of the
      bounds check; `Undefined` is reading past the end of a shorter row;
      `Fault` is the `TypeError` of indexing a missing row. */
  datatype Lookup = Null | Undefined | Value(songId: string) | Fault

  /** `getSongAt(row, col)`. */
  function GetSongAt(c: BingoCard, row: int, col: int): (r: Lookup)
    ensures !(0 <= row < Size && 0 <= col < Size) ==> r == Null
    ensures 0 <= row < Size && 0 <= col < Size && row < |c.grid| && col < |c.grid[row]|
            ==> r == Value(c.grid[row][col])
    ensures r == Fault <==> 0 <= row < Size && 0 <= col < Size && row >= |c.grid|
  {
    if row < 0 || row >= Size || col < 0 || col >= Size then Null
    else if row >= |c.grid| then Fault
    else if col >= |c.grid[row]| then Undefined
    else Value(c.grid[row][col])
  }

  /** A full 5 by 5 grid. */
  predicate FullGrid(g: seq<seq<string>>) {
    |g| == Size && forall r :: 0 <= r < Size ==> |g[r]| == Size
  }

  /** On a full grid every in-bounds lookup yields the cell and nothing
      else can fault; the default empty grid faults on every in-bounds
      lookup. */
  lemma GetSongAtFullGrid(c: BingoCard, row: int, col: int)
    ensures FullGrid(c.grid) ==> GetSongAt(c, row, col) != Fault && GetSongAt(c, row, col) != Undefined
    ensures c.grid == [] && 0 <= row < Size && 0 <= col < Size ==> GetSongAt(c, row, col) == Fault
  {
  }

  /** `isFreeSpace(row, col)`: only the centre cell. */
  function IsFreeSpace(row: int, col: int): (b: bool)
    ensures b <==> row == FreeRow && col == FreeCol
  {
    row == 2 && col == 2
  }
}

=== FILE: context.dfy ===
/** The game state shared by the views (`src/core/BingoContext.jsx`): the
    list of cards ("cartones"), the play history ("historial") and whether a
    game is running. Each React state update `set(prev => f(prev))` is the
    pure function `f`; persistence to `localStorage` is not modelled. Clock
    readings and generated ids are parameters. */
module BingoContext {
  import opened Wrappers
  import opened Songs
  import opened Lists

  /** A song as the cards and the history refer to it: the win check keys
      it by `id || videoId`. */
  datatype SongRef = SongRef(id: Option<string>, videoId: Option<string>)

  /** `song.id || song.videoId`; `None` is `undefined`. */
  function Key(r: SongRef): Option<string> {
    if Truthy(r.id) then r.id else r.videoId
  }

  /** A stored card: its songs live under `songs` or, in older data, under
      `canciones`; `marcadas` lists the song ids marked on it. */
  datatype Carton = Carton(
    id: string,
    songs: Option<seq<SongRef>>,
    canciones: Option<seq<SongRef>>,
    marcadas: seq<string>,
    fechaCreacion: string)

  /** A card as handed to `agregarCarton`. */
  datatype CartonInput = CartonInput(id: Option<string>, songs: Option<seq<SongRef>>, canciones: Option<seq<SongRef>>)

  /** The fields `actualizarCarton` may overwrite (`{...c, ...datos}`), one
      per field of `Carton`; the song lists may be set to `null`, hence the
      nested options. */
  datatype CartonPatch = CartonPatch(
    id: Option<string>,
    songs: Option<Option<seq<SongRef>>>,
    canciones: Option<Option<seq<SongRef>>>,
    marcadas: Option<seq<string>>,
    fechaCreacion: Option<string>)

  /** The patch that sets nothing. */
  const EmptyCartonPatch: CartonPatch := CartonPatch(None, None, None, None, None)

  /** A history entry: the played song, when, and its 1-based position. */
  datatype Played = Played(song: SongRef, timestamp: string, orden: nat)

  datatype Game = Game(cartones: seq<Carton>, historial: seq<Played>, juegoActivo: bool)

  /** `agregarCarton(carton)`: appends the card with a fresh creation time
      and no marks, keeping a caller-supplied (truthy) id, and returns the
      id. */
  function AgregarCarton(g: Game, input: CartonInput, freshId: string, now: string): (r: (Game, string))
    ensures |r.0.cartones| == |g.cartones| + 1
    ensures r.0.cartones[..|g.cartones|] == g.cartones
    ensures var c := r.0.cartones[|g.cartones|];
            && c.id == r.1 && c.marcadas == [] && c.fechaCreacion == now
            && c.songs == input.songs && c.canciones == input.canciones
    ensures r.1 == (if Truthy(input.id) then input.id.value else freshId)
    ensures r.0.historial == g.historial && r.0.juegoActivo == g.juegoActivo
  {
    var c := Carton(OrElse(input.id, freshId), input.songs, input.canciones, [], now);
    (g.(cartones := g.cartones + [c]), c.id)
  }

  function IdIs(id: string): Carton -> bool {
    (c: Carton) => c.id == id
  }

  function IdIsNot(id: string): Carton -> bool {
    (c: Carton) => c.id != id
  }

  /** `eliminarCarton(id)`: drops every card with that id, keeping the
      others in order. */
  function EliminarCarton(g: Game, id: string): (r: Game)
    ensures forall c :: c in r.cartones <==> c in g.cartones && c.id != id
    ensures |r.cartones| == |g.cartones| - CountIf(g.cartones, IdIs(id))
    ensures r.historial == g.historial && r.juegoActivo == g.juegoActivo
  {
    var kept := Filter(g.cartones, IdIsNot(id));
    FilterLength(g.cartones, IdIsNot(id));
    CountSplit(g.cartones, IdIs(id), IdIsNot(id));
    g.(cartones := kept)
  }

  /** Removal works card by card: on a list made of two parts the kept
      cards of the first part come, in order, before those of the second. */
  lemma EliminarCartonConcat(g: Game, a: seq<Carton>, b: seq<Carton>, id: string)
    ensures EliminarCarton(g.(cartones := a + b), id).cartones
            == EliminarCarton(g.(cartones := a), id).cartones + EliminarCarton(g.(cartones := b), id).cartones
  {
    FilterConcat(a, b, IdIsNot(id));
  }

  /** A single card is kept exactly when it has another id. */
  lemma EliminarCartonSingle(g: Game, c: Carton, id: string)
    ensures EliminarCarton(g.(cartones := [c]), id).cartones == if c.id == id then [] else [c]
  {
    FilterSingle(c, IdIsNot(id));
  }

  /** Removing an id no card carries changes nothing. */
  lemma EliminarCartonAbsent(g: Game, id: string)
    requires forall i :: 0 <= i < |g.cartones| ==> g.cartones[i].id != id
    ensures EliminarCarton(g, id) == g
  {
    FilterAll(g.cartones, IdIsNot(id));
  }

  /** Adding a card under an id no other card carries and then removing
      that id gives the game back. */
  lemma AgregarThenEliminar(g: Game, input: CartonInput, freshId: string, now: string)
    requires forall i :: 0 <= i < |g.cartones| ==> g.cartones[i].id != AgregarCarton(g, input, freshId, now).1
    ensures var added := AgregarCarton(g, input, freshId, now);
            EliminarCarton(added.0, added.1) == g
  {
    var added := AgregarCarton(g, input, freshId, now);
    var c := added.0.cartones[|g.cartones|];
    assert added.0.cartones == g.cartones + [c];
    FilterConcat(g.cartones, [c], IdIsNot(added.1));
    FilterAll(g.cartones, IdIsNot(added.1));
    FilterSingle(c, IdIsNot(added.1));
    assert g.cartones + [] == g.cartones;
  }

  /** `{...c, ...datos}`: every field the patch carries overrides the
      card's, every other field is kept. */
  function ApplyPatch(c: Carton, p: CartonPatch): (r: Carton)
    ensures Takes(p.id, c.id, r.id) && Takes(p.songs, c.songs, r.songs)
    ensures Takes(p.canciones, c.canciones, r.canciones) && Takes(p.marcadas, c.marcadas, r.marcadas)
    ensures Takes(p.fechaCreacion, c.fechaCreacion, r.fechaCreacion)
  {
    Carton(p.id.GetOr(c.id), p.songs.GetOr(c.songs), p.canciones.GetOr(c.canciones),
           p.marcadas.GetOr(c.marcadas), p.fechaCreacion.GetOr(c.fechaCreacion))
  }

  /** `actualizarCarton(id, datos)`: merges into matching cards only. */
  function ActualizarCarton(g: Game, id: string, p: CartonPatch): (r: Game)
    ensures |r.cartones| == |g.cartones|
    ensures forall i :: 0 <= i < |g.cartones| && g.cartones[i].id == id ==>
              r.cartones[i] == ApplyPatch(g.cartones[i], p)
    ensures forall i :: 0 <= i < |g.cartones| && g.cartones[i].id != id ==>
              r.cartones[i] == g.cartones[i]
    ensures r.historial == g.historial && r.juegoActivo == g.juegoActivo
  {
    var cs := g.cartones;
    g.(cartones := seq(|cs|, i requires 0 <= i < |cs| => if cs[i].id == id then ApplyPatch(cs[i], p) else cs[i]))
  }

  /** Updating with an empty patch changes nothing. */
  lemma ActualizarCartonEmpty(g: Game, id: string)
    ensures ActualizarCarton(g, id, EmptyCartonPatch) == g
  {
    var r := ActualizarCarton(g, id, EmptyCartonPatch);
    assert r.cartones == g.cartones;
  }

  /** `agregarCancion(cancion)`: appends an entry numbered one past the
      current history length, and returns it. */
  function AgregarCancion(g: Game, song: SongRef, now: string): (r: (Game, Played))
    ensures |r.0.historial| == |g.historial| + 1
    ensures r.0.historial[..|g.historial|] == g.historial
    ensures r.0.historial[|g.historial|] == r.1
    ensures r.1.song == song && r.1.orden == |g.historial| + 1 && r.1.timestamp == now
    ensures r.0.cartones == g.cartones && r.0.juegoActivo == g.juegoActivo
  {
    var e := Played(song, now, |g.historial| + 1);
    (g.(historial := g.historial + [e]), e)
  }

  /** History positions are 1, 2, 3, ... in order. */
  predicate Numbered(h: seq<Played>) {
    forall i :: 0 <= i < |h| ==> h[i].orden == i + 1
  }

  /** Appending keeps the history consecutively numbered. */
  lemma AgregarCancionNumbered(g: Game, song: SongRef, now: string)
    requires Numbered(g.historial)
    ensures Numbered(AgregarCancion(g, song, now).0.historial)
  {
  }

  /** One card after `marcarCancion`: the id is added only if absent. */
  function Mark(c: Carton, cartonId: string, songId: string): (r: Carton)
    ensures r.id == c.id && r.songs == c.songs && r.canciones == c.canciones
    ensures r.fechaCreacion == c.fechaCreacion
    ensures c.id != cartonId ==> r == c
    ensures c.id == cartonId ==> songId in r.marcadas
    ensures c.id == cartonId && songId in c.marcadas ==> r == c
    ensures c.id == cartonId && songId !in c.marcadas ==> r.marcadas == c.marcadas + [songId]
  {
    if c.id == cartonId && songId !in c.marcadas then c.(marcadas := c.marcadas + [songId]) else c
  }

  /** `marcarCancion(cartonId, cancionId)`. */
  function MarcarCancion(g: Game, cartonId: string, songId: string): (r: Game)
    ensures |r.cartones| == |g.cartones|
    ensures forall i :: 0 <= i < |g.cartones| ==> r.cartones[i] == Mark(g.cartones[i], cartonId, songId)
    ensures r.historial == g.historial && r.juegoActivo == g.juegoActivo
  {
    var cs := g.cartones;
    g.(cartones := seq(|cs|, i requires 0 <= i < |cs| => Mark(cs[i], cartonId, songId)))
  }

  /** Marking twice is marking once. */
  lemma MarcarCancionIdempotent(g: Game, cartonId: string, songId: string)
    ensures MarcarCancion(MarcarCancion(g, cartonId, songId), cartonId, songId) == MarcarCancion(g, cartonId, songId)
  {
    var once := MarcarCancion(g, cartonId, songId);
    var twice := MarcarCancion(once, cartonId, songId);
    assert forall i :: 0 <= i < |once.cartones| ==> twice.cartones[i] == once.cartones[i];
  }

  /** Every card's marks are duplicate-free. */
  predicate MarksDistinct(g: Game) {
    forall i :: 0 <= i < |g.cartones| ==> NoDuplicates(g.cartones[i].marcadas)
  }

  /** Marking never introduces a duplicate mark. */
  lemma MarcarCancionKeepsMarksDistinct(g: Game, cartonId: string, songId: string)
    requires MarksDistinct(g)
    ensures MarksDistinct(MarcarCancion(g, cartonId, songId))
  {
    var r := MarcarCancion(g, cartonId, songId);
    forall i | 0 <= i < |r.cartones|
      ensures NoDuplicates(r.cartones[i].marcadas)
    {
      var m := g.cartones[i].marcadas;
      if r.cartones[i].marcadas != m {
        assert r.cartones[i].marcadas == m + [songId];
        assert forall j :: 0 <= j < |m| ==> m[j] != songId;
      }
    }
  }

  /** The songs of a card: `carton.songs || carton.canciones || []`. */
  function CardSongs(c: Carton): seq<SongRef> {
    if c.songs.Some? then c.songs.value else c.canciones.GetOr([])
  }

  /** The keys of every played song (`new Set(historial.map(...))`). */
  function PlayedKeys(h: seq<Played>): (keys: set<Option<string>>)
    ensures forall i :: 0 <= i < |h| ==> Key(h[i].song) in keys
    ensures forall k :: k in keys ==> exists i :: 0 <= i < |h| && Key(h[i].song) == k
  {
    set i | 0 <= i < |h| :: Key(h[i].song)
  }

  /** `cancionesCarton.every(c => reproducidas.has(key(c)))`. */
  function AllPlayed(songs: seq<SongRef>, played: set<Option<string>>): (b: bool)
    ensures b <==> forall i :: 0 <= i < |songs| ==> Key(songs[i]) in played
  {
    if |songs| == 0 then true
    else Key(songs[0]) in played && AllPlayed(songs[1..], played)
  }

  /** Every song on the card has been played. */
  predicate Complete(c: Carton, h: seq<Played>) {
    forall s :: s in CardSongs(c) ==> Key(s) in PlayedKeys(h)
  }

  /** The result of `verificarGanador`, by which branch produced it. */
  datatype Verdict =
    | CardNotFound             // 'Cartón no encontrado'
    | FullCard(winner: bool)   // 'carton_lleno'
    | LineNotImplemented       // 'linea' is a stub
    | UnknownMode              // any other mode
  {
    /** `esGanador`. */
    function EsGanador(): bool {
      FullCard? && winner
    }
  }

  /** `verificarGanador(cartonId, tipoVictoria)`: the first card with the
      id; in mode 'carton_lleno' it wins iff every one of its songs has been
      played (a card without songs wins); every other outcome is a loss. */
  function VerificarGanador(g: Game, cartonId: string, mode: string): (v: Verdict)
    ensures FirstIndex(g.cartones, IdIs(cartonId)).None? <==> v == CardNotFound
    ensures v.EsGanador() <==>
              && mode == "carton_lleno"
              && FirstIndex(g.cartones, IdIs(cartonId)).Some?
              && Complete(g.cartones[FirstIndex(g.cartones, IdIs(cartonId)).value], g.historial)
    ensures v.LineNotImplemented? ==> mode == "linea"
  {
    match FirstIndex(g.cartones, IdIs(cartonId))
    case None => CardNotFound
    case Some(i) =>
      if mode == "carton_lleno" then FullCard(AllPlayed(CardSongs(g.cartones[i]), PlayedKeys(g.historial)))
      else if mode == "linea" then LineNotImplemented
      else UnknownMode
  }

  /** A winning card stays a winner as more songs are played. */
  lemma WinnerStaysWinner(g: Game, cartonId: string, mode: string, song: SongRef, now: string)
    requires VerificarGanador(g, cartonId, mode).EsGanador()
    ensures VerificarGanador(AgregarCancion(g, song, now).0, cartonId, mode).EsGanador()
  {
    var g' := AgregarCancion(g, song, now).0;
    assert PlayedKeys(g.historial) <= PlayedKeys(g'.historial) by {
      forall k | k in PlayedKeys(g.historial)
        ensures k in PlayedKeys(g'.historial)
      {
        var i :| 0 <= i < |g.historial| && Key(g.historial[i].song) == k;
        assert g'.historial[i] == g.historial[i];
      }
    }
  }

  /** Missing any one song of the card means no full-card win. */
  lemma MissingSongLoses(g: Game, cartonId: string, s: SongRef)
    requires FirstIndex(g.cartones, IdIs(cartonId)).Some?
    requires s in CardSongs(g.cartones[FirstIndex(g.cartones, IdIs(cartonId)).value])
    requires forall i :: 0 <= i < |g.historial| ==> Key(g.historial[i].song) != Key(s)
    ensures !VerificarGanador(g, cartonId, "carton_lleno").EsGanador()
  {
  }

  /** Marks play no part in winning: marking a song leaves every verdict
      as it was. */
  lemma MarcarCancionKeepsVerdict(g: Game, cartonId: string, songId: string, id: string, mode: string)
    ensures VerificarGanador(MarcarCancion(g, cartonId, songId), id, mode) == VerificarGanador(g, id, mode)
  {
    var g' := MarcarCancion(g, cartonId, songId);
    assert forall i :: 0 <= i < |g.cartones| ==> IdIs(id)(g'.cartones[i]) == IdIs(id)(g.cartones[i]);
    var a := FirstIndex(g.cartones, IdIs(id));
    var b := FirstIndex(g'.cartones, IdIs(id));
    if a.Some? {
      assert b.Some? && b.value == a.value;
    } else {
      assert b.None?;
    }
  }

  /** `iniciarNuevoJuego()`: no cards, no history, game running. */
  function IniciarNuevoJuego(g: Game): (r: Game)
    ensures r.cartones == [] && r.historial == [] && r.juegoActivo
  {
    Game([], [], true)
  }

  /** `finalizarJuego()`: only the running flag changes. */
  function FinalizarJuego(g: Game): (r: Game)
    ensures r.cartones == g.cartones && r.historial == g.historial && !r.juegoActivo
  {
    g.(juegoActivo := false)
  }

  /** `limpiarTodo()`: no cards, no history, no game. */
  function LimpiarTodo(g: Game): (r: Game)
    ensures r.cartones == [] && r.historial == [] && !r.juegoActivo
  {
    Game([], [], false)
  }
}

=== FILE: database.dfy ===
/** The song catalogue (`src/core/Database.js`) as an in-memory list. The
    `localStorage` copy written after every change is not modelled; each
    operation returns the new catalogue. */
module Database {
  import opened Wrappers
  import opened Text
  import opened Songs
  import opened Lists

  datatype Db = Db(songs: seq<Song>)

  /** The error `update` and `delete` throw: 'Canción no encontrada'. */
  datatype DbError = SongNotFound

  function Count(db: Db): nat {
    |db.songs|
  }

  /** `insert(song)`: appends the song and returns it. */
  function Insert(db: Db, song: Song): (r: (Db, Song))
    ensures Count(r.0) == Count(db) + 1
    ensures r.0.songs[..Count(db)] == db.songs && r.0.songs[Count(db)] == song
    ensures r.1 == song
  {
    (Db(db.songs + [song]), song)
  }

  /** `insertMany(songs)`: appends all of them, in order. */
  function InsertMany(db: Db, songs: seq<Song>): (r: (Db, seq<Song>))
    ensures Count(r.0) == Count(db) + |songs|
    ensures r.0.songs[..Count(db)] == db.songs
    ensures forall i :: 0 <= i < |songs| ==> r.0.songs[Count(db) + i] == songs[i]
    ensures r.1 == songs
  {
    (Db(db.songs + songs), songs)
  }

  /** Inserting a batch is the same as inserting its songs one at a time. */
  lemma {:induction false} InsertManyIsRepeatedInsert(db: Db, songs: seq<Song>)
    ensures InsertMany(db, songs).0 == InsertEach(db, songs)
    decreases |songs|
  {
    if |songs| > 0 {
      var last := songs[|songs| - 1];
      var init := songs[..|songs| - 1];
      InsertManyIsRepeatedInsert(db, init);
      assert init + [last] == songs;
      assert db.songs + init + [last] == db.songs + songs;
    }
  }

  /** Repeated single insertion, the reference for `InsertMany`. */
  function InsertEach(db: Db, songs: seq<Song>): Db
    decreases |songs|
  {
    if |songs| == 0 then db
    else Insert(InsertEach(db, songs[..|songs| - 1]), songs[|songs| - 1]).0
  }

  /** `findAll()`: the stored songs in storage order. The source returns a
      copy; with immutable values every result is one. */
  function FindAll(db: Db): (r: seq<Song>)
    ensures |r| == Count(db)
    ensures forall i :: 0 <= i < |r| ==> r[i] == db.songs[i]
  {
    db.songs
  }

  /** `findIndex(song => song.id === id)`, with `None` for -1. */
  function IndexOfId(songs: seq<Song>, id: string): (r: Option<nat>)
    ensures r.Some? ==> r.value < |songs| && songs[r.value].id == id
    ensures r.Some? ==> forall j :: 0 <= j < r.value ==> songs[j].id != id
    ensures r.None? <==> forall j :: 0 <= j < |songs| ==> songs[j].id != id
  {
    FirstIndex(songs, HasId(id))
  }

  /** The `findIndex`/`find` test: the song carries that id. */
  function HasId(id: string): Song -> bool {
    (s: Song) => s.id == id
  }

  /** `findById(id)`: the first song with that id, or none. */
  function FindById(db: Db, id: string): (r: Option<Song>)
    ensures r.Some? ==> r.value in db.songs && r.value.id == id
    ensures r.None? <==> forall s :: s in db.songs ==> s.id != id
    ensures r.Some? ==> exists i :: 0 <= i < |db.songs| && db.songs[i] == r.value
                                    && forall j :: 0 <= j < i ==> db.songs[j].id != id
  {
    match IndexOfId(db.songs, id)
    case None => None
    case Some(i) => Some(db.songs[i])
  }

  /** A song is found right after it is inserted unless an earlier one
      already carries its id. */
  lemma FindAfterInsert(db: Db, song: Song)
    ensures FindById(Insert(db, song).0, song.id) ==
            (if FindById(db, song.id).Some? then FindById(db, song.id) else Some(song))
  {
    var s' := db.songs + [song];
    assert forall j :: 0 <= j < |db.songs| ==> s'[j] == db.songs[j];
    assert s'[|db.songs|] == song;
  }

  /** The search predicate: the lower-cased query occurs in the lower-cased
      title, artist or (present, non-empty) album. */
  predicate Matches(song: Song, lowerQuery: string) {
    || Contains(Lower(song.title), lowerQuery)
    || Contains(Lower(song.artist), lowerQuery)
    || (Truthy(song.album) && Contains(Lower(song.album.value), lowerQuery))
  }

  /** `search(query)`: the matching songs, in storage order. */
  function Search(db: Db, query: string): (r: seq<Song>)
    ensures forall s :: s in r <==> s in db.songs && Matches(s, Lower(query))
    ensures |r| <= Count(db)
  {
    Filter(db.songs, (s: Song) => Matches(s, Lower(query)))
  }

  /** Searching after a batch insert returns the old hits followed by the
      new ones: the search keeps storage order. */
  lemma SearchAfterInsertMany(db: Db, songs: seq<Song>, query: string)
    ensures Search(InsertMany(db, songs).0, query) == Search(db, query) + Search(Db(songs), query)
  {
    FilterConcat(db.songs, songs, (s: Song) => Matches(s, Lower(query)));
  }

  /** The empty query matches every song. */
  lemma SearchEmptyQuery(db: Db)
    ensures Search(db, []) == db.songs
  {
    forall i | 0 <= i < |db.songs|
      ensures Matches(db.songs[i], Lower([]))
    {
      assert OccursAt(Lower(db.songs[i].title), [], 0);
    }
    FilterAll(db.songs, (s: Song) => Matches(s, Lower([])));
  }

  /** `{ ...song, ...updates, updatedAt: now }`: every field the patch
      carries overrides the stored one, every other field is kept, and the
      update time is always the time of the update. */
  function Merge(song: Song, patch: SongPatch, now: string): (r: Song)
    ensures Takes(patch.id, song.id, r.id)
    ensures Takes(patch.title, song.title, r.title) && Takes(patch.artist, song.artist, r.artist)
    ensures Takes(patch.album, song.album, r.album) && Takes(patch.duration, song.duration, r.duration)
    ensures Takes(patch.youtubeId, song.youtubeId, r.youtubeId)
    ensures Takes(patch.sourcePath, song.sourcePath, r.sourcePath)
    ensures Takes(patch.spotifyId, song.spotifyId, r.spotifyId)
    ensures Takes(patch.cueIn, song.cueIn, r.cueIn) && Takes(patch.cueOut, song.cueOut, r.cueOut)
    ensures Takes(patch.hasAudio, song.hasAudio, r.hasAudio)
    ensures Takes(patch.createdAt, song.createdAt, r.createdAt)
    ensures r.updatedAt == Some(now)
  {
    Song(patch.id.GetOr(song.id),
         patch.title.GetOr(song.title),
         patch.artist.GetOr(song.artist),
         patch.album.GetOr(song.album),
         patch.duration.GetOr(song.duration),
         patch.youtubeId.GetOr(song.youtubeId),
         patch.sourcePath.GetOr(song.sourcePath),
         patch.spotifyId.GetOr(song.spotifyId),
         patch.cueIn.GetOr(song.cueIn),
         patch.cueOut.GetOr(song.cueOut),
         patch.hasAudio.GetOr(song.hasAudio),
         patch.createdAt.GetOr(song.createdAt),
         Some(now))
  }

  /** An empty patch only stamps the update time. */
  lemma MergeEmpty(song: Song, now: string)
    ensures Merge(song, EmptyPatch, now) == song.(updatedAt := Some(now))
  {
  }

  /** Applying the same edit again changes nothing but the update time. */
  lemma MergeTwice(song: Song, patch: SongPatch, t1: string, t2: string)
    ensures Merge(Merge(song, patch, t1), patch, t2) == Merge(song, patch, t2)
  {
  }

  /** `update(id, updates)`: throws on a missing id; otherwise only the
      first song with that id changes, and it returns the merged song. */
  function Update(db: Db, id: string, patch: SongPatch, now: string): (r: Result<(Db, Song), DbError>)
    ensures r.Err? <==> FindById(db, id).None?
    ensures r.Ok? ==> Count(r.value.0) == Count(db)
    ensures r.Ok? ==> exists i :: (0 <= i < Count(db) && db.songs[i].id == id
                                   && (forall j :: 0 <= j < i ==> db.songs[j].id != id)
                                   && r.value.0.songs == db.songs[i := Merge(db.songs[i], patch, now)]
                                   && r.value.1 == Merge(db.songs[i], patch, now))
  {
    match IndexOfId(db.songs, id)
    case None => Err(SongNotFound)
    case Some(i) =>
      var updated := Merge(db.songs[i], patch, now);
      Ok((Db(db.songs[i := updated]), updated))
  }

  /** After an edit that keeps the id, looking the id up gives the merged
      song that `update` returned. */
  lemma FindAfterUpdate(db: Db, id: string, patch: SongPatch, now: string)
    requires FindById(db, id).Some?
    requires patch.id.None? || patch.id == Some(id)
    ensures Update(db, id, patch, now).Ok?
    ensures FindById(Update(db, id, patch, now).value.0, id) == Some(Update(db, id, patch, now).value.1)
  {
    var i := IndexOfId(db.songs, id).value;
    var s' := db.songs[i := Merge(db.songs[i], patch, now)];
    assert forall j :: 0 <= j < i ==> s'[j] == db.songs[j];
    assert s'[i].id == id;
  }

  /** An edit carrying no field succeeds exactly for a stored id and then
      changes nothing but the update time of the first song with that id. */
  lemma UpdateEmptyPatch(db: Db, id: string, now: string)
    ensures Update(db, id, EmptyPatch, now).Ok? <==> FindById(db, id).Some?
    ensures Update(db, id, EmptyPatch, now).Ok? ==>
              var songs := Update(db, id, EmptyPatch, now).value.0.songs;
              && |songs| == Count(db)
              && forall j :: 0 <= j < |songs| ==> songs[j].(updatedAt := db.songs[j].updatedAt) == db.songs[j]
  {
    if FindById(db, id).Some? {
      var i := IndexOfId(db.songs, id).value;
      MergeEmpty(db.songs[i], now);
    }
  }

  /** `delete(id)`: throws on a missing id; otherwise removes exactly the
      first song with that id. */
  function Delete(db: Db, id: string): (r: Result<Db, DbError>)
    ensures r.Err? <==> FindById(db, id).None?
    ensures r.Ok? ==> Count(r.value) == Count(db) - 1
    ensures r.Ok? ==> exists i :: (0 <= i < Count(db) && db.songs[i].id == id
                                   && (forall j :: 0 <= j < i ==> db.songs[j].id != id)
                                   && r.value.songs == db.songs[..i] + db.songs[i + 1..])
  {
    match IndexOfId(db.songs, id)
    case None => Err(SongNotFound)
    case Some(i) => Ok(Db(db.songs[..i] + db.songs[i + 1..]))
  }

  /** The `deleteMany` filter: the song's id is not listed. */
  function Kept(ids: seq<string>): Song -> bool {
    (s: Song) => s.id !in ids
  }

  /** `deleteMany(ids)`: keeps exactly the songs whose id is not listed,
      as many as there are of them. */
  function DeleteMany(db: Db, ids: seq<string>): (r: Db)
    ensures forall s :: s in r.songs <==> s in db.songs && s.id !in ids
    ensures Count(r) == CountIf(db.songs, Kept(ids))
  {
    FilterLength(db.songs, Kept(ids));
    Db(Filter(db.songs, Kept(ids)))
  }

  /** Bulk deletion works song by song: on a catalogue made of two parts it
      keeps the survivors of the first part, in order, before those of the
      second. */
  lemma DeleteManyConcat(a: seq<Song>, b: seq<Song>, ids: seq<string>)
    ensures DeleteMany(Db(a + b), ids).songs == DeleteMany(Db(a), ids).songs + DeleteMany(Db(b), ids).songs
  {
    FilterConcat(a, b, Kept(ids));
  }

  /** A single song survives exactly when its id is not listed. */
  lemma DeleteManySingle(s: Song, ids: seq<string>)
    ensures DeleteMany(Db([s]), ids).songs == if s.id in ids then [] else [s]
  {
    FilterSingle(s, Kept(ids));
  }

  /** Deleting no ids keeps the catalogue as it is. */
  lemma DeleteManyNothing(db: Db)
    ensures DeleteMany(db, []) == db
  {
    FilterAll(db.songs, Kept([]));
  }

  /** Ids are unique in the catalogue. */
  predicate UniqueIds(db: Db) {
    forall i, j :: 0 <= i < j < |db.songs| ==> db.songs[i].id != db.songs[j].id
  }

  /** With unique ids, deleting one id and bulk-deleting the singleton list
      of that id agree. */
  lemma DeleteIsDeleteMany(db: Db, id: string)
    requires UniqueIds(db) && FindById(db, id).Some?
    ensures Delete(db, id) == Ok(DeleteMany(db, [id]))
  {
    var xs := db.songs;
    var i := IndexOfId(xs, id).value;
    assert Delete(db, id) == Ok(Db(xs[..i] + xs[i + 1..]));
    var p := Kept([id]);
    forall k | 0 <= k < |xs| && k != i
      ensures p(xs[k])
    {
      assert xs[k].id != id;
    }
    FilterDropOne(xs, i, p);
  }

  /** `clear()`. */
  function Clear(db: Db): (r: Db)
    ensures Count(r) == 0
  {
    Db([])
  }
}

=== FILE: engine.dfy ===
/** The draw session of the game (`src/core/BingoEngine.js`): a pool of
    songs still to draw, the drawn songs in draw order, the current song and
    the playback flags. `Math.random()` is a parameter `r` in `[0, 1)`; the
    two audio lookups and the player are oracles; the emitted events are an
    appended trace. */
module Engine {
  import opened Wrappers
  import opened Songs
  import opened Lists

  /** `audioSource`: only these two values are ever stored. */
  datatype Source = Invidious | Spotify

  /** The events the engine emits, with their payloads. */
  datatype Event =
    | SongsLoaded(count: nat)
    | AudioSourceChanged(source: Source)
    | BingoFinished
    | SongDrawn(song: Song, remaining: nat, drawnCount: nat)
    | PlaybackStarted(song: Song)
    | PlaybackError(song: Song, message: string)
    | PlaybackEnded(last: Option<Song>)
    | PlaybackPaused
    | PlaybackResumed
    | PlaybackStopped
    | AutoPlayChanged(enabled: bool)
    | Reset

  datatype Engine = Engine(
    pool: seq<Song>,
    drawn: seq<Song>,
    current: Option<Song>,
    isPlaying: bool,
    isPaused: bool,
    autoPlay: bool,
    source: Source,
    events: seq<Event>)

  /** The exported singleton as constructed: empty, auto-play on, Invidious. */
  const Initial := Engine([], [], None, false, false, true, Invidious, [])

  /** What `InvidiousAPI.getAudioUrl` does for the song: it throws (with
      its message) or returns data whose `url` may be missing. */
  datatype InvidiousReply = Threw(message: string) | Returned(url: Option<string>)

  /** The two messages the engine throws itself. */
  const NoSourceMessage := "No se pudo obtener URL de audio de ninguna fuente"
  const PlayFailedMessage := "Fall\U{F3} la reproducci\U{F3}n"

  /** `loadSongs(songs)`: a fresh pool, nothing drawn, no current song. */
  function LoadSongs(e: Engine, songs: seq<Song>): (r: Engine)
    ensures r.pool == songs && r.drawn == [] && r.current == None
    ensures r.isPlaying == e.isPlaying && r.isPaused == e.isPaused
    ensures r.autoPlay == e.autoPlay && r.source == e.source
    ensures r.events == e.events + [SongsLoaded(|songs|)]
  {
    e.(pool := songs, drawn := [], current := None, events := e.events + [SongsLoaded(|songs|)])
  }

  /** `setAudioSource(source)`: only 'invidious' and 'spotify' are taken;
      any other value changes nothing and emits nothing. */
  function SetAudioSource(e: Engine, name: string): (r: Engine)
    ensures name == "invidious" ==> r == e.(source := Invidious, events := e.events + [AudioSourceChanged(Invidious)])
    ensures name == "spotify" ==> r == e.(source := Spotify, events := e.events + [AudioSourceChanged(Spotify)])
    ensures name != "invidious" && name != "spotify" ==> r == e
  {
    if name == "invidious" then e.(source := Invidious, events := e.events + [AudioSourceChanged(Invidious)])
    else if name == "spotify" then e.(source := Spotify, events := e.events + [AudioSourceChanged(Spotify)])
    else e
  }

  /** `Math.floor(r * n)` for `r` in `[0, 1)`: a valid index into `n`. */
  function RandomIndex(r: real, n: nat): (i: nat)
    requires 0.0 <= r < 1.0 && n > 0
    ensures i < n
    ensures i as real <= r * n as real < (i + 1) as real
  {
    (r * n as real).Floor
  }

  /** Every index is drawn for some value of `Math.random()`. */
  lemma {:induction false} EveryIndexReachable(i: nat, n: nat)
    requires i < n
    ensures 0.0 <= i as real / n as real < 1.0
    ensures RandomIndex(i as real / n as real, n) == i
  {
    var r := i as real / n as real;
    assert r * n as real == i as real;
  }

  /** The draw itself (`drawNextSong` up to the `songDrawn` event): on an
      empty pool only `bingoFinished` is emitted and nothing is drawn;
      otherwise the song at `RandomIndex(r, |pool|)` moves from the pool to
      the end of the drawn list and becomes current. */
  function Draw(e: Engine, r: real): (res: (Engine, Option<Song>))
    requires 0.0 <= r < 1.0
    ensures |e.pool| == 0 ==> res == (e.(events := e.events + [BingoFinished]), None)
    ensures |e.pool| > 0 ==>
              var i := RandomIndex(r, |e.pool|);
              && res.1 == Some(e.pool[i])
              && res.0.pool == e.pool[..i] + e.pool[i + 1..]
              && res.0.drawn == e.drawn + [e.pool[i]]
              && res.0.current == res.1
    ensures |e.pool| > 0 ==>
              res.0.events == e.events + [SongDrawn(res.1.value, |res.0.pool|, |res.0.drawn|)]
    ensures res.0.isPlaying == e.isPlaying && res.0.isPaused == e.isPaused
    ensures res.0.autoPlay == e.autoPlay && res.0.source == e.source
  {
    if |e.pool| == 0 then (e.(events := e.events + [BingoFinished]), None)
    else
      var i := RandomIndex(r, |e.pool|);
      var song := e.pool[i];
      var pool := e.pool[..i] + e.pool[i + 1..];
      var drawn := e.drawn + [song];
      (e.(pool := pool, drawn := drawn, current := Some(song),
          events := e.events + [SongDrawn(song, |pool|, |drawn|)]), Some(song))
  }

  /** A draw moves one song: nothing is lost or duplicated between the pool
      and the drawn list, their total length is kept, and the drawn list
      only grows at its end. */
  lemma {:induction false} DrawConserves(e: Engine, r: real)
    requires 0.0 <= r < 1.0
    ensures multiset(Draw(e, r).0.pool) + multiset(Draw(e, r).0.drawn) == multiset(e.pool) + multiset(e.drawn)
    ensures |Draw(e, r).0.pool| + |Draw(e, r).0.drawn| == |e.pool| + |e.drawn|
    ensures e.drawn <= Draw(e, r).0.drawn
    ensures |e.pool| > 0 ==> |Draw(e, r).0.pool| == |e.pool| - 1
  {
    if |e.pool| > 0 {
      var i := RandomIndex(r, |e.pool|);
      assert e.pool == e.pool[..i] + [e.pool[i]] + e.pool[i + 1..];
    }
  }

  /** A session whose songs are pairwise distinct never draws a song twice:
      the pool and the drawn list together stay free of duplicates. */
  lemma {:induction false} DrawKeepsDistinct(e: Engine, r: real)
    requires 0.0 <= r < 1.0
    requires NoDuplicates(e.drawn + e.pool)
    ensures NoDuplicates(Draw(e, r).0.drawn + Draw(e, r).0.pool)
  {
    if |e.pool| > 0 {
      var i := RandomIndex(r, |e.pool|);
      var before := e.drawn + e.pool;
      var after := Draw(e, r).0.drawn + Draw(e, r).0.pool;
      var d := |e.drawn|;
      // `after` is `before` with position `d + i` moved to position `d`.
      var src := (k: nat) => if k < d then k else if k == d then d + i else if k <= d + i then k - 1 else k;
      assert forall k :: 0 <= k < |after| ==> after[k] == before[src(k)];
      forall a, b | 0 <= a < b < |after|
        ensures after[a] != after[b]
      {
        assert src(a) != src(b);
      }
    }
  }

  /** Where the audio URL comes from: the selected source first and the
      other one as backup, but only when the first returned no URL; a throw
      from Invidious ends the attempt with its message. */
  function ResolveAudio(source: Source, invidious: InvidiousReply, spotify: Option<string>): (r: Result<string, string>)
    ensures r.Ok? ==> r.value != []
    ensures source == Invidious && invidious.Threw? ==> r == Err(invidious.message)
    ensures source == Invidious && invidious.Returned? && Truthy(invidious.url) ==> r == Ok(invidious.url.value)
    ensures source == Spotify && Truthy(spotify) ==> r == Ok(spotify.value)
  {
    match source
    case Invidious =>
      (match invidious
       case Threw(msg) => Err(msg)
       case Returned(url) => if Truthy(url) then Ok(url.value) else FromSpotify(spotify))
    case Spotify =>
      if Truthy(spotify) then Ok(spotify.value) else FromInvidious(invidious)
  }

  /** A lookup of `SpotifyAPI.getPreviewUrl`, which never throws. */
  function FromSpotify(spotify: Option<string>): (r: Result<string, string>)
    ensures r.Ok? <==> Truthy(spotify)
    ensures r.Ok? ==> r.value == spotify.value
    ensures r.Err? ==> r.error == NoSourceMessage
  {
    if Truthy(spotify) then Ok(spotify.value) else Err(NoSourceMessage)
  }

  /** A lookup of `InvidiousAPI.getAudioUrl`, which may throw. */
  function FromInvidious(invidious: InvidiousReply): (r: Result<string, string>)
    ensures r.Ok? <==> invidious.Returned? && Truthy(invidious.url)
    ensures r.Ok? ==> r.value == invidious.url.value
    ensures invidious.Threw? ==> r == Err(invidious.message)
    ensures invidious.Returned? && !Truthy(invidious.url) ==> r == Err(NoSourceMessage)
  {
    match invidious
    case Threw(msg) => Err(msg)
    case Returned(url) => if Truthy(url) then Ok(url.value) else Err(NoSourceMessage)
  }

  /** The backup is always the other source: when the selected one returns
      no URL, the outcome is exactly that of a lookup of the other one. */
  lemma BackupIsOtherSource(invidious: InvidiousReply, spotify: Option<string>)
    ensures invidious.Returned? && !Truthy(invidious.url) ==>
              ResolveAudio(Invidious, invidious, spotify) == FromSpotify(spotify)
    ensures !Truthy(spotify) ==> ResolveAudio(Spotify, invidious, spotify) == FromInvidious(invidious)
    ensures ResolveAudio(Invidious, invidious, spotify).Ok? ==> FromInvidious(invidious).Ok? || FromSpotify(spotify).Ok?
    ensures ResolveAudio(Spotify, invidious, spotify).Ok? <==> FromSpotify(spotify).Ok? || FromInvidious(invidious).Ok?
  {
  }

  /** `playCurrentSong()`. `played` is what `AudioPlayer.play` reports.
      Without a current song nothing happens. Otherwise playback is marked
      started; it stays on only when a URL was resolved and the player
      played, and every failure turns it off and emits `playbackError` with
      the reason. The pool, the drawn list and the current song are never
      touched. */
  function PlayCurrentSong(e: Engine, invidious: InvidiousReply, spotify: Option<string>, played: bool): (res: (Engine, bool))
    ensures e.current.None? ==> res == (e, false)
    ensures res.0.pool == e.pool && res.0.drawn == e.drawn && res.0.current == e.current
    ensures res.0.autoPlay == e.autoPlay && res.0.source == e.source
    ensures e.current.Some? ==>
              && (res.1 <==> ResolveAudio(e.source, invidious, spotify).Ok? && played)
              && res.0.isPlaying == res.1 && !res.0.isPaused
    ensures e.current.Some? && res.1 ==> res.0.events == e.events + [PlaybackStarted(e.current.value)]
    ensures e.current.Some? && !res.1 ==>
              var reason := match ResolveAudio(e.source, invidious, spotify)
                            case Err(msg) => msg
                            case Ok(_) => PlayFailedMessage;
              res.0.events == e.events + [PlaybackStarted(e.current.value), PlaybackError(e.current.value, reason)]
  {
    match e.current
    case None => (e, false)
    case Some(song) =>
      var started := e.(isPlaying := true, isPaused := false, events := e.events + [PlaybackStarted(song)]);
      match ResolveAudio(e.source, invidious, spotify)
      case Err(msg) => (Fail(started, song, msg), false)
      case Ok(_) => if played then (started, true) else (Fail(started, song, PlayFailedMessage), false)
  }

  /** The `catch` branch: playback off, `playbackError` emitted. */
  function Fail(e: Engine, song: Song, message: string): (r: Engine)
    ensures !r.isPlaying && r.isPaused == e.isPaused
    ensures r.pool == e.pool && r.drawn == e.drawn && r.current == e.current
    ensures r.autoPlay == e.autoPlay && r.source == e.source
    ensures r.events == e.events + [PlaybackError(song, message)]
  {
    e.(isPlaying := false, events := e.events + [PlaybackError(song, message)])
  }

  /** `drawNextSong()`: the draw, then, with auto-play on and a song drawn,
      an attempt to play it. The draw is committed before playback is
      tried, and playback never changes what was drawn. */
  function DrawNextSong(e: Engine, r: real, invidious: InvidiousReply, spotify: Option<string>, played: bool): (res: (Engine, Option<Song>))
    requires 0.0 <= r < 1.0
    ensures res.1 == Draw(e, r).1
    ensures res.0.pool == Draw(e, r).0.pool && res.0.drawn == Draw(e, r).0.drawn
    ensures res.0.current == Draw(e, r).0.current
    ensures Draw(e, r).0.events <= res.0.events
    ensures !e.autoPlay || |e.pool| == 0 ==> res.0 == Draw(e, r).0
    ensures e.autoPlay && |e.pool| > 0 ==> res.0 == PlayCurrentSong(Draw(e, r).0, invidious, spotify, played).0
  {
    var (e1, song) := Draw(e, r);
    if song.Some? && e1.autoPlay then (PlayCurrentSong(e1, invidious, spotify, played).0, song)
    else (e1, song)
  }

  /** The timer armed after a successful start: playback is over. */
  function PlaybackTimerFires(e: Engine): (r: Engine)
    ensures !r.isPlaying && r.isPaused == e.isPaused
    ensures r.pool == e.pool && r.drawn == e.drawn && r.current == e.current
    ensures r.events == e.events + [PlaybackEnded(e.current)]
  {
    e.(isPlaying := false, events := e.events + [PlaybackEnded(e.current)])
  }

  /** `pausePlayback()`: only while playing and not paused. */
  function PausePlayback(e: Engine): (r: Engine)
    ensures e.isPlaying && !e.isPaused ==> r == e.(isPaused := true, events := e.events + [PlaybackPaused])
    ensures !(e.isPlaying && !e.isPaused) ==> r == e
  {
    if e.isPlaying && !e.isPaused then e.(isPaused := true, events := e.events + [PlaybackPaused]) else e
  }

  /** `resumePlayback()`: only while playing and paused. */
  function ResumePlayback(e: Engine): (r: Engine)
    ensures e.isPlaying && e.isPaused ==> r == e.(isPaused := false, events := e.events + [PlaybackResumed])
    ensures !(e.isPlaying && e.isPaused) ==> r == e
  {
    if e.isPlaying && e.isPaused then e.(isPaused := false, events := e.events + [PlaybackResumed]) else e
  }

  /** `stopPlayback()`: from any state, both flags off. */
  function StopPlayback(e: Engine): (r: Engine)
    ensures !r.isPlaying && !r.isPaused
    ensures r.pool == e.pool && r.drawn == e.drawn && r.current == e.current
    ensures r.autoPlay == e.autoPlay && r.source == e.source
    ensures r.events == e.events + [PlaybackStopped]
  {
    e.(isPlaying := false, isPaused := false, events := e.events + [PlaybackStopped])
  }

  /** `setAutoPlay(enabled)`. */
  function SetAutoPlay(e: Engine, enabled: bool): (r: Engine)
    ensures r.autoPlay == enabled && r.source == e.source
    ensures r.pool == e.pool && r.drawn == e.drawn && r.current == e.current
    ensures r.isPlaying == e.isPlaying && r.isPaused == e.isPaused
    ensures r.events == e.events + [AutoPlayChanged(enabled)]
  {
    e.(autoPlay := enabled, events := e.events + [AutoPlayChanged(enabled)])
  }

  /** `reset()`: a stop, then an empty session; auto-play and the source
      are kept. */
  function ResetEngine(e: Engine): (r: Engine)
    ensures r.pool == [] && r.drawn == [] && r.current == None
    ensures !r.isPlaying && !r.isPaused
    ensures r.autoPlay == e.autoPlay && r.source == e.source
    ensures r.events == e.events + [PlaybackStopped, Reset]
  {
    var stopped := StopPlayback(e);
    stopped.(pool := [], drawn := [], current := None, events := stopped.events + [Reset])
  }

  /** The snapshot `getState()` returns. */
  datatype Snapshot = Snapshot(
    totalSongs: nat,
    remainingSongs: nat,
    drawnSongs: nat,
    currentSong: Option<Song>,
    isPlaying: bool,
    isPaused: bool,
    autoPlayEnabled: bool,
    audioSource: Source)

  function GetState(e: Engine): (s: Snapshot)
    ensures s.totalSongs == s.remainingSongs + s.drawnSongs
    ensures s.remainingSongs == |e.pool| && s.drawnSongs == |e.drawn|
    ensures s.currentSong == e.current && s.isPlaying == e.isPlaying && s.isPaused == e.isPaused
    ensures s.autoPlayEnabled == e.autoPlay && s.audioSource == e.source
  {
    Snapshot(|e.pool| + |e.drawn|, |e.pool|, |e.drawn|, e.current, e.isPlaying, e.isPaused, e.autoPlay, e.source)
  }

  /** The total `getState` reports is the size of the loaded list for the
      whole session: draws and playback never change it. */
  lemma {:induction false} TotalKeptByDraw(e: Engine, r: real, invidious: InvidiousReply, spotify: Option<string>, played: bool)
    requires 0.0 <= r < 1.0
    ensures GetState(DrawNextSong(e, r, invidious, spotify, played).0).totalSongs == GetState(e).totalSongs
    ensures GetState(LoadSongs(e, e.pool)).totalSongs == |e.pool|
  {
    DrawConserves(e, r);
  }

  /** `reset()` is `stopPlayback()` followed by clearing the session. */
  lemma ResetIsStopThenClear(e: Engine)
    ensures ResetEngine(e) == StopPlayback(e).(pool := [], drawn := [], current := None,
                                              events := StopPlayback(e).events + [Reset])
    ensures GetState(ResetEngine(e)).totalSongs == 0
  {
  }

  /** `isPaused` implies `isPlaying`: every operation except the end-of-
      fragment timer keeps this. */
  predicate PausedOnlyWhilePlaying(e: Engine) {
    e.isPaused ==> e.isPlaying
  }

  lemma {:induction false} OperationsKeepPausedOnlyWhilePlaying(e: Engine, r: real, songs: seq<Song>, name: string,
                                                                invidious: InvidiousReply, spotify: Option<string>,
                                                                played: bool, enabled: bool)
    requires 0.0 <= r < 1.0
    requires PausedOnlyWhilePlaying(e)
    ensures PausedOnlyWhilePlaying(LoadSongs(e, songs))
    ensures PausedOnlyWhilePlaying(SetAudioSource(e, name))
    ensures PausedOnlyWhilePlaying(Draw(e, r).0)
    ensures PausedOnlyWhilePlaying(PlayCurrentSong(e, invidious, spotify, played).0)
    ensures PausedOnlyWhilePlaying(DrawNextSong(e, r, invidious, spotify, played).0)
    ensures PausedOnlyWhilePlaying(PausePlayback(e))
    ensures PausedOnlyWhilePlaying(ResumePlayback(e))
    ensures PausedOnlyWhilePlaying(StopPlayback(e))
    ensures PausedOnlyWhilePlaying(SetAutoPlay(e, enabled))
    ensures PausedOnlyWhilePlaying(ResetEngine(e))
  {
  }

  /** ... while the timer firing during a pause leaves the session paused
      but not playing, where neither `pausePlayback` nor `resumePlayback`
      acts any more. */
  lemma TimerDuringPause(e: Engine)
    requires e.isPlaying && e.isPaused
    ensures !PausedOnlyWhilePlaying(PlaybackTimerFires(e))
    ensures ResumePlayback(PlaybackTimerFires(e)) == PlaybackTimerFires(e)
    ensures PausePlayback(PlaybackTimerFires(e)) == PlaybackTimerFires(e)
  {
  }

  /** Pausing then resuming a playing session restores its flags. */
  lemma PauseThenResume(e: Engine)
    requires e.isPlaying && !e.isPaused
    ensures ResumePlayback(PausePlayback(e)).isPlaying && !ResumePlayback(PausePlayback(e)).isPaused
    ensures ResumePlayback(PausePlayback(e)).events == e.events + [PlaybackPaused, PlaybackResumed]
  {
  }
}

=== FILE: formatter.dfy ===
/** Title and artist cleanup for the bingo cards (`src/utils/songFormatter.js`).
    The cleanup chain is modelled step by step; the list of marketing
    words it strips ("official video", "letra", ...) is the parameter
    `keywords`, an arbitrary string transformation applied where the
    source applies its 29 case-insensitive patterns. */
module Formatter {
  import opened Wrappers
  import opened Text
  import opened Songs
  import opened Lists
  import Capture

  predicate IsOpener(c: char) {
    c == '(' || c == '['
  }

  predicate IsCloser(c: char) {
    c == ')' || c == ']'
  }

  /** `replace(/[\(\[][^\)\]]*[\)\]]/g, '')`: from an opener to the first
      closer after it; an opener with no closer after it stays. */
  function RemoveBrackets(s: string): (r: string)
    ensures |r| <= |s|
    decreases |s|
  {
    if |s| == 0 then []
    else
      var close := FirstIndex(s[1..], IsCloser);
      if IsOpener(s[0]) && close.Some? then RemoveBrackets(s[close.value + 2..])
      else [s[0]] + RemoveBrackets(s[1..])
  }

  /** No character of `s` satisfies `p`. */
  predicate NoneOf(s: string, p: char -> bool) {
    forall k :: 0 <= k < |s| ==> !p(s[k])
  }

  /** No closer anywhere after an opener. */
  predicate Balanced(r: string) {
    forall i, j :: 0 <= i < j < |r| && IsOpener(r[i]) ==> !IsCloser(r[j])
  }

  /** A character that opens no group is kept, and so is an opener with
      no closer after it. */
  lemma KeptHead(s: string)
    requires |s| > 0 && (!IsOpener(s[0]) || NoneOf(s[1..], IsCloser))
    ensures RemoveBrackets(s) == [s[0]] + RemoveBrackets(s[1..])
  {
    if IsOpener(s[0]) {
      assert FirstIndex(s[1..], IsCloser).None?;
    }
  }

  /** Text without a closer keeps having none. */
  lemma {:induction false} NoCloserKept(s: string)
    requires NoneOf(s, IsCloser)
    ensures NoneOf(RemoveBrackets(s), IsCloser)
    decreases |s|
  {
    if |s| > 0 {
      var tail := s[1..];
      assert forall k :: 0 <= k < |tail| ==> tail[k] == s[k + 1];
      KeptHead(s);
      NoCloserKept(tail);
      var rest := RemoveBrackets(tail);
      assert forall j :: 1 <= j < |[s[0]] + rest| ==> ([s[0]] + rest)[j] == rest[j - 1];
    }
  }

  /** What is left has no closer after an opener. */
  lemma {:induction false} RemoveBracketsBalanced(s: string)
    ensures Balanced(RemoveBrackets(s))
    decreases |s|
  {
    if |s| > 0 {
      var close := FirstIndex(s[1..], IsCloser);
      if IsOpener(s[0]) && close.Some? {
        var rest := s[close.value + 2..];
        assert RemoveBrackets(s) == RemoveBrackets(rest);
        RemoveBracketsBalanced(rest);
      } else {
        var tail := s[1..];
        KeptHead(s);
        RemoveBracketsBalanced(tail);
        var rest := RemoveBrackets(tail);
        if IsOpener(s[0]) {
          NoCloserKept(tail);
        }
        ConsBalanced(s[0], rest);
      }
    }
  }

  /** Putting a character in front keeps the text balanced when it is no
      opener or nothing after it closes. */
  lemma ConsBalanced(x: char, rest: string)
    requires Balanced(rest)
    requires IsOpener(x) ==> NoneOf(rest, IsCloser)
    ensures Balanced([x] + rest)
  {
    var r := [x] + rest;
    forall i, j | 0 <= i < j < |r| && IsOpener(r[i])
      ensures !IsCloser(r[j])
    {
      assert r[j] == rest[j - 1];
      if i > 0 {
        assert r[i] == rest[i - 1];
      }
    }
  }

  /** Text without an opener has nothing to remove. */
  lemma {:induction false} NoOpenerUnchanged(s: string)
    requires NoneOf(s, IsOpener)
    ensures RemoveBrackets(s) == s
    decreases |s|
  {
    if |s| > 0 {
      assert forall k :: 0 <= k < |s[1..]| ==> s[1..][k] == s[k + 1];
      NoOpenerUnchanged(s[1..]);
    }
  }

  /** A group at the very front goes with its brackets. */
  lemma GroupAtFront(o: char, m: string, c: char, b: string)
    requires IsOpener(o) && IsCloser(c)
    requires forall k :: 0 <= k < |m| ==> !IsCloser(m[k])
    ensures RemoveBrackets([o] + m + [c] + b) == RemoveBrackets(b)
  {
    var s := [o] + m + [c] + b;
    var t := s[1..];
    assert t == m + [c] + b;
    assert FirstIndex(t, IsCloser) == Some(|m|) by {
      assert t[|m|] == c;
      forall j | 0 <= j < |m|
        ensures !IsCloser(t[j])
      {
        assert t[j] == m[j];
      }
    }
    assert s[|m| + 2..] == b;
  }

  /** A character that opens no group is kept. */
  lemma PlainKept(x: char, t: string)
    requires !IsOpener(x)
    ensures RemoveBrackets([x] + t) == [x] + RemoveBrackets(t)
  {
    assert ([x] + t)[1..] == t;
  }

  lemma ConsAppend(x: char, t: string, u: string)
    ensures [x] + (t + u) == ([x] + t) + u
  {
  }

  /** A bracketed group after opener-free text disappears with its brackets. */
  lemma {:induction false} GroupRemoved(a: string, o: char, m: string, c: char, b: string)
    requires forall k :: 0 <= k < |a| ==> !IsOpener(a[k])
    requires IsOpener(o) && IsCloser(c)
    requires forall k :: 0 <= k < |m| ==> !IsCloser(m[k])
    ensures RemoveBrackets(a + [o] + m + [c] + b) == a + RemoveBrackets(b)
    decreases |a|
  {
    if |a| == 0 {
      assert a + [o] + m + [c] + b == [o] + m + [c] + b;
      GroupAtFront(o, m, c, b);
      assert a + RemoveBrackets(b) == RemoveBrackets(b);
    } else {
      var tail := a[1..];
      var rest := tail + [o] + m + [c] + b;
      assert a == [a[0]] + tail;
      assert a + [o] + m + [c] + b == [a[0]] + rest;
      PlainKept(a[0], rest);
      assert forall k :: 0 <= k < |tail| ==> tail[k] == a[k + 1];
      GroupRemoved(tail, o, m, c, b);
      assert RemoveBrackets(rest) == tail + RemoveBrackets(b);
      ConsAppend(a[0], tail, RemoveBrackets(b));
    }
  }

  /** `replace(/\s+/g, ' ')`: each run of white space becomes one space. */
  function CollapseSpaces(s: string): (r: string)
    ensures |r| > 0 <==> |s| > 0
    ensures |r| > 0 ==> (IsSpace(r[0]) <==> IsSpace(s[0]))
    decreases |s|
  {
    if |s| == 0 then []
    else if IsSpace(s[0]) then " " + CollapseSpaces(s[Capture.RunEnd(s, 0, IsSpace)..])
    else [s[0]] + CollapseSpaces(s[1..])
  }

  /** The only white space is single spaces. */
  predicate SingleSpaced(s: string) {
    && (forall k :: 0 <= k < |s| && IsSpace(s[k]) ==> s[k] == ' ')
    && (forall k :: 0 <= k < |s| - 1 ==> !(s[k] == ' ' && s[k + 1] == ' '))
  }

  /** Collapsing leaves text single-spaced. */
  lemma {:induction false} CollapseSpacesShape(s: string)
    ensures SingleSpaced(CollapseSpaces(s))
    decreases |s|
  {
    if |s| > 0 {
      var e := if IsSpace(s[0]) then Capture.RunEnd(s, 0, IsSpace) else 1;
      var rest := CollapseSpaces(s[e..]);
      CollapseSpacesShape(s[e..]);
      var r := CollapseSpaces(s);
      assert r == [r[0]] + rest;
      assert forall j :: 1 <= j < |r| ==> r[j] == rest[j - 1];
      if IsSpace(s[0]) {
        assert rest != [] ==> !IsSpace(rest[0]);
      }
    }
  }

  /** The class `[\s\-\|]`. */
  predicate IsEdge(c: char) {
    IsSpace(c) || c == '-' || c == '|'
  }

  /** The global replacement of `\s*\|\s*` by ' ': each pipe with the
      white space around it becomes one space. */
  function ReplacePipes(s: string): (r: string)
    ensures '|' !in r
    ensures '|' !in s ==> r == s
    decreases |s|
  {
    if |s| == 0 then []
    else
      var j := Capture.RunEnd(s, 0, IsSpace);
      if j < |s| && s[j] == '|' then
        " " + ReplacePipes(s[Capture.RunEnd(s, j + 1, IsSpace)..])
      else
        assert '|' !in s ==> '|' !in s[1..];
        [s[0]] + ReplacePipes(s[1..])
  }

  /** `trim` keeps a slice, so it adds no character. */
  lemma TrimAddsNothing(s: string, c: char)
    requires c !in s
    ensures c !in Trim(s)
  {
    var i, j := TrimBySlice(s, IsSpace);
    var r := Trim(s);
    assert forall k :: 0 <= k < |r| ==> r[k] == s[i + k];
  }

  /** `cleanSongTitle(title)`: `''` for a missing or empty title; otherwise
      brackets, keywords, repeated white space, leading and trailing dashes
      and pipes, and inner pipes are removed, and the result is trimmed. */
  function CleanSongTitle(title: Option<string>, keywords: string -> string): (r: string)
    ensures !Truthy(title) ==> r == []
  {
    if !Truthy(title) then [] else Trim(Stripped(title.value, keywords))
  }

  /** A cleaned title has no white space at either end and no pipe. */
  lemma CleanTitleShape(title: Option<string>, keywords: string -> string)
    ensures var r := CleanSongTitle(title, keywords);
            && (r == [] || (!IsSpace(r[0]) && !IsSpace(r[|r| - 1])))
            && '|' !in r
  {
    if Truthy(title) {
      var t := Stripped(title.value, keywords);
      TrimmedShape(t);
      assert CleanSongTitle(title, keywords) == Trim(t);
    } else {
      assert CleanSongTitle(title, keywords) == [];
    }
  }

  /** Trimming text without a pipe leaves no white space at the ends and
      no pipe. */
  lemma TrimmedShape(s: string)
    requires '|' !in s
    ensures var r := Trim(s);
            && (r == [] || (!IsSpace(r[0]) && !IsSpace(r[|r| - 1])))
            && '|' !in r
  {
    TrimAddsNothing(s, '|');
  }

  /** The cleanup chain before the final trim. */
  function Stripped(title: string, keywords: string -> string): (r: string)
    ensures '|' !in r
  {
    ReplacePipes(TrimBy(CollapseSpaces(keywords(RemoveBrackets(title))), IsEdge))
  }

  /** With no keyword to strip, a title free of brackets, dashes, pipes and
      white space other than single inner spaces comes back unchanged. */
  lemma PlainTitleUnchanged(title: string)
    requires title != [] && !IsSpace(title[0]) && !IsSpace(title[|title| - 1])
    requires forall k :: 0 <= k < |title| ==> !IsOpener(title[k]) && title[k] != '-' && title[k] != '|'
    requires SingleSpaced(title)
    ensures CleanSongTitle(Some(title), s => s) == title
  {
    NoOpenerUnchanged(title);
    CollapseIdentity(title);
    TrimByIdentity(title, IsEdge);
    assert '|' !in title by {
      forall k | 0 <= k < |title|
        ensures title[k] != '|'
      {
      }
    }
    TrimByIdentity(title, IsSpace);
  }

  /** Collapsing white space in single-spaced text changes nothing. */
  lemma {:induction false} CollapseIdentity(s: string)
    requires SingleSpaced(s)
    ensures CollapseSpaces(s) == s
    decreases |s|
  {
    if |s| > 0 {
      var tail := s[1..];
      assert forall k :: 0 <= k < |tail| ==> tail[k] == s[k + 1];
      CollapseIdentity(tail);
      if IsSpace(s[0]) {
        assert |s| == 1 || !IsSpace(s[1]);
        Capture.RunEndAt(s, 0, 1, IsSpace);
      }
    }
  }

  /** Collapsing twice is collapsing once. */
  lemma CollapseIdempotent(s: string)
    ensures CollapseSpaces(CollapseSpaces(s)) == CollapseSpaces(s)
  {
    CollapseSpacesShape(s);
    CollapseIdentity(CollapseSpaces(s));
  }

  /** The card limits. */
  const MaxTitle: nat := 60
  const MaxArtist: nat := 40
  const Ellipsis: string := "..."

  /** `s.substring(0, max - 3) + '...'` when longer than `max`. */
  function Truncate(s: string, max: nat): (r: string)
    requires max >= |Ellipsis|
    ensures |r| <= max
    ensures |s| <= max ==> r == s
    ensures |s| > max ==> |r| == max && r[..max - 3] == s[..max - 3] && r[max - 3..] == Ellipsis
  {
    if |s| > max then s[..max - 3] + Ellipsis else s
  }

  /** Truncating twice is truncating once. */
  lemma TruncateIdempotent(s: string, max: nat)
    requires max >= |Ellipsis|
    ensures Truncate(Truncate(s, max), max) == Truncate(s, max)
  {
  }

  /** The separator between artist and title in a video title. */
  const Separator: string := " - "

  /** The split rule: only with no artist, and only when the text before
      the first separator is not blank. Gives the title, then the artist. */
  function SplitArtist(title: string, artist: string): (r: (string, string))
    ensures artist != [] || !Contains(title, Separator) ==> r == (title, artist)
  {
    if Contains(title, Separator) then
      var parts := Split(title, Separator);
      if Trim(parts[0]) != [] && artist == [] then (Trim(Join(parts[1..], Separator)), Trim(parts[0]))
      else (title, artist)
    else (title, artist)
  }

  /** "Artist - Song (Official Video)" without an artist: the text before
      the first separator becomes the artist, everything after it (other
      separators included) the title, both trimmed. */
  lemma ArtistFromTitle(title: string, i: nat)
    requires IndexOf(title, Separator) == Some(i) && Trim(title[..i]) != []
    ensures SplitArtist(title, []) == (Trim(title[i + |Separator|..]), Trim(title[..i]))
  {
    SplitHeadTail(title, Separator, i);
  }

  /** " - Song": blank text before the first separator is not taken as
      the artist, and the title stays as it was. */
  lemma BlankHeadNotSplit(title: string, i: nat)
    requires IndexOf(title, Separator) == Some(i) && Trim(title[..i]) == []
    ensures SplitArtist(title, []) == (title, [])
  {
    SplitHeadTail(title, Separator, i);
  }

  /** The input of `formatSongForBingo`: any object with optional title and
      artist. */
  datatype Entry = Entry(title: Option<string>, artist: Option<string>)

  datatype Formatted = Formatted(title: string, artist: string)

  /** The title before the fallback and the artist, after the split. */
  function Prepared(e: Entry, keywords: string -> string): (p: (string, string))
  {
    var (title, artist) := SplitArtist(OrElse(e.title, []), OrElse(e.artist, []));
    (CleanSongTitle(Some(title), keywords), artist)
  }

  /** A cleaned title that is blank or shorter than 3 characters is not
      used. */
  predicate TooShort(cleaned: string) {
    IsBlank(cleaned) || |cleaned| < 3
  }

  /** `formatSongForBingo(song)` as the source has it: the fallback reads
      `song.title` itself, and on a missing title `title.length` throws. */
  function FormatAsWritten(song: Option<Entry>, keywords: string -> string): (r: Result<Formatted, string>)
    ensures song.None? ==> r == Ok(Formatted([], []))
    ensures song.Some? && r.Ok? ==> r.value.artist == Truncate(Prepared(song.value, keywords).1, MaxArtist)
  {
    match song
    case None => Ok(Formatted([], []))
    case Some(e) =>
      var (cleaned, artist) := Prepared(e, keywords);
      if TooShort(cleaned) then
        match e.title
        case None => Err("TypeError: Cannot read properties of undefined (reading 'length')")
        case Some(original) => Ok(Formatted(Truncate(original, MaxTitle), Truncate(artist, MaxArtist)))
      else Ok(Formatted(Truncate(cleaned, MaxTitle), Truncate(artist, MaxArtist)))
  }

  /** Every entry without a title makes the function as written throw,
      although the first lines default a missing title to `''`. */
  lemma AsWrittenThrowsWithoutTitle(artist: Option<string>, keywords: string -> string)
    ensures FormatAsWritten(Some(Entry(None, artist)), keywords).Err?
  {
    assert !Contains([], Separator);
  }

  /** `formatSongForBingo(song)` with the fallback `song.title || ''`. */
  function FormatSongForBingo(song: Option<Entry>, keywords: string -> string): (r: Formatted)
    ensures |r.title| <= MaxTitle && |r.artist| <= MaxArtist
    ensures song.None? ==> r == Formatted([], [])
    ensures song.Some? && Truthy(song.value.artist) ==> r.artist == Truncate(song.value.artist.value, MaxArtist)
  {
    match song
    case None => Formatted([], [])
    case Some(e) =>
      var (cleaned, artist) := Prepared(e, keywords);
      var title := if TooShort(cleaned) then OrElse(e.title, []) else cleaned;
      Formatted(Truncate(title, MaxTitle), Truncate(artist, MaxArtist))
  }

  /** The two versions differ only where the source throws: a missing
      title; there the corrected one gives an empty title. */
  lemma CorrectedAgreesWhereDefined(song: Option<Entry>, keywords: string -> string)
    ensures FormatAsWritten(song, keywords).Err? <==> song.Some? && song.value.title.None?
    ensures FormatAsWritten(song, keywords).Ok? ==>
              FormatAsWritten(song, keywords).value == FormatSongForBingo(song, keywords)
    ensures song.Some? && song.value.title.None? ==> FormatSongForBingo(song, keywords).title == []
  {
    if song.Some? && song.value.title.None? {
      assert !Contains([], Separator);
      assert CleanSongTitle(Some([]), keywords) == [];
    }
  }

  /** The title shown is the cleaned one when it is long enough, else the
      original title; either way cut to the card. */
  lemma TitleChoice(e: Entry, keywords: string -> string)
    ensures var cleaned := Prepared(e, keywords).0;
            && (!TooShort(cleaned) ==> FormatSongForBingo(Some(e), keywords).title == Truncate(cleaned, MaxTitle))
            && (TooShort(cleaned) ==> FormatSongForBingo(Some(e), keywords).title == Truncate(OrElse(e.title, []), MaxTitle))
    ensures FormatSongForBingo(Some(e), keywords).artist == Truncate(Prepared(e, keywords).1, MaxArtist)
  {
  }

  /** A song without an artist whose title reads "A - T" is shown with
      artist A (trimmed, then cut to the artist limit); with a blank A the
      artist stays empty. */
  lemma FormattedArtistFromTitle(e: Entry, keywords: string -> string, i: nat)
    requires !Truthy(e.artist) && e.title.Some?
    requires IndexOf(e.title.value, Separator) == Some(i)
    ensures Trim(e.title.value[..i]) != [] ==>
              FormatSongForBingo(Some(e), keywords).artist == Truncate(Trim(e.title.value[..i]), MaxArtist)
    ensures Trim(e.title.value[..i]) == [] ==> FormatSongForBingo(Some(e), keywords).artist == []
  {
    assert OrElse(e.artist, []) == [];
    if Trim(e.title.value[..i]) != [] {
      ArtistFromTitle(e.title.value, i);
    } else {
      BlankHeadNotSplit(e.title.value, i);
    }
  }

  /** `getCleanTitle(song)`. */
  function GetCleanTitle(song: Option<Entry>, keywords: string -> string): (t: string)
    ensures |t| <= MaxTitle
    ensures song.None? ==> t == []
    ensures t == FormatSongForBingo(song, keywords).title
  {
    FormatSongForBingo(song, keywords).title
  }

  /** `getCleanArtist(song)`. */
  function GetCleanArtist(song: Option<Entry>, keywords: string -> string): (a: string)
    ensures |a| <= MaxArtist
    ensures song.None? ==> a == []
    ensures a == FormatSongForBingo(song, keywords).artist
  {
    FormatSongForBingo(song, keywords).artist
  }
}

=== FILE: import_dialog.dfy ===
/** The import dialog's source choice (`src/components/ImportDialog.jsx`):
    `detectSource` and the guard at the top of `handleImport` that decides
    which importer runs, if any. The React state, the progress display and
    the importers' own work are outside this module. */
module ImportDialog {
  import opened Text
  import opened Wrappers

  datatype Source = SpotifySource | YouTubeSource

  /** The selector: 'auto' or a source chosen by hand. */
  datatype Choice = Auto | Manual(source: Source)

  const SpotifyHost: string := "spotify.com"
  const YouTubeHost: string := "youtube.com"
  const ShortHost: string := "youtu.be"

  /** `detectSource(url)`: Spotify wins over YouTube. */
  function DetectSource(url: string): (r: Option<Source>)
    ensures r == Some(SpotifySource) <==> Contains(url, SpotifyHost)
    ensures r == Some(YouTubeSource) <==>
              !Contains(url, SpotifyHost) && (Contains(url, YouTubeHost) || Contains(url, ShortHost))
    ensures r == None <==>
              !Contains(url, SpotifyHost) && !Contains(url, YouTubeHost) && !Contains(url, ShortHost)
  {
    if Contains(url, SpotifyHost) then Some(SpotifySource)
    else if Contains(url, YouTubeHost) || Contains(url, ShortHost) then Some(YouTubeSource)
    else None
  }

  /** What `handleImport` does before any import starts. */
  datatype Decision =
    | Rejected(message: string)
    | Run(source: Source)

  const EnterUrlMessage: string := "Por favor ingresa una URL"
  const UndetectedMessage: string := "No se pudo detectar la fuente. Selecciona manualmente."

  /** The guard of `handleImport`: a blank URL is refused first; a source
      chosen by hand is used as is; otherwise detection decides, and an
      undetected source is an error. */
  function HandleImport(url: string, choice: Choice): (d: Decision)
    ensures Trim(url) == [] ==> d == Rejected(EnterUrlMessage)
    ensures Trim(url) != [] && choice.Manual? ==> d == Run(choice.source)
    ensures Trim(url) != [] && choice.Auto? ==>
              match DetectSource(url)
              case Some(s) => d == Run(s)
              case None => d == Rejected(UndetectedMessage)
  {
    if Trim(url) == [] then Rejected(EnterUrlMessage)
    else
      var detected := if choice.Auto? then DetectSource(url) else Some(choice.source);
      if detected.None? then Rejected(UndetectedMessage) else Run(detected.value)
  }

  /** A blank URL is refused whatever the selector says; a hand-picked
      source runs for any other URL, whatever the URL looks like. */
  lemma GuardOrder(url: string, c1: Choice, c2: Choice, s: Source)
    ensures (forall k :: 0 <= k < |url| ==> IsSpace(url[k])) ==>
              HandleImport(url, c1) == HandleImport(url, c2) == Rejected(EnterUrlMessage)
    ensures (exists k :: 0 <= k < |url| && !IsSpace(url[k])) ==> HandleImport(url, Manual(s)) == Run(s)
  {
  }

  /** A URL naming both services goes to Spotify. */
  lemma SpotifyWins(u: string, v: string)
    requires Contains(u, SpotifyHost)
    ensures DetectSource(u + v) == Some(SpotifySource)
    ensures DetectSource(v + u) == Some(SpotifySource)
  {
    ContainsExtend(u, v, SpotifyHost);
  }
}

=== FILE: invidious.dfy ===
/** The Invidious client (`src/services/InvidiousAPI.js`): a ring of mirror
    instances with rotation on failure, a request log with statistics, the
    URL helpers, duration parsing and audio-format selection. Each HTTP
    exchange is an oracle `respond(attempt, instance)` that yields the
    decoded body or `None` for any failure (network error, non-2xx status,
    bad JSON). Clock readings are the parameter `clock(attempt)`. */
module Invidious {
  import opened Wrappers
  import opened Text
  import opened Lists
  import Capture

  /** The mirror ring, in rotation order. */
  const Instances: seq<string> := [
    "https://inv.nadeko.net",
    "https://invidious.fdn.fr",
    "https://invidious.privacyredirect.com",
    "https://invidious.protokolla.fi",
    "https://inv.riverside.rocks",
    "https://yt.artemislena.eu",
    "https://invidious.flokinet.to",
    "https://invidious.kavin.rocks"
  ]

  /** The number of instances. */
  const Ring: nat := 8

  const MaxRetries: nat := 3

  /** One `requestLog` entry; `source` is always 'INVIDIOUS' and is left
      implicit. */
  datatype LogEntry = LogEntry(timestamp: string, verb: string, endpoint: string, instance: string, success: bool)

  datatype Client = Client(index: nat, log: seq<LogEntry>)

  /** The rotation index always names an instance. */
  predicate Valid(c: Client) {
    c.index < Ring
  }

  const Initial := Client(0, [])

  /** `getCurrentInstance()`. */
  function CurrentInstance(c: Client): (s: string)
    requires Valid(c)
    ensures s in Instances
  {
    Instances[c.index]
  }

  /** `rotateInstance()`: the next instance of the ring. */
  function Rotate(c: Client): (r: Client)
    ensures Valid(r)
    ensures r.index == (c.index + 1) % Ring
    ensures r.log == c.log
  {
    c.(index := (c.index + 1) % Ring)
  }

  /** `n` consecutive rotations. */
  function RotateTimes(c: Client, n: nat): Client
    decreases n
  {
    if n == 0 then c else Rotate(RotateTimes(c, n - 1))
  }

  /** `n` rotations advance the index by `n` around the ring, so a full
      turn of the ring returns to the starting instance. */
  lemma {:induction false} RotateTimesIndex(c: Client, n: nat)
    requires Valid(c)
    ensures RotateTimes(c, n).index == (c.index + n) % Ring
    ensures RotateTimes(c, n).log == c.log
    decreases n
  {
    if n > 0 {
      RotateTimesIndex(c, n - 1);
      RingSucc(c.index + n - 1);
    }
  }

  /** A whole number of turns of the ring returns to the start. */
  lemma {:induction false} FullTurn(c: Client, turns: nat)
    requires Valid(c)
    ensures RotateTimes(c, turns * Ring) == c
  {
    RotateTimesIndex(c, turns * Ring);
    assert c.index + turns * Ring == Ring * turns + c.index;
  }

  /** Advancing by one, then reducing, is reducing the successor. */
  lemma {:induction false} RingSucc(x: nat)
    ensures (x % Ring + 1) % Ring == (x + 1) % Ring
  {
    var q, r := x / Ring, x % Ring;
    assert x == Ring * q + r;
    if r + 1 < Ring {
      assert x + 1 == Ring * q + (r + 1);
    } else {
      assert x + 1 == Ring * (q + 1);
    }
  }

  /** `logRequest(...)`: appends exactly one entry. */
  function LogRequest(c: Client, endpoint: string, verb: string, success: bool, instance: string, now: string): (r: Client)
    ensures r.log == c.log + [LogEntry(now, verb, endpoint, instance, success)]
    ensures r.index == c.index
  {
    c.(log := c.log + [LogEntry(now, verb, endpoint, instance, success)])
  }

  /** `clearRequestLog()`. */
  function ClearRequestLog(c: Client): (r: Client)
    ensures r.log == [] && r.index == c.index
  {
    c.(log := [])
  }

  /** The `instanceUsage` object: instance to count, in the order the
      instances first appear in the log. */
  type Usage = seq<(string, nat)>

  /** The count recorded for `key`, 0 when absent. */
  function CountFor(u: Usage, key: string): nat {
    if |u| == 0 then 0 else if u[0].0 == key then u[0].1 else CountFor(u[1..], key)
  }

  function Total(u: Usage): nat {
    if |u| == 0 then 0 else u[0].1 + Total(u[1..])
  }

  predicate DistinctKeys(u: Usage) {
    forall i, j :: 0 <= i < j < |u| ==> u[i].0 != u[j].0
  }

  function KeySet(u: Usage): set<string> {
    set i | 0 <= i < |u| :: u[i].0
  }

  /** `usage[key] = (usage[key] || 0) + 1`: one more for `key`, and no
      other count changes. */
  function Bump(u: Usage, key: string): (r: Usage)
    ensures Total(r) == Total(u) + 1
    ensures forall k :: CountFor(r, k) == CountFor(u, k) + (if k == key then 1 else 0)
  {
    if |u| == 0 then [(key, 1)]
    else if u[0].0 == key then [(key, u[0].1 + 1)] + u[1..]
    else [u[0]] + Bump(u[1..], key)
  }

  /** A bump adds `key` to the keys and nothing else. */
  lemma {:induction false} BumpKeySet(u: Usage, key: string)
    ensures KeySet(Bump(u, key)) == KeySet(u) + {key}
  {
    var r := Bump(u, key);
    if |u| == 0 {
      assert r[0].0 == key;
    } else {
      assert u == [u[0]] + u[1..];
      KeySetCons(u[0], u[1..]);
      if u[0].0 == key {
        KeySetCons(r[0], u[1..]);
      } else {
        BumpKeySet(u[1..], key);
        KeySetCons(u[0], Bump(u[1..], key));
      }
    }
  }

  /** A bump never duplicates a key: a new key goes to a new last entry. */
  lemma {:induction false} BumpKeys(u: Usage, key: string)
    requires DistinctKeys(u)
    ensures DistinctKeys(Bump(u, key))
  {
    var r := Bump(u, key);
    if |u| > 0 {
      if u[0].0 == key {
        assert forall j :: 0 < j < |r| ==> r[j] == u[j];
      } else {
        var tail := u[1..];
        DistinctTail(u);
        BumpKeys(tail, key);
        BumpKeySet(tail, key);
        var bumped := Bump(tail, key);
        assert u[0].0 !in KeySet(bumped);
        DistinctCons(u[0], bumped);
      }
    }
  }

  /** The rest of a list with distinct keys has distinct keys, and none of
      them is the head's. */
  lemma DistinctTail(u: Usage)
    requires |u| > 0 && DistinctKeys(u)
    ensures DistinctKeys(u[1..]) && u[0].0 !in KeySet(u[1..])
  {
    var tail := u[1..];
    assert forall j :: 0 <= j < |tail| ==> tail[j] == u[j + 1];
  }

  lemma {:induction false} DistinctCons(x: (string, nat), u: Usage)
    requires DistinctKeys(u) && x.0 !in KeySet(u)
    ensures DistinctKeys([x] + u)
  {
    var r := [x] + u;
    forall i, j | 0 <= i < j < |r|
      ensures r[i].0 != r[j].0
    {
      assert r[j] == u[j - 1];
      if i > 0 {
        assert r[i] == u[i - 1];
      } else {
        assert u[j - 1].0 in KeySet(u);
      }
    }
  }

  lemma {:induction false} KeySetCons(x: (string, nat), u: Usage)
    ensures KeySet([x] + u) == {x.0} + KeySet(u)
    ensures [x] + u != [] && ([x] + u)[0] == x && ([x] + u)[1..] == u
  {
    var r := [x] + u;
    forall k | k in KeySet(r)
      ensures k in {x.0} + KeySet(u)
    {
      var j :| 0 <= j < |r| && r[j].0 == k;
      if j > 0 {
        assert u[j - 1].0 == k;
      }
    }
    forall k | k in KeySet(u)
      ensures k in KeySet(r)
    {
      var j :| 0 <= j < |u| && u[j].0 == k;
      assert r[j + 1].0 == k;
    }
    assert r[0].0 == x.0;
  }

  /** `forEach` over the log, bumping each entry's instance. */
  function UsageFrom(u: Usage, log: seq<LogEntry>): (r: Usage)
    decreases |log|
    ensures Total(r) == Total(u) + |log|
    ensures forall k :: CountFor(r, k) == CountFor(u, k) + CountIf(log, OnInstance(k))
    ensures DistinctKeys(u) ==> DistinctKeys(r)
  {
    if |log| == 0 then u
    else
      assert DistinctKeys(u) ==> DistinctKeys(Bump(u, log[0].instance)) by {
        if DistinctKeys(u) {
          BumpKeys(u, log[0].instance);
        }
      }
      UsageFrom(Bump(u, log[0].instance), log[1..])
  }

  function OnInstance(k: string): LogEntry -> bool {
    (e: LogEntry) => e.instance == k
  }

  function Succeeded(): LogEntry -> bool {
    (e: LogEntry) => e.success
  }

  function FailedEntry(): LogEntry -> bool {
    (e: LogEntry) => !e.success
  }

  /** The integer part of `getStats()`; `successRate` is left out. */
  datatype Stats = Stats(totalRequests: nat, successful: nat, failed: nat, instanceUsage: Usage)

  /** `getStats()`: successes and failures partition the log, and the
      per-instance counts add up to the log length, each counting exactly
      the entries of its instance. */
  function GetStats(c: Client): (r: Stats)
    ensures r.totalRequests == |c.log|
    ensures r.successful == CountIf(c.log, Succeeded()) && r.failed == CountIf(c.log, FailedEntry())
    ensures r.successful + r.failed == r.totalRequests
    ensures Total(r.instanceUsage) == r.totalRequests
    ensures forall k :: CountFor(r.instanceUsage, k) == CountIf(c.log, OnInstance(k))
    ensures DistinctKeys(r.instanceUsage)
  {
    CountSplit(c.log, Succeeded(), FailedEntry());
    Stats(|c.log|, CountIf(c.log, Succeeded()), CountIf(c.log, FailedEntry()), UsageFrom([], c.log))
  }

  /** The instance tried at attempt `k` of a call that starts at `start`:
      each failure rotates once. */
  function InstanceAt(start: nat, k: nat): string {
    Instances[(start + k) % Ring]
  }

  /** The first attempt, from `k` on, whose exchange succeeds. */
  function FirstSuccess<D>(start: nat, respond: (nat, string) -> Option<D>, k: nat): (r: Option<nat>)
    requires k <= MaxRetries
    ensures r.Some? ==> k <= r.value < MaxRetries && respond(r.value, InstanceAt(start, r.value)).Some?
    ensures r.Some? ==> forall j :: k <= j < r.value ==> respond(j, InstanceAt(start, j)).None?
    ensures r.None? <==> forall j :: k <= j < MaxRetries ==> respond(j, InstanceAt(start, j)).None?
    decreases MaxRetries - k
  {
    if k == MaxRetries then None
    else if respond(k, InstanceAt(start, k)).Some? then Some(k)
    else FirstSuccess(start, respond, k + 1)
  }

  /** The pauses before retries 2, 3, ...: 1000 ms, 2000 ms, ... */
  function Backoff(k: nat): (w: seq<nat>)
    ensures |w| == k
    ensures forall j :: 0 <= j < k ==> w[j] == 1000 * (j + 1)
  {
    if k == 0 then [] else Backoff(k - 1) + [1000 * k]
  }

  /** The error `fetchWithRetry` throws after its last attempt. */
  datatype FetchError = RetriesExhausted

  /** `fetchWithRetry(endpoint, {method})`. Attempts run until one
      succeeds, at most `MaxRetries` of them; every attempt is logged
      against the instance it used; each failure rotates the ring, and is
      followed by a pause except after the last attempt. */
  method FetchWithRetry<D>(c: Client, endpoint: string, verb: string, clock: nat -> string, respond: (nat, string) -> Option<D>)
    returns (c': Client, r: Result<D, FetchError>, waits: seq<nat>)
    requires Valid(c)
    ensures Valid(c')
    ensures r.Ok? <==> FirstSuccess(c.index, respond, 0).Some?
    ensures r.Ok? ==> var k := FirstSuccess(c.index, respond, 0).value;
                      && r.value == respond(k, InstanceAt(c.index, k)).value
                      && c'.index == (c.index + k) % Ring
                      && Logged(c, c', k + 1, endpoint, verb, clock, respond)
                      && waits == Backoff(k)
    ensures r.Err? ==> && c'.index == (c.index + MaxRetries) % Ring
                       && Logged(c, c', MaxRetries, endpoint, verb, clock, respond)
                       && waits == Backoff(MaxRetries - 1)
  {
    c' := c;
    waits := [];
    var attempt := 0;
    while attempt < MaxRetries
      invariant FailedSoFar(c, c', attempt, endpoint, verb, clock, respond)
      invariant waits == Backoff(if attempt < MaxRetries then attempt else MaxRetries - 1)
    {
      if respond(attempt, CurrentInstance(c')).Some? {
        assert waits == Backoff(attempt);
        c', r := Succeed(c, c', attempt, endpoint, verb, clock, respond);
        return;
      }
      c', waits := Fail(c, c', attempt, endpoint, verb, clock, respond, waits);
      attempt := attempt + 1;
    }
    NoSuccess(c, c', endpoint, verb, clock, respond);
    r := Err(RetriesExhausted);
  }

  /** Once every attempt has failed there is no first success. */
  lemma {:induction false} NoSuccess<D>(c: Client, c': Client, endpoint: string, verb: string,
                       clock: nat -> string, respond: (nat, string) -> Option<D>)
    requires FailedSoFar(c, c', MaxRetries, endpoint, verb, clock, respond)
    ensures FirstSuccess(c.index, respond, 0).None?
  {
  }

  /** An attempt that fails: it is logged, the ring rotates, and a pause
      follows unless it was the last attempt. */
  method Fail<D>(c: Client, c': Client, attempt: nat, endpoint: string, verb: string,
                 clock: nat -> string, respond: (nat, string) -> Option<D>, waits: seq<nat>)
    returns (c'': Client, waits': seq<nat>)
    requires FailedSoFar(c, c', attempt, endpoint, verb, clock, respond) && attempt < MaxRetries
    requires respond(attempt, CurrentInstance(c')).None?
    requires waits == Backoff(attempt)
    ensures FailedSoFar(c, c'', attempt + 1, endpoint, verb, clock, respond)
    ensures waits' == Backoff(if attempt + 1 < MaxRetries then attempt + 1 else MaxRetries - 1)
  {
    FailureStep(c, c', attempt, endpoint, verb, clock, respond);
    c'' := Rotate(LogRequest(c', endpoint, verb, false, CurrentInstance(c'), clock(attempt)));
    waits' := if attempt < MaxRetries - 1 then waits + [1000 * (attempt + 1)] else waits;
  }

  /** The attempt that succeeds: it is logged and its reply returned. */
  method Succeed<D>(c: Client, c': Client, attempt: nat, endpoint: string, verb: string,
                    clock: nat -> string, respond: (nat, string) -> Option<D>)
    returns (c'': Client, r: Result<D, FetchError>)
    requires FailedSoFar(c, c', attempt, endpoint, verb, clock, respond) && attempt < MaxRetries
    requires respond(attempt, CurrentInstance(c')).Some?
    ensures Valid(c'') && r.Ok?
    ensures FirstSuccess(c.index, respond, 0) == Some(attempt)
    ensures var k := FirstSuccess(c.index, respond, 0).value;
            && r.value == respond(k, InstanceAt(c.index, k)).value
            && c''.index == (c.index + k) % Ring
            && Logged(c, c'', k + 1, endpoint, verb, clock, respond)
  {
    SuccessStep(c, c', attempt, endpoint, verb, clock, respond);
    var instance := CurrentInstance(c');
    c'' := LogRequest(c', endpoint, verb, true, instance, clock(attempt));
    r := Ok(respond(attempt, instance).value);
  }

  /** What the first `attempt` failed attempts leave behind: the ring
      advanced once per attempt and one failure entry per attempt. */
  predicate FailedSoFar<D>(c: Client, c': Client, attempt: nat, endpoint: string, verb: string,
                           clock: nat -> string, respond: (nat, string) -> Option<D>) {
    && attempt <= MaxRetries
    && Valid(c')
    && (forall j :: 0 <= j < attempt ==> respond(j, InstanceAt(c.index, j)).None?)
    && c'.index == (c.index + attempt) % Ring
    && Logged(c, c', attempt, endpoint, verb, clock, respond)
  }

  /** The log of `c'` is that of `c` followed by the entries of the first
      `n` attempts. */
  predicate Logged<D>(c: Client, c': Client, n: nat, endpoint: string, verb: string,
                      clock: nat -> string, respond: (nat, string) -> Option<D>) {
    && |c'.log| == |c.log| + n && c'.log[..|c.log|] == c.log
    && forall j :: 0 <= j < n ==> c'.log[|c.log| + j] == Attempted(c.index, endpoint, verb, clock, respond, j)
  }

  /** One more failed attempt: log it, then rotate. */
  lemma {:induction false} FailureStep<D>(c: Client, c': Client, attempt: nat, endpoint: string, verb: string,
                       clock: nat -> string, respond: (nat, string) -> Option<D>)
    requires FailedSoFar(c, c', attempt, endpoint, verb, clock, respond) && attempt < MaxRetries
    requires respond(attempt, CurrentInstance(c')).None?
    ensures FailedSoFar(c, Rotate(LogRequest(c', endpoint, verb, false, CurrentInstance(c'), clock(attempt))),
                        attempt + 1, endpoint, verb, clock, respond)
  {
    var c'' := LogRequest(c', endpoint, verb, false, CurrentInstance(c'), clock(attempt));
    assert CurrentInstance(c') == InstanceAt(c.index, attempt);
    LoggedStep(c, c', c'', attempt, endpoint, verb, clock, respond);
    LoggedStep(c, c', Rotate(c''), attempt, endpoint, verb, clock, respond);
    RingSucc(c.index + attempt);
  }

  /** A successful attempt: log it and stop; it is the first success. */
  lemma {:induction false} SuccessStep<D>(c: Client, c': Client, attempt: nat, endpoint: string, verb: string,
                       clock: nat -> string, respond: (nat, string) -> Option<D>)
    requires FailedSoFar(c, c', attempt, endpoint, verb, clock, respond) && attempt < MaxRetries
    requires respond(attempt, CurrentInstance(c')).Some?
    ensures FirstSuccess(c.index, respond, 0) == Some(attempt)
    ensures var c'' := LogRequest(c', endpoint, verb, true, CurrentInstance(c'), clock(attempt));
            var k := FirstSuccess(c.index, respond, 0).value;
            && Valid(c'') && c''.index == (c.index + k) % Ring
            && Logged(c, c'', k + 1, endpoint, verb, clock, respond)
  {
    assert CurrentInstance(c') == InstanceAt(c.index, attempt);
    FirstSuccessAt(c.index, respond, attempt);
    var c'' := LogRequest(c', endpoint, verb, true, CurrentInstance(c'), clock(attempt));
    LoggedStep(c, c', c'', attempt, endpoint, verb, clock, respond);
  }

  /** An attempt that succeeds after failures only is the first success. */
  lemma {:induction false} FirstSuccessAt<D>(start: nat, respond: (nat, string) -> Option<D>, k: nat)
    requires k < MaxRetries
    requires forall j :: 0 <= j < k ==> respond(j, InstanceAt(start, j)).None?
    requires respond(k, InstanceAt(start, k)).Some?
    ensures FirstSuccess(start, respond, 0) == Some(k)
  {
    assert FirstSuccess(start, respond, k) == Some(k);
    FirstSuccessSkip(start, respond, 0, k);
  }

  /** One more entry, that of attempt `n`, extends a log of `n` attempts. */
  lemma {:induction false} LoggedStep<D>(c: Client, c': Client, d: Client, n: nat, endpoint: string, verb: string,
                       clock: nat -> string, respond: (nat, string) -> Option<D>)
    requires Logged(c, c', n, endpoint, verb, clock, respond)
    requires d.log == c'.log + [Attempted(c.index, endpoint, verb, clock, respond, n)]
    ensures Logged(c, d, n + 1, endpoint, verb, clock, respond)
  {
    assert d.log[..|c.log|] == c'.log[..|c.log|];
    forall j | 0 <= j < n + 1
      ensures d.log[|c.log| + j] == Attempted(c.index, endpoint, verb, clock, respond, j)
    {
      if j < n {
        assert d.log[|c.log| + j] == c'.log[|c.log| + j];
      }
    }
  }

  /** The log entry of attempt `j` of a call starting at instance `start`. */
  function Attempted<D>(start: nat, endpoint: string, verb: string, clock: nat -> string,
                        respond: (nat, string) -> Option<D>, j: nat): LogEntry {
    LogEntry(clock(j), verb, endpoint, InstanceAt(start, j), respond(j, InstanceAt(start, j)).Some?)
  }

  /** Failed attempts before `k` do not change which attempt succeeds
      first. */
  lemma {:induction false} FirstSuccessSkip<D>(start: nat, respond: (nat, string) -> Option<D>, from: nat, k: nat)
    requires from <= k <= MaxRetries
    requires forall j :: from <= j < k ==> respond(j, InstanceAt(start, j)).None?
    ensures FirstSuccess(start, respond, from) == FirstSuccess(start, respond, k)
    decreases k - from
  {
    if from < k {
      FirstSuccessSkip(start, respond, from + 1, k);
    }
  }

  /** One entry of `adaptiveFormats`; every field may be absent. */
  datatype Format = Format(mime: Option<string>, bitrate: Option<int>, url: Option<string>, container: Option<string>)

  /** The part of `/api/v1/videos/:id` that `getAudioUrl` reads. */
  datatype VideoData = VideoData(adaptiveFormats: Option<seq<Format>>)

  /** `format.type?.startsWith('audio/')` */
  predicate IsAudio(f: Format) {
    f.mime.Some? && StartsWith(f.mime.value, "audio/")
  }

  /** `format.bitrate || 0` */
  function Rate(f: Format): int {
    f.bitrate.GetOr(0)
  }

  /** The position `getAudioUrl` ends up with: after filtering to audio
      formats and a stable sort by descending bitrate, the head is the
      first audio format whose bitrate no other audio format exceeds. */
  predicate BestAt(formats: seq<Format>, i: nat) {
    && i < |formats| && IsAudio(formats[i])
    && (forall j :: 0 <= j < |formats| && IsAudio(formats[j]) ==> Rate(formats[j]) <= Rate(formats[i]))
    && (forall j :: 0 <= j < i && IsAudio(formats[j]) ==> Rate(formats[j]) < Rate(formats[i]))
  }

  /** At most one position is the best one. */
  lemma {:induction false} BestUnique(formats: seq<Format>, i: nat, k: nat)
    requires BestAt(formats, i) && BestAt(formats, k)
    ensures i == k
  {
  }

  /** The filter-and-sort of `getAudioUrl`, as one scan that keeps the
      first strictly better audio format. */
  method SelectAudio(formats: seq<Format>) returns (best: Option<nat>)
    ensures best.Some? ==> BestAt(formats, best.value)
    ensures best.None? <==> forall j :: 0 <= j < |formats| ==> !IsAudio(formats[j])
  {
    best := None;
    var i := 0;
    while i < |formats|
      invariant i <= |formats|
      invariant best.None? ==> forall j :: 0 <= j < i ==> !IsAudio(formats[j])
      invariant best.Some? ==> && best.value < i && IsAudio(formats[best.value])
                               && (forall j :: 0 <= j < i && IsAudio(formats[j]) ==> Rate(formats[j]) <= Rate(formats[best.value]))
                               && (forall j :: 0 <= j < best.value && IsAudio(formats[j]) ==> Rate(formats[j]) < Rate(formats[best.value]))
    {
      if IsAudio(formats[i]) && (best.None? || Rate(formats[i]) > Rate(formats[best.value])) {
        best := Some(i);
      }
      i := i + 1;
    }
  }

  /** Why `getAudioUrl` throws. */
  datatype AudioError =
    | FetchFailed     // every attempt of `fetchWithRetry` failed
    | NoFormats       // 'No hay formatos de audio disponibles'
    | NoAudioFormat   // 'No se encontró formato de audio'

  /** `getAudioUrl(videoId)`: the best audio format of the video. A
      missing format list and a list without audio formats are distinct
      errors; an empty list is present (arrays are truthy). */
  method GetAudioUrl(c: Client, videoId: string, clock: nat -> string, respond: (nat, string) -> Option<VideoData>)
    returns (c': Client, r: Result<Format, AudioError>)
    requires Valid(c)
    ensures Valid(c')
    ensures r == Err(FetchFailed) <==> FirstSuccess(c.index, respond, 0).None?
    ensures FirstSuccess(c.index, respond, 0).Some? ==>
              var k := FirstSuccess(c.index, respond, 0).value;
              var data := respond(k, InstanceAt(c.index, k)).value;
              && (data.adaptiveFormats.None? <==> r == Err(NoFormats))
              && (data.adaptiveFormats.Some? ==>
                    && (r == Err(NoAudioFormat) <==> forall j :: 0 <= j < |data.adaptiveFormats.value| ==> !IsAudio(data.adaptiveFormats.value[j]))
                    && (r.Ok? ==> exists i: nat :: BestAt(data.adaptiveFormats.value, i) && r.value == data.adaptiveFormats.value[i]))
  {
    var fetched: Result<VideoData, FetchError>, pauses;
    c', fetched, pauses := FetchWithRetry(c, "/api/v1/videos/" + videoId, "GET", clock, respond);
    if fetched.Err? {
      return c', Err(FetchFailed);
    }
    var data := fetched.value;
    if data.adaptiveFormats.None? {
      return c', Err(NoFormats);
    }
    var best := SelectAudio(data.adaptiveFormats.value);
    if best.None? {
      return c', Err(NoAudioFormat);
    }
    r := Ok(data.adaptiveFormats.value[best.value]);
  }

  /** The hosts of the first `extractVideoId` pattern, in order. */
  const VideoHeads: seq<string> := ["youtube.com/watch?v=", "youtu.be/", "youtube.com/embed/"]

  /** `[^&\?\/]` */
  predicate VideoIdChar(c: char) {
    c != '&' && c != '?' && c != '/'
  }

  /** `[a-zA-Z0-9_-]` */
  predicate BareIdChar(c: char) {
    ('a' <= c <= 'z') || ('A' <= c <= 'Z') || ('0' <= c <= '9') || c == '_' || c == '-'
  }

  /** `/^([a-zA-Z0-9_-]{11})$/` */
  predicate IsBareId(s: string) {
    |s| == 11 && forall i :: 0 <= i < |s| ==> BareIdChar(s[i])
  }

  /** `extractVideoId(url)`: the id after one of the hosts, else the whole
      input when it is a bare id, else `null`. */
  function ExtractVideoId(url: string): (r: Option<string>)
    ensures r.Some? ==> |r.value| > 0
    ensures r.Some? ==> (forall i :: 0 <= i < |r.value| ==> VideoIdChar(r.value[i])) || (IsBareId(url) && r.value == url)
    ensures r.None? <==> Capture.Extract(url, VideoHeads, VideoIdChar).None? && !IsBareId(url)
  {
    match Capture.Extract(url, VideoHeads, VideoIdChar)
    case Some(id) => Some(id)
    case None => if IsBareId(url) then Some(url) else None
  }

  /** A bare id comes back unchanged: it has no '.', and every host does. */
  lemma {:induction false} BareIdUnchanged(id: string)
    requires IsBareId(id)
    ensures ExtractVideoId(id) == Some(id)
  {
    assert '.' !in id by {
      forall i | 0 <= i < |id|
        ensures id[i] != '.'
      {
        assert BareIdChar(id[i]);
      }
    }
    forall j | 0 <= j < |VideoHeads|
      ensures !Contains(id, VideoHeads[j])
    {
      assert '.' == VideoHeads[j][if j == 1 then 5 else 7];
      MissingCharNotContained(id, VideoHeads[j], '.');
    }
    Capture.ExtractNone(id, VideoHeads, VideoIdChar);
  }

  /** Characters that cannot start a host, so the host written right
      after a prefix of them is where the match starts. */
  predicate NoHostStart(u: string) {
    'y' !in u
  }

  /** Every host starts with 'y', so none starts inside a prefix free of
      'y'. */
  lemma HostsStartWithY(u: string)
    requires NoHostStart(u)
    ensures forall j :: 0 <= j < |VideoHeads| ==> |VideoHeads[j]| > 0 && VideoHeads[j][0] !in u
  {
    assert VideoHeads[0][0] == VideoHeads[1][0] == VideoHeads[2][0] == 'y';
  }

  /** `https://www.youtube.com/watch?v=ID&...` gives `ID`. */
  lemma {:induction false} WatchUrl(u: string, id: string, tail: string)
    requires NoHostStart(u)
    requires |id| > 0 && forall i :: 0 <= i < |id| ==> VideoIdChar(id[i])
    requires tail == [] || !VideoIdChar(tail[0])
    ensures ExtractVideoId(u + VideoHeads[0] + id + tail) == Some(id)
  {
    var s := u + VideoHeads[0] + id + tail;
    HostsStartWithY(u);
    assert s[|u|..|u| + |VideoHeads[0]|] == VideoHeads[0];
    assert !OccursAt(s, VideoHeads[1], |u|) by {
      assert s[|u| + 5] == 'b' != VideoHeads[1][5];
    }
    assert !OccursAt(s, VideoHeads[2], |u|) by {
      assert s[|u| + 12] == 'w' != VideoHeads[2][12];
    }
    Capture.ExtractAfter(u, VideoHeads[0], id, tail, VideoHeads, VideoIdChar);
  }

  /** `https://youtu.be/ID?...` gives `ID`. */
  lemma {:induction false} ShortUrl(u: string, id: string, tail: string)
    requires NoHostStart(u)
    requires |id| > 0 && forall i :: 0 <= i < |id| ==> VideoIdChar(id[i])
    requires tail == [] || !VideoIdChar(tail[0])
    ensures ExtractVideoId(u + VideoHeads[1] + id + tail) == Some(id)
  {
    var s := u + VideoHeads[1] + id + tail;
    HostsStartWithY(u);
    assert s[|u|..|u| + |VideoHeads[1]|] == VideoHeads[1];
    assert !OccursAt(s, VideoHeads[0], |u|) by {
      assert s[|u| + 5] == '.' != VideoHeads[0][5];
    }
    assert !OccursAt(s, VideoHeads[2], |u|) by {
      assert s[|u| + 5] == '.' != VideoHeads[2][5];
    }
    Capture.ExtractAfter(u, VideoHeads[1], id, tail, VideoHeads, VideoIdChar);
  }

  /** `https://www.youtube.com/embed/ID` gives `ID`. */
  lemma {:induction false} EmbedUrl(u: string, id: string, tail: string)
    requires NoHostStart(u)
    requires |id| > 0 && forall i :: 0 <= i < |id| ==> VideoIdChar(id[i])
    requires tail == [] || !VideoIdChar(tail[0])
    ensures ExtractVideoId(u + VideoHeads[2] + id + tail) == Some(id)
  {
    var s := u + VideoHeads[2] + id + tail;
    HostsStartWithY(u);
    assert s[|u|..|u| + |VideoHeads[2]|] == VideoHeads[2];
    assert !OccursAt(s, VideoHeads[0], |u|) by {
      assert s[|u| + 12] == 'e' != VideoHeads[0][12];
    }
    assert !OccursAt(s, VideoHeads[1], |u|) by {
      assert s[|u| + 5] == 'b' != VideoHeads[1][5];
    }
    Capture.ExtractAfter(u, VideoHeads[2], id, tail, VideoHeads, VideoIdChar);
  }

  /** The heads of `/[?&]list=([^&]+)/`. */
  const ListHeads: seq<string> := ["?list=", "&list="]

  predicate NotAmp(c: char) {
    c != '&'
  }

  /** `extractPlaylistId(url)`: the text after the first `?list=` or
      `&list=` up to the next '&', or `null`. */
  function ExtractPlaylistId(url: string): (r: Option<string>)
    ensures r.Some? ==> |r.value| > 0 && '&' !in r.value
    ensures r.Some? ==> exists p: nat :: p <= |url| && Capture.HeadAt(url, p, ListHeads, NotAmp).Some?
    ensures r.None? ==> forall p: nat :: p <= |url| ==> Capture.HeadAt(url, p, ListHeads, NotAmp).None?
  {
    var m := Capture.Extract(url, ListHeads, NotAmp);
    assert m.Some? ==> forall i :: 0 <= i < |m.value| ==> m.value[i] != '&';
    m
  }

  /** `...?list=ID&...` gives `ID` when the part before holds no '?' or
      '&'. */
  lemma {:induction false} PlaylistUrl(u: string, id: string, tail: string)
    requires '?' !in u && '&' !in u
    requires |id| > 0 && '&' !in id
    requires tail == [] || tail[0] == '&'
    ensures ExtractPlaylistId(u + ListHeads[0] + id + tail) == Some(id)
  {
    Capture.ExtractAfter(u, ListHeads[0], id, tail, ListHeads, NotAmp);
  }

  /** Without a `list=` parameter there is no playlist id. */
  lemma {:induction false} NoPlaylist(url: string)
    requires !Contains(url, "list=")
    ensures ExtractPlaylistId(url) == None
  {
    forall j | 0 <= j < |ListHeads|
      ensures !Contains(url, ListHeads[j])
    {
      var h := ListHeads[j];
      forall p | OccursAt(url, h, p)
        ensures false
      {
        assert url[p + 1..p + 6] == h[1..];
        assert OccursAt(url, "list=", p + 1);
      }
    }
    Capture.ExtractNone(url, ListHeads, NotAmp);
  }

  /** What `parseDuration` accepts: a number, or an ISO 8601 duration
      text. */
  datatype DurationInput = Seconds(n: int) | Iso(text: string)

  /** One optional group `(?:(\d+)X)?` tried at `i`: the value and the
      position after the designator when digits followed by `X` are there,
      otherwise 0 and `i` (the group matches empty). */
  function Designated(s: string, i: nat, x: char): (r: (nat, nat))
    requires i <= |s|
    ensures i <= r.1 <= |s|
    ensures r.1 == i ==> r.0 == 0
    ensures r.1 > i ==> i + 1 < r.1 && s[r.1 - 1] == x
  {
    var e := Capture.RunEnd(s, i, IsDigit);
    if i < e < |s| && s[e] == x then
      assert AllDigits(s[i..e]) by {
        assert forall k :: 0 <= k < e - i ==> s[i..e][k] == s[i + k];
      }
      (DecimalValue(s[i..e]), e + 1)
    else (0, i)
  }

  /** `parseDuration(duration)`: a number passes through; a text is read
      from its first `PT` as hours, minutes and seconds, each optional and
      in that order, a missing part counting 0; a text without `PT` gives
      180. */
  function ParseDuration(d: DurationInput): (r: int)
    ensures d.Seconds? ==> r == d.n
    ensures d.Iso? && !Contains(d.text, "PT") ==> r == 180
    ensures d.Iso? && Contains(d.text, "PT") ==> r >= 0
  {
    match d
    case Seconds(n) => n
    case Iso(s) =>
      match IndexOf(s, "PT")
      case None => 180
      case Some(p) => TimePart(s, p + 2)
  }

  /** `hours * 3600 + minutes * 60 + seconds` of the groups from `i`; the
      groups are tried in order, each from where the previous one ended. */
  function TimePart(s: string, i: nat): nat
    requires i <= |s|
  {
    var hours := Designated(s, i, 'H');
    hours.0 * 3600 + MinutesFrom(s, hours.1)
  }

  /** `minutes * 60 + seconds` of the last two groups, from `i`. */
  function MinutesFrom(s: string, i: nat): nat
    requires i <= |s|
  {
    var minutes := Designated(s, i, 'M');
    minutes.0 * 60 + SecondsFrom(s, minutes.1)
  }

  /** The seconds group, from `i`. */
  function SecondsFrom(s: string, i: nat): nat
    requires i <= |s|
  {
    Designated(s, i, 'S').0
  }

  /** Digits `ds` on `[i, e)` and then the designator `x`: the group for
      `x` reads their value and reading continues after `x`. */
  lemma {:induction false} ReadAt(s: string, i: nat, e: nat, x: char, ds: string)
    requires i < e
    requires e < |s|
    requires !IsDigit(x)
    requires s[e] == x
    requires s[i..e] == ds
    requires AllDigits(ds)
    ensures Designated(s, i, x).0 == DecimalValue(ds)
    ensures Designated(s, i, x).1 == e + 1
  {
    assert forall k :: i <= k < e ==> s[k] == s[i..e][k - i];
    Capture.RunEndAt(s, i, e, IsDigit);
  }

  /** The same digits in front of another designator: the group for `y`
      matches empty. */
  lemma {:induction false} ReadOther(s: string, i: nat, e: nat, x: char, y: char)
    requires i < e < |s| && !IsDigit(x) && s[e] == x && y != x
    requires AllDigits(s[i..e])
    ensures Designated(s, i, y).1 == i
  {
    assert forall k :: i <= k < e ==> s[k] == s[i..e][k - i];
    Capture.RunEndAt(s, i, e, IsDigit);
  }

  /** A text that starts with `PT` has its first `PT` at the front. */
  lemma LeadingPT(s: string)
    requires |s| >= 2 && s[0] == 'P' && s[1] == 'T'
    ensures IndexOf(s, "PT") == Some(0)
  {
    assert s[0..2] == "PT";
    assert OccursAt(s, "PT", 0);
  }

  /** Where the digit strings and designators of `PT<h>H<m>M<s>S` sit. */
  lemma {:induction false} ShapeFull(h: string, m: string, sec: string)
    ensures var s := "PT" + h + "H" + m + "M" + sec + "S";
            && s == "PT" + (h + "H" + m + "M" + sec + "S")
            && |s| == 2 + |h| + 1 + |m| + 1 + |sec| + 1
            && s[2..2 + |h|] == h && s[2 + |h|] == 'H'
            && s[2 + |h| + 1..2 + |h| + 1 + |m|] == m && s[2 + |h| + 1 + |m|] == 'M'
            && s[2 + |h| + 1 + |m| + 1..|s| - 1] == sec && s[|s| - 1] == 'S'
  {
    var s := "PT" + h + "H" + m + "M" + sec + "S";
    var i1, i2 := 2 + |h| + 1, 2 + |h| + 1 + |m| + 1;
    assert s[2..2 + |h|] == ("PT" + h)[2..];
    assert s[i1..i1 + |m|] == ("PT" + h + "H" + m)[i1..];
    assert s[i2..i2 + |sec|] == ("PT" + h + "H" + m + "M" + sec)[i2..];
  }

  /** The same for `PT<m>M<s>S`. */
  lemma {:induction false} ShapeMinutesSeconds(m: string, sec: string)
    ensures var s := "PT" + m + "M" + sec + "S";
            var i2 := 2 + |m| + 1;
            && s == "PT" + (m + "M" + sec + "S")
            && |s| == i2 + |sec| + 1
            && s[2..2 + |m|] == m && s[2 + |m|] == 'M'
            && s[i2..i2 + |sec|] == sec && s[i2 + |sec|] == 'S'
  {
    var s := "PT" + m + "M" + sec + "S";
    var i2 := 2 + |m| + 1;
    assert s[2..2 + |m|] == ("PT" + m)[2..];
    assert s[i2..i2 + |sec|] == ("PT" + m + "M" + sec)[i2..];
  }

  /** A seconds group `<sec>S` ending the text at `i` reads `sec`. */
  lemma {:induction false} ReadSeconds(s: string, i: nat, sec: string)
    requires |sec| > 0 && AllDigits(sec)
    requires |s| == i + |sec| + 1
    requires s[i..|s| - 1] == sec && s[|s| - 1] == 'S'
    ensures SecondsFrom(s, i) == DecimalValue(sec)
  {
    ReadAt(s, i, |s| - 1, 'S', sec);
  }

  /** `<m>M<sec>S` ending the text at `i` reads `m * 60 + sec`. */
  lemma {:induction false} ReadMinutes(s: string, i: nat, m: string, sec: string)
    requires |m| > 0 && |sec| > 0 && AllDigits(m) && AllDigits(sec)
    requires |s| == i + |m| + 1 + |sec| + 1
    requires s[i..i + |m|] == m && s[i + |m|] == 'M'
    requires s[i + |m| + 1..|s| - 1] == sec && s[|s| - 1] == 'S'
    ensures MinutesFrom(s, i) == DecimalValue(m) * 60 + DecimalValue(sec)
  {
    ReadAt(s, i, i + |m|, 'M', m);
    ReadSeconds(s, i + |m| + 1, sec);
  }

  /** `<h>H<m>M<sec>S` ending the text at `i` reads
      `h * 3600 + m * 60 + sec`. */
  lemma {:induction false} ReadHours(s: string, i: nat, h: string, m: string, sec: string)
    requires |h| > 0 && |m| > 0 && |sec| > 0 && AllDigits(h) && AllDigits(m) && AllDigits(sec)
    requires |s| == i + |h| + 1 + |m| + 1 + |sec| + 1
    requires s[i..i + |h|] == h && s[i + |h|] == 'H'
    requires s[i + |h| + 1..i + |h| + 1 + |m|] == m && s[i + |h| + 1 + |m|] == 'M'
    requires s[i + |h| + 1 + |m| + 1..|s| - 1] == sec && s[|s| - 1] == 'S'
    ensures TimePart(s, i) == DecimalValue(h) * 3600 + DecimalValue(m) * 60 + DecimalValue(sec)
  {
    var hours := Designated(s, i, 'H');
    ReadAt(s, i, i + |h|, 'H', h);
    var after := i + |h| + 1;
    assert hours == (DecimalValue(h), after);
    ReadMinutes(s, after, m, sec);
    var minutes := MinutesFrom(s, after);
    assert minutes == DecimalValue(m) * 60 + DecimalValue(sec);
    assert TimePart(s, i) == DecimalValue(h) * 3600 + minutes;
  }

  /** `<m>M<sec>S` with no hours: the hours group matches empty. */
  lemma {:induction false} ReadNoHours(s: string, i: nat, m: string, sec: string)
    requires |m| > 0 && |sec| > 0 && AllDigits(m) && AllDigits(sec)
    requires |s| == i + |m| + 1 + |sec| + 1
    requires s[i..i + |m|] == m && s[i + |m|] == 'M'
    requires s[i + |m| + 1..|s| - 1] == sec && s[|s| - 1] == 'S'
    ensures TimePart(s, i) == DecimalValue(m) * 60 + DecimalValue(sec)
  {
    ReadOther(s, i, i + |m|, 'M', 'H');
    ReadMinutes(s, i, m, sec);
  }

  /** `PT<h>H<m>M<s>S` with digit strings `h`, `m`, `s` reads as
      `h * 3600 + m * 60 + s`. */
  lemma {:induction false} ParseFull(h: string, m: string, sec: string)
    requires |h| > 0 && |m| > 0 && |sec| > 0 && AllDigits(h) && AllDigits(m) && AllDigits(sec)
    ensures ParseDuration(Iso("PT" + h + "H" + m + "M" + sec + "S"))
            == DecimalValue(h) * 3600 + DecimalValue(m) * 60 + DecimalValue(sec)
  {
    ShapeFull(h, m, sec);
    LeadingPT("PT" + h + "H" + m + "M" + sec + "S");
    FullTimePart(h, m, sec);
  }

  /** The time part of `PT<h>H<m>M<s>S`, read from just after `PT`. */
  lemma {:induction false} FullTimePart(h: string, m: string, sec: string)
    requires |h| > 0 && |m| > 0 && |sec| > 0 && AllDigits(h) && AllDigits(m) && AllDigits(sec)
    ensures TimePart("PT" + h + "H" + m + "M" + sec + "S", 2)
            == DecimalValue(h) * 3600 + DecimalValue(m) * 60 + DecimalValue(sec)
  {
    ShapeFull(h, m, sec);
    ReadHours("PT" + h + "H" + m + "M" + sec + "S", 2, h, m, sec);
  }

  /** `PT<m>M<s>S`: an omitted hours part counts zero. */
  lemma {:induction false} ParseMinutesSeconds(m: string, sec: string)
    requires |m| > 0 && |sec| > 0 && AllDigits(m) && AllDigits(sec)
    ensures ParseDuration(Iso("PT" + m + "M" + sec + "S")) == DecimalValue(m) * 60 + DecimalValue(sec)
  {
    ShapeMinutesSeconds(m, sec);
    LeadingPT("PT" + m + "M" + sec + "S");
    ReadNoHours("PT" + m + "M" + sec + "S", 2, m, sec);
  }

  /** The full time part `PT<h>H<m>M<s>S` of a length. */
  function RenderDuration(h: nat, m: nat, sec: nat): string {
    "PT" + Decimal(h) + "H" + Decimal(m) + "M" + Decimal(sec) + "S"
  }

  /** Reading a rendered duration gives its length in seconds. */
  lemma {:induction false} ParseRendered(h: nat, m: nat, sec: nat)
    ensures ParseDuration(Iso(RenderDuration(h, m, sec))) == h * 3600 + m * 60 + sec
  {
    ParseFull(Decimal(h), Decimal(m), Decimal(sec));
  }

  /** One optional group as it is written: the digits of `n` and the
      designator `x`, or nothing. */
  function Part(n: Option<nat>, x: char): string {
    if n.Some? then Decimal(n.value) + [x] else ""
  }

  /** The amount a group contributes: its value, or 0 when absent. */
  function Amount(n: Option<nat>): nat {
    n.GetOr(0)
  }

  /** Where `b` sits inside `a + b + c`. */
  lemma {:induction false} Middle(a: string, b: string, c: string)
    ensures (a + b + c)[|a|..|a| + |b|] == b
    ensures |c| > 0 ==> (a + b + c)[|a| + |b|] == c[0]
  {
    assert (a + b + c)[|a|..|a| + |b|] == (a + b)[|a|..];
  }

  /** A present group at `|pre|` reads its value and moves past its
      designator. */
  lemma {:induction false} ReadPart(pre: string, v: nat, x: char, rest: string)
    requires !IsDigit(x)
    ensures var s := pre + Part(Some(v), x) + rest;
            Designated(s, |pre|, x) == (v, |pre| + |Part(Some(v), x)|)
  {
    var ds := Decimal(v);
    var s := pre + Part(Some(v), x) + rest;
    assert s == pre + ds + ([x] + rest);
    Middle(pre, ds, [x] + rest);
    ReadAt(s, |pre|, |pre| + |ds|, x, ds);
  }

  /** A group for `y` in front of the designator of another group, or at
      the end of the text, matches empty. */
  lemma {:induction false} SkipPart(pre: string, n: Option<nat>, x: char, rest: string, y: char)
    requires !IsDigit(x)
    requires n.Some? ==> y != x
    requires n.None? ==> rest == ""
    ensures Designated(pre + Part(n, x) + rest, |pre|, y) == (0, |pre|)
  {
    var s := pre + Part(n, x) + rest;
    if n.Some? {
      var ds := Decimal(n.value);
      assert s == pre + ds + ([x] + rest);
      Middle(pre, ds, [x] + rest);
      ReadOther(s, |pre|, |pre| + |ds|, x, y);
    } else {
      assert s == pre;
    }
  }

  /** The seconds group read at `|pre|`. */
  lemma {:induction false} SecondsStage(pre: string, sec: Option<nat>)
    ensures SecondsFrom(pre + Part(sec, 'S'), |pre|) == Amount(sec)
  {
    if sec.Some? {
      ReadPart(pre, sec.value, 'S', "");
      assert pre + Part(sec, 'S') + "" == pre + Part(sec, 'S');
    } else {
      SkipPart(pre, sec, 'S', "", 'S');
      assert pre + Part(sec, 'S') + "" == pre + Part(sec, 'S');
    }
  }

  /** The minutes and seconds groups read at `|pre|`. */
  lemma {:induction false} MinutesStage(pre: string, m: Option<nat>, sec: Option<nat>)
    ensures MinutesFrom(pre + Part(m, 'M') + Part(sec, 'S'), |pre|) == Amount(m) * 60 + Amount(sec)
  {
    if m.Some? {
      MinutesPresent(pre, m.value, sec);
    } else {
      assert pre + Part(m, 'M') == pre;
      MinutesAbsent(pre, sec);
    }
  }

  /** A present minutes group, then the seconds. */
  lemma {:induction false} MinutesPresent(pre: string, v: nat, sec: Option<nat>)
    ensures MinutesFrom(pre + Part(Some(v), 'M') + Part(sec, 'S'), |pre|) == v * 60 + Amount(sec)
  {
    ReadPart(pre, v, 'M', Part(sec, 'S'));
    SecondsStage(pre + Part(Some(v), 'M'), sec);
  }

  /** No minutes group: it matches empty in front of the seconds digits,
      or at the end of the text. */
  lemma {:induction false} MinutesAbsent(pre: string, sec: Option<nat>)
    ensures MinutesFrom(pre + Part(sec, 'S'), |pre|) == Amount(sec)
  {
    var s := pre + Part(sec, 'S');
    assert s == pre + Part(sec, 'S') + "";
    SkipPart(pre, sec, 'S', "", 'M');
    SecondsStage(pre, sec);
  }

  /** All three groups read at `|pre|`. */
  lemma {:induction false} HoursStage(pre: string, h: Option<nat>, m: Option<nat>, sec: Option<nat>)
    ensures TimePart(pre + Part(h, 'H') + Part(m, 'M') + Part(sec, 'S'), |pre|)
            == Amount(h) * 3600 + Amount(m) * 60 + Amount(sec)
  {
    if h.Some? {
      HoursPresent(pre, h.value, m, sec);
    } else {
      assert pre + Part(h, 'H') == pre;
      HoursAbsent(pre, m, sec);
    }
  }

  /** A present hours group, then the minutes and seconds. */
  lemma {:induction false} HoursPresent(pre: string, v: nat, m: Option<nat>, sec: Option<nat>)
    ensures TimePart(pre + Part(Some(v), 'H') + Part(m, 'M') + Part(sec, 'S'), |pre|)
            == v * 3600 + Amount(m) * 60 + Amount(sec)
  {
    var hp := Part(Some(v), 'H');
    var tail := Part(m, 'M') + Part(sec, 'S');
    var s := pre + hp + Part(m, 'M') + Part(sec, 'S');
    assert s == pre + hp + tail;
    ReadPart(pre, v, 'H', tail);
    MinutesStage(pre + hp, m, sec);
  }

  /** No hours group: it matches empty in front of the minutes or seconds
      digits, or at the end of the text. */
  lemma {:induction false} HoursAbsent(pre: string, m: Option<nat>, sec: Option<nat>)
    ensures TimePart(pre + Part(m, 'M') + Part(sec, 'S'), |pre|) == Amount(m) * 60 + Amount(sec)
  {
    var s := pre + Part(m, 'M') + Part(sec, 'S');
    if m.Some? {
      SkipPart(pre, m, 'M', Part(sec, 'S'), 'H');
    } else {
      assert s == pre + Part(sec, 'S') + "";
      SkipPart(pre, sec, 'S', "", 'H');
    }
    MinutesStage(pre, m, sec);
  }

  /** `PT` followed by any of the three groups, each present or not:
      `PT45S`, `PT3M`, `PT1H`, `PT1H30S`, `PT1H2M` and the rest read as the
      sum of the present parts, an absent part counting 0. */
  lemma {:induction false} ParseParts(h: Option<nat>, m: Option<nat>, sec: Option<nat>)
    ensures ParseDuration(Iso("PT" + Part(h, 'H') + Part(m, 'M') + Part(sec, 'S')))
            == Amount(h) * 3600 + Amount(m) * 60 + Amount(sec)
  {
    var s := "PT" + Part(h, 'H') + Part(m, 'M') + Part(sec, 'S');
    assert s[0] == 'P' && s[1] == 'T';
    LeadingPT(s);
    HoursStage("PT", h, m, sec);
  }
}

=== FILE: player.dfy ===
/** The fragment player (`src/core/AudioPlayer.js`): one audio element and
    the flags around it. The element is reduced to what the player sets on
    it (source, position, volume); the two lookups `getInvidiousUrl` and
    `getSpotifyPreview` are network calls that catch every failure and
    yield a URL or `null`, so each is an optional-string parameter. */
module Player {
  import opened Wrappers
  import opened Songs

  /** Seconds of each fragment (`this.duration`). */
  const FragmentSeconds: nat := 15

  datatype State = State(
    currentSong: Option<Song>,
    isPlaying: bool,
    src: Option<string>,
    position: real,
    volume: real)

  /** A fresh player: nothing loaded, not playing, full volume. */
  const Initial := State(None, false, None, 0.0, 1.0)

  /** `getAudioUrl(song)`: the Invidious URL if truthy, else the Spotify
      preview if truthy, else `null`. */
  function ResolveUrl(invidious: Option<string>, spotify: Option<string>): (url: Option<string>)
    ensures Truthy(invidious) ==> url == invidious
    ensures !Truthy(invidious) && Truthy(spotify) ==> url == spotify
    ensures !Truthy(invidious) && !Truthy(spotify) ==> url == None
    ensures url.Some? ==> Truthy(url)
  {
    if Truthy(invidious) then invidious
    else if Truthy(spotify) then spotify
    else None
  }

  /** `play(song)`. `invidious`/`spotify` are the two lookups and `started`
      whether `audio.play()` resolves. The song becomes current in every
      case; a source is loaded from the start only when a URL was found;
      the result is true exactly when playback started. */
  function Play(st: State, song: Song, invidious: Option<string>, spotify: Option<string>, started: bool): (r: (State, bool))
    ensures r.0.currentSong == Some(song) && r.0.volume == st.volume
    ensures r.1 <==> ResolveUrl(invidious, spotify).Some? && started
    ensures r.0.isPlaying == r.1
    ensures ResolveUrl(invidious, spotify).None? ==> r.0.src == st.src && r.0.position == st.position
    ensures ResolveUrl(invidious, spotify).Some? ==> r.0.src == ResolveUrl(invidious, spotify) && r.0.position == 0.0
  {
    var st1 := st.(currentSong := Some(song));
    match ResolveUrl(invidious, spotify)
    case None => (st1.(isPlaying := false), false)
    case Some(url) =>
      var st2 := st1.(src := Some(url), position := 0.0);
      if started then (st2.(isPlaying := true), true) else (st2.(isPlaying := false), false)
  }

  /** `stop()`: not playing, back at the start. */
  function Stop(st: State): (r: State)
    ensures !r.isPlaying && r.position == 0.0
    ensures r.currentSong == st.currentSong && r.src == st.src && r.volume == st.volume
  {
    st.(isPlaying := false, position := 0.0)
  }

  /** `pause()`: not playing, position kept. */
  function Pause(st: State): (r: State)
    ensures !r.isPlaying
    ensures r.position == st.position && r.currentSong == st.currentSong
    ensures r.src == st.src && r.volume == st.volume
  {
    st.(isPlaying := false)
  }

  /** `resume()`: restarts only a player that is not playing. */
  function Resume(st: State): (r: State)
    ensures r.isPlaying
    ensures r.position == st.position && r.currentSong == st.currentSong
    ensures r.src == st.src && r.volume == st.volume
  {
    if !st.isPlaying then st.(isPlaying := true) else st
  }

  /** The timer `play` arms: it stops the player only if still playing. */
  function AutoStop(st: State): (r: State)
    ensures st.isPlaying ==> r == Stop(st)
    ensures !st.isPlaying ==> r == st
  {
    if st.isPlaying then Stop(st) else st
  }

  /** The element's `ended` and `error` listeners. */
  function AudioEnded(st: State): (r: State)
    ensures !r.isPlaying
    ensures r.position == st.position && r.src == st.src && r.currentSong == st.currentSong
  {
    st.(isPlaying := false)
  }

  /** `setVolume(v)`: `Math.max(0, Math.min(1, v))`. */
  function SetVolume(st: State, v: real): (r: State)
    ensures 0.0 <= r.volume <= 1.0
    ensures 0.0 <= v <= 1.0 ==> r.volume == v
    ensures v < 0.0 ==> r.volume == 0.0
    ensures v > 1.0 ==> r.volume == 1.0
    ensures r.isPlaying == st.isPlaying && r.position == st.position && r.src == st.src
  {
    var clamped := if v < 0.0 then 0.0 else if v > 1.0 then 1.0 else v;
    st.(volume := clamped)
  }

  /** `getDuration()` never depends on the state. */
  function GetDuration(st: State): (d: nat)
    ensures d == FragmentSeconds
  {
    FragmentSeconds
  }

  /** Clamping twice is clamping once, and the clamp keeps the nearest
      in-range volume. */
  lemma SetVolumeIdempotent(st: State, v: real)
    ensures SetVolume(SetVolume(st, v), v) == SetVolume(st, v)
    ensures SetVolume(SetVolume(st, v), SetVolume(st, v).volume) == SetVolume(st, v)
  {
  }

  /** Pausing then resuming a playing player restores its state; resuming
      does nothing to a playing one. */
  lemma PauseResume(st: State)
    requires st.isPlaying
    ensures Resume(Pause(st)) == st
    ensures Resume(st) == st
  {
  }

  /** Once stopped (or paused), the pending auto-stop timer changes
      nothing: it fires only while playing. */
  lemma AutoStopAfterStop(st: State)
    ensures AutoStop(Stop(st)) == Stop(st)
    ensures AutoStop(Pause(st)) == Pause(st)
    ensures AutoStop(AutoStop(st)) == AutoStop(st)
  {
  }

  /** Without any URL nothing is loaded and the player ends up silent,
      whatever the element would do. */
  lemma PlayWithoutUrl(st: State, song: Song, invidious: Option<string>, spotify: Option<string>, started: bool)
    requires !Truthy(invidious) && !Truthy(spotify)
    ensures Play(st, song, invidious, spotify, started) == (st.(currentSong := Some(song), isPlaying := false), false)
  {
  }
}

=== FILE: songs.dfy ===
/** The song record that the importers produce, the catalogue stores and the
    game engine draws, and the generic list helpers the catalogue needs. */
module Songs {
  import opened Wrappers

  /** One catalogue song. Times are in seconds; `cueIn`/`cueOut` bound the
      fragment that is played. The importers store the same value in
      `sourcePath` and `youtubeId`, but an edit may set them apart; every
      imported song has `sourceType` 'YOUTUBE', which is left implicit. */
  datatype Song = Song(
    id: string,
    title: string,
    artist: string,
    album: Option<string>,
    duration: real,
    youtubeId: Option<string>,
    sourcePath: Option<string>,
    spotifyId: Option<string>,
    cueIn: real,
    cueOut: real,
    hasAudio: bool,
    createdAt: string,
    updatedAt: Option<string>)

  /** The fields an edit may carry (`{...song, ...updates}`), one per field
      of `Song`: a present field overrides, an absent one keeps the stored
      value. The optional fields may be set to `null`, hence the nested
      options. A patch's own `updatedAt` is always overridden by the time of
      the update. */
  datatype SongPatch = SongPatch(
    id: Option<string>,
    title: Option<string>,
    artist: Option<string>,
    album: Option<Option<string>>,
    duration: Option<real>,
    youtubeId: Option<Option<string>>,
    sourcePath: Option<Option<string>>,
    spotifyId: Option<Option<string>>,
    cueIn: Option<real>,
    cueOut: Option<real>,
    hasAudio: Option<bool>,
    createdAt: Option<string>,
    updatedAt: Option<Option<string>>)

  /** The patch that sets nothing. */
  const EmptyPatch: SongPatch :=
    SongPatch(None, None, None, None, None, None, None, None, None, None, None, None, None)

  /** One field after a spread: the patch's value when it carries one, the
      stored value otherwise. */
  predicate Takes<T(==)>(patched: Option<T>, before: T, after: T) {
    && (patched.Some? ==> after == patched.value)
    && (patched.None? ==> after == before)
  }

  /** JavaScript truthiness of an optional string: present and non-empty. */
  predicate Truthy(o: Option<string>) {
    o.Some? && o.value != []
  }

  /** `o || fallback` for an optional string. */
  function OrElse(o: Option<string>, fallback: string): (r: string)
    ensures Truthy(o) ==> r == o.value
    ensures !Truthy(o) ==> r == fallback
  {
    if Truthy(o) then o.value else fallback
  }
}

/** Order-preserving filtering of lists (`Array.prototype.filter`). */
module Lists {
  import opened Wrappers

  /** `findIndex(p)`, with `None` for -1. */
  function FirstIndex<T>(xs: seq<T>, p: T -> bool): (r: Option<nat>)
    ensures r.Some? ==> r.value < |xs| && p(xs[r.value])
    ensures r.Some? ==> forall j :: 0 <= j < r.value ==> !p(xs[j])
    ensures r.None? <==> forall j :: 0 <= j < |xs| ==> !p(xs[j])
  {
    if |xs| == 0 then None
    else if p(xs[0]) then Some(0)
    else
      match FirstIndex(xs[1..], p)
      case None => None
      case Some(k) => Some(k + 1)
  }

  function Filter<T>(xs: seq<T>, p: T -> bool): (r: seq<T>)
    ensures |r| <= |xs|
    ensures forall i :: 0 <= i < |r| ==> r[i] in xs && p(r[i])
    ensures forall i :: 0 <= i < |xs| && p(xs[i]) ==> xs[i] in r
  {
    if |xs| == 0 then []
    else if p(xs[0]) then [xs[0]] + Filter(xs[1..], p)
    else Filter(xs[1..], p)
  }

  /** Filtering commutes with concatenation: it keeps the relative order. */
  lemma {:induction false} FilterConcat<T>(xs: seq<T>, ys: seq<T>, p: T -> bool)
    ensures Filter(xs + ys, p) == Filter(xs, p) + Filter(ys, p)
  {
    if |xs| == 0 {
      assert xs + ys == ys;
    } else {
      assert (xs + ys)[1..] == xs[1..] + ys;
      FilterConcat(xs[1..], ys, p);
    }
  }

  /** On one element the filter keeps it or drops it. With `FilterConcat`
      this determines `Filter` on every list. */
  lemma FilterSingle<T>(x: T, p: T -> bool)
    ensures Filter([x], p) == if p(x) then [x] else []
  {
    assert [x][1..] == [];
  }

  /** A filter that every element passes returns the list unchanged. */
  lemma {:induction false} FilterAll<T>(xs: seq<T>, p: T -> bool)
    requires forall i :: 0 <= i < |xs| ==> p(xs[i])
    ensures Filter(xs, p) == xs
  {
    if |xs| > 0 {
      FilterAll(xs[1..], p);
    }
  }

  /** A filter that rejects exactly one position removes exactly it. */
  lemma {:induction false} FilterDropOne<T>(xs: seq<T>, i: nat, p: T -> bool)
    requires i < |xs| && !p(xs[i])
    requires forall k :: 0 <= k < |xs| && k != i ==> p(xs[k])
    ensures Filter(xs, p) == xs[..i] + xs[i + 1..]
  {
    var tail := xs[1..];
    if i == 0 {
      assert forall k :: 0 <= k < |tail| ==> tail[k] == xs[k + 1];
      FilterAll(tail, p);
    } else {
      assert p(xs[0]);
      assert Filter(xs, p) == [xs[0]] + Filter(tail, p);
      assert forall k :: 0 <= k < |tail| ==> tail[k] == xs[k + 1];
      FilterDropOne(tail, i - 1, p);
      ConsSplit(xs, i);
    }
  }

  /** Splitting around position `i` after the head. */
  lemma ConsSplit<T>(xs: seq<T>, i: nat)
    requires 0 < i < |xs|
    ensures [xs[0]] + (xs[1..][..i - 1] + xs[1..][i..]) == xs[..i] + xs[i + 1..]
  {
    assert xs[..i] == [xs[0]] + xs[1..][..i - 1];
    assert xs[i + 1..] == xs[1..][i..];
  }

  /** Number of elements satisfying `p`. */
  function CountIf<T>(xs: seq<T>, p: T -> bool): (n: nat)
    ensures n <= |xs|
  {
    if |xs| == 0 then 0 else (if p(xs[0]) then 1 else 0) + CountIf(xs[1..], p)
  }

  /** Elements passing `p` plus those passing its complement `q` make up
      the whole list. */
  lemma {:induction false} CountSplit<T>(xs: seq<T>, p: T -> bool, q: T -> bool)
    requires forall i :: 0 <= i < |xs| ==> q(xs[i]) == !p(xs[i])
    ensures CountIf(xs, p) + CountIf(xs, q) == |xs|
  {
    if |xs| > 0 {
      CountSplit(xs[1..], p, q);
    }
  }

  /** The kept elements are exactly as many as those satisfying `p`. */
  lemma {:induction false} FilterLength<T>(xs: seq<T>, p: T -> bool)
    ensures |Filter(xs, p)| == CountIf(xs, p)
  {
    if |xs| > 0 {
      FilterLength(xs[1..], p);
    }
  }

  /** No element occurs twice. */
  predicate NoDuplicates<T(==)>(xs: seq<T>) {
    forall i, j :: 0 <= i < j < |xs| ==> xs[i] != xs[j]
  }
}

=== FILE: spotify_api.dfy ===
/** The Spotify Web API client (`src/services/SpotifyAPI.js`): credentials,
    the cached client-credentials token, the preview lookup and the
    playlist listing. The persistent store the constructor reads from is
    reduced to the two stored strings, `Date.now()` is the parameter `now`
    (milliseconds), and every HTTP exchange is an oracle reply: either a
    failure message or the parsed body. */
module SpotifyApi {
  import opened Wrappers
  import opened Text
  import opened Songs
  import Lists
  import Capture

  datatype Api = Api(clientId: string, clientSecret: string, accessToken: Option<string>, tokenExpiry: Option<int>)

  datatype ApiError =
    | NoCredentials          // 'Credenciales de Spotify no configuradas'
    | RequestFailed(message: string)
    | InvalidPlaylistUrl     // 'URL de playlist inválida'
    | MissingTrack           // `item.track.name` on a `null` track

  /** A track as the search and playlist endpoints describe it. */
  datatype Track = Track(id: string, name: string, artists: seq<string>, album: string, durationMs: int, previewUrl: Option<string>)

  /** The token endpoint's body: `access_token` and `expires_in` seconds. */
  datatype TokenReply = TokenReply(accessToken: Option<string>, expiresIn: int)

  /** Seconds taken off every token's lifetime. */
  const ExpiryMarginSeconds: int := 300

  /** The constructor: the stored credentials, no token yet. */
  function Load(storedId: string, storedSecret: string): (a: Api)
    ensures !CacheValid(a, 0)
    ensures HasCredentials(a) <==> storedId != [] && storedSecret != []
  {
    Api(storedId, storedSecret, None, None)
  }

  /** `hasCredentials()`: both strings non-empty. */
  predicate HasCredentials(a: Api) {
    a.clientId != [] && a.clientSecret != []
  }

  /** The guard of `getAccessToken`: a truthy token, a truthy (non-zero)
      expiry, and a clock still before it. */
  predicate CacheValid(a: Api, now: int) {
    Truthy(a.accessToken) && a.tokenExpiry.Some? && a.tokenExpiry.value != 0 && now < a.tokenExpiry.value
  }

  /** `setCredentials(id, secret)`: the new pair, and the cached token is
      forgotten, so the next call asks for a new one. */
  function SetCredentials(a: Api, id: string, secret: string): (r: Api)
    ensures r.clientId == id && r.clientSecret == secret
    ensures forall now :: !CacheValid(r, now)
    ensures HasCredentials(r) <==> id != [] && secret != []
  {
    Api(id, secret, None, None)
  }

  /** `getAccessToken()`; `request` is the token endpoint's answer, used
      only when the cache is not valid and credentials are set. */
  function GetAccessToken(a: Api, now: int, request: Result<TokenReply, string>): (r: (Api, Result<Option<string>, ApiError>))
    ensures CacheValid(a, now) ==> r.0 == a && r.1 == Ok(a.accessToken)
    ensures !CacheValid(a, now) && !HasCredentials(a) ==> r.0 == a && r.1 == Err(NoCredentials)
    ensures !CacheValid(a, now) && HasCredentials(a) && request.Err? ==> r.0 == a && r.1 == Err(RequestFailed(request.error))
    ensures !CacheValid(a, now) && HasCredentials(a) && request.Ok? ==>
              && r.1 == Ok(request.value.accessToken)
              && r.0.accessToken == request.value.accessToken
              && r.0.tokenExpiry == Some(now + (request.value.expiresIn - ExpiryMarginSeconds) * 1000)
    ensures r.0.clientId == a.clientId && r.0.clientSecret == a.clientSecret
  {
    if CacheValid(a, now) then (a, Ok(a.accessToken))
    else if !HasCredentials(a) then (a, Err(NoCredentials))
    else
      match request
      case Err(msg) => (a, Err(RequestFailed(msg)))
      case Ok(reply) =>
        var expiry := now + (reply.expiresIn - ExpiryMarginSeconds) * 1000;
        (a.(accessToken := reply.accessToken, tokenExpiry := Some(expiry)), Ok(reply.accessToken))
  }

  /** A valid cached token is returned whatever the endpoint would answer:
      no request is made. */
  lemma CachedTokenNeedsNoRequest(a: Api, now: int, r1: Result<TokenReply, string>, r2: Result<TokenReply, string>)
    requires CacheValid(a, now)
    ensures GetAccessToken(a, now, r1) == GetAccessToken(a, now, r2) == (a, Ok(a.accessToken))
  {
  }

  /** A fresh token is reused, without a request, until five minutes before
      the lifetime the endpoint announced. */
  lemma TokenReusedUntilExpiry(a: Api, now: int, reply: TokenReply, later: int, request: Result<TokenReply, string>)
    requires !CacheValid(a, now) && HasCredentials(a)
    requires Truthy(reply.accessToken) && reply.expiresIn > ExpiryMarginSeconds
    requires now <= later < now + (reply.expiresIn - ExpiryMarginSeconds) * 1000
    requires now + (reply.expiresIn - ExpiryMarginSeconds) * 1000 != 0
    ensures var renewed := GetAccessToken(a, now, Ok(reply)).0;
            GetAccessToken(renewed, later, request) == (renewed, Ok(reply.accessToken))
  {
  }

  /** A token living five minutes or less is never reused. */
  lemma ShortLivedTokenNotReused(a: Api, now: int, reply: TokenReply, later: int)
    requires !CacheValid(a, now) && HasCredentials(a)
    requires reply.expiresIn <= ExpiryMarginSeconds && later >= now
    ensures !CacheValid(GetAccessToken(a, now, Ok(reply)).0, later)
  {
  }

  /** After new credentials are set, without credentials the token call
      fails; with them it always asks the endpoint. */
  lemma SetCredentialsForcesRequest(a: Api, id: string, secret: string, now: int, reply: TokenReply)
    ensures id == [] || secret == [] ==>
              GetAccessToken(SetCredentials(a, id, secret), now, Ok(reply)).1 == Err(NoCredentials)
    ensures id != [] && secret != [] ==>
              GetAccessToken(SetCredentials(a, id, secret), now, Ok(reply)).1 == Ok(reply.accessToken)
  {
  }

  /** `searchTrack(query)`: `null` on any failure (the token's included) or
      when no track comes back. */
  function SearchTrack(a: Api, now: int, tokenRequest: Result<TokenReply, string>,
                       search: Result<Option<seq<Track>>, string>): (r: (Api, Option<seq<Track>>))
    ensures r.0 == GetAccessToken(a, now, tokenRequest).0
    ensures r.1.Some? <==> GetAccessToken(a, now, tokenRequest).1.Ok? && search.Ok?
                           && search.value.Some? && |search.value.value| > 0
    ensures r.1.Some? ==> r.1 == search.value
  {
    var (a', token) := GetAccessToken(a, now, tokenRequest);
    if token.Err? then (a', None)
    else
      match search
      case Err(_) => (a', None)
      case Ok(None) => (a', None)
      case Ok(Some(items)) => if |items| == 0 then (a', None) else (a', Some(items))
  }

  /** Previews last 30 seconds. */
  const PreviewSeconds: nat := 30

  datatype Preview = Preview(url: string, duration: nat, title: string, artist: Option<string>)

  predicate HasPreview(t: Track) {
    Truthy(t.previewUrl)
  }

  /** `artists[0]?.name`. */
  function FirstArtist(t: Track): (r: Option<string>)
    ensures r.Some? <==> |t.artists| > 0
    ensures r.Some? ==> r.value == t.artists[0]
  {
    if |t.artists| > 0 then Some(t.artists[0]) else None
  }

  function PreviewOf(t: Track): Preview
    requires HasPreview(t)
  {
    Preview(t.previewUrl.value, PreviewSeconds, t.name, FirstArtist(t))
  }

  /** The loop of `getPreviewUrl`: the first track with a preview. */
  function FirstPreview(tracks: seq<Track>): (p: Option<Preview>)
    ensures p.Some? <==> exists i :: 0 <= i < |tracks| && HasPreview(tracks[i])
    ensures p.Some? ==> exists i :: 0 <= i < |tracks| && HasPreview(tracks[i])
                                    && (forall k :: 0 <= k < i ==> !HasPreview(tracks[k]))
                                    && p.value == PreviewOf(tracks[i])
    ensures p.Some? ==> p.value.duration == PreviewSeconds && p.value.url != []
  {
    if |tracks| == 0 then None
    else if HasPreview(tracks[0]) then Some(PreviewOf(tracks[0]))
    else
      var p := FirstPreview(tracks[1..]);
      assert forall i :: 1 <= i < |tracks| ==> tracks[i] == tracks[1..][i - 1];
      assert p.Some? ==> exists i :: 1 <= i < |tracks| && HasPreview(tracks[i])
                                     && (forall k :: 1 <= k < i ==> !HasPreview(tracks[k]))
                                     && p.value == PreviewOf(tracks[i]);
      p
  }

  /** The preview chosen is the one at `findIndex(t => t.preview_url)`. */
  lemma {:induction false} FirstPreviewIsFirstIndex(tracks: seq<Track>)
    ensures match Lists.FirstIndex(tracks, HasPreview)
            case None => FirstPreview(tracks) == None
            case Some(i) => FirstPreview(tracks) == Some(PreviewOf(tracks[i]))
  {
    if |tracks| > 0 && !HasPreview(tracks[0]) {
      FirstPreviewIsFirstIndex(tracks[1..]);
    }
  }

  /** `getPreviewUrl(title, artist)`: the preview of the first track found
      that has one; every failure, and a search without any preview, gives
      `null`. */
  function GetPreviewUrl(a: Api, now: int, tokenRequest: Result<TokenReply, string>,
                         search: Result<Option<seq<Track>>, string>): (r: (Api, Option<Preview>))
    ensures r.0 == GetAccessToken(a, now, tokenRequest).0
    ensures SearchTrack(a, now, tokenRequest, search).1.None? ==> r.1.None?
    ensures var t := SearchTrack(a, now, tokenRequest, search).1;
            t.Some? ==> (r.1.None? <==> forall i :: 0 <= i < |t.value| ==> !HasPreview(t.value[i]))
    ensures r.1.Some? ==> search.Ok? && search.value.Some?
                          && exists i :: 0 <= i < |search.value.value| && HasPreview(search.value.value[i])
                                         && (forall j :: 0 <= j < i ==> !HasPreview(search.value.value[j]))
                                         && r.1.value == PreviewOf(search.value.value[i])
    ensures r.1.Some? ==> r.1.value.duration == PreviewSeconds
  {
    var (a', tracks) := SearchTrack(a, now, tokenRequest, search);
    if tracks.None? then (a', None) else (a', FirstPreview(tracks.value))
  }

  /** Without credentials or a cached token there is never a preview: the
      error is swallowed, not thrown. */
  lemma NoCredentialsNoPreview(a: Api, now: int, tokenRequest: Result<TokenReply, string>,
                               search: Result<Option<seq<Track>>, string>)
    requires !CacheValid(a, now) && !HasCredentials(a)
    ensures GetPreviewUrl(a, now, tokenRequest, search) == (a, None)
  {
  }

  /** The heads of `/playlist\/([a-zA-Z0-9]+)/`. */
  const PlaylistHeads: seq<string> := ["playlist/"]

  /** `extractPlaylistId(url)`. */
  function ExtractPlaylistId(url: string): (r: Option<string>)
    ensures r.Some? ==> |r.value| > 0 && forall i :: 0 <= i < |r.value| ==> IsAlnum(r.value[i])
    ensures r.Some? <==> exists p: nat :: p <= |url| && Capture.HeadAt(url, p, PlaylistHeads, IsAlnum).Some?
  {
    var m := Capture.Extract(url, PlaylistHeads, IsAlnum);
    if m.Some? then
      var p :| 0 <= p <= |url| && Capture.HeadAt(url, p, PlaylistHeads, IsAlnum).Some?;
      var q: nat := p;
      assert exists p: nat :: p <= |url| && Capture.HeadAt(url, p, PlaylistHeads, IsAlnum).Some?;
      m
    else m
  }

  /** `https://open.spotify.com/playlist/ID?si=...` gives `ID`: any prefix
      without an 'l' cannot hold the start of "playlist". */
  lemma {:induction false} PlaylistUrl(u: string, id: string, tail: string)
    requires 'l' !in u
    requires |id| > 0 && forall i :: 0 <= i < |id| ==> IsAlnum(id[i])
    requires tail == [] || !IsAlnum(tail[0])
    ensures ExtractPlaylistId(u + PlaylistHeads[0] + id + tail) == Some(id)
  {
    var s := u + PlaylistHeads[0] + id + tail;
    forall q, j | 0 <= q < |u| && 0 <= j < |PlaylistHeads|
      ensures !OccursAt(s, PlaylistHeads[j], q)
    {
      if q + 1 < |u| {
        assert s[q + 1] == u[q + 1] != 'l';
      } else {
        assert s[q + 1] == 'p';
      }
    }
    Capture.ExtractAt(u, PlaylistHeads[0], id, tail, PlaylistHeads, IsAlnum);
  }

  /** Without "playlist/" there is no id. */
  lemma NoPlaylist(url: string)
    requires !Contains(url, PlaylistHeads[0])
    ensures ExtractPlaylistId(url) == None
  {
    Capture.ExtractNone(url, PlaylistHeads, IsAlnum);
  }

  /** One row of `importPlaylist`'s answer. */
  datatype PlaylistEntry = PlaylistEntry(title: string, artist: string, hasPreview: bool)

  const UnknownArtist: string := "Artista Desconocido"

  function EntryOf(t: Track): (e: PlaylistEntry)
    ensures e.title == t.name
    ensures e.hasPreview <==> HasPreview(t)
    ensures |t.artists| > 0 && t.artists[0] != [] ==> e.artist == t.artists[0]
    ensures |t.artists| == 0 || t.artists[0] == [] ==> e.artist == UnknownArtist
  {
    PlaylistEntry(t.name, OrElse(FirstArtist(t), UnknownArtist), HasPreview(t))
  }

  /** `importPlaylist(url)`: the token comes first, then the URL check, then
      the listing; a `null` track makes the mapping throw. `fetchTracks` is
      the tracks endpoint for a playlist id. */
  function ImportPlaylist(a: Api, now: int, tokenRequest: Result<TokenReply, string>, url: string,
                          fetchTracks: string -> Result<seq<Option<Track>>, string>): (r: (Api, Result<seq<PlaylistEntry>, ApiError>))
    ensures r.0 == GetAccessToken(a, now, tokenRequest).0
    ensures GetAccessToken(a, now, tokenRequest).1.Err? ==> r.1 == Err(GetAccessToken(a, now, tokenRequest).1.error)
    ensures GetAccessToken(a, now, tokenRequest).1.Ok? && ExtractPlaylistId(url).None? ==> r.1 == Err(InvalidPlaylistUrl)
    ensures GetAccessToken(a, now, tokenRequest).1.Ok? && ExtractPlaylistId(url).Some?
            && fetchTracks(ExtractPlaylistId(url).value).Err? ==>
              r.1 == Err(RequestFailed(fetchTracks(ExtractPlaylistId(url).value).error))
    ensures GetAccessToken(a, now, tokenRequest).1.Ok? && ExtractPlaylistId(url).Some?
            && fetchTracks(ExtractPlaylistId(url).value).Ok? ==>
              var items := fetchTracks(ExtractPlaylistId(url).value).value;
              && ((exists j :: 0 <= j < |items| && items[j].None?) ==> r.1 == Err(MissingTrack))
              && ((forall j :: 0 <= j < |items| ==> items[j].Some?) ==> r.1.Ok?)
    ensures r.1.Ok? ==> ExtractPlaylistId(url).Some? && fetchTracks(ExtractPlaylistId(url).value).Ok?
    ensures r.1.Ok? ==> var items := fetchTracks(ExtractPlaylistId(url).value).value;
                        && |r.1.value| == |items|
                        && forall j :: 0 <= j < |items| ==> items[j].Some? && r.1.value[j] == EntryOf(items[j].value)
  {
    var (a', token) := GetAccessToken(a, now, tokenRequest);
    if token.Err? then (a', Err(token.error))
    else
      match ExtractPlaylistId(url)
      case None => (a', Err(InvalidPlaylistUrl))
      case Some(id) =>
        match fetchTracks(id)
        case Err(msg) => (a', Err(RequestFailed(msg)))
        case Ok(items) =>
          if exists j :: 0 <= j < |items| && items[j].None? then (a', Err(MissingTrack))
          else (a', Ok(seq(|items|, j requires 0 <= j < |items| => EntryOf(items[j].value))))
  }

  /** The credentials are checked before the URL: without them even an
      invalid URL reports the missing credentials. */
  lemma CredentialsCheckedFirst(a: Api, now: int, tokenRequest: Result<TokenReply, string>, url: string,
                                fetchTracks: string -> Result<seq<Option<Track>>, string>)
    requires !CacheValid(a, now) && !HasCredentials(a)
    ensures ImportPlaylist(a, now, tokenRequest, url, fetchTracks) == (a, Err(NoCredentials))
  {
  }
}

=== FILE: spotify_import.dfy ===
/** The Spotify playlist importer (`src/services/SpotifyImporter.js`): each
    track of a playlist becomes a song whose audio is the first YouTube
    search hit and whose fragment is the loudest section of the track's
    audio analysis. The three Spotify calls and the Invidious search are
    oracles; `uuidv4()` is a function of the song's position and the
    timestamp is a parameter. */
module SpotifyImport {
  import opened Wrappers
  import opened Text
  import opened Songs
  import opened Lists
  import Capture
  import SpotifyApi
  import YouTubeImport

  type Track = SpotifyApi.Track
  type Lookup<T> = YouTubeImport.Lookup<T>

  datatype ImportError =
    | InvalidPlaylistUrl     // 'URL de playlist inválida'
    | LookupFailed(message: string)
    | MissingArtist          // `track.artists[0].name` on a track without artists

  /** The heads of `/playlist[\/:]([a-zA-Z0-9]+)/`: the web URL and the
      `spotify:playlist:` URI forms. */
  const PlaylistHeads: seq<string> := ["playlist/", "playlist:"]

  /** `extractPlaylistId(url)`. */
  function ExtractPlaylistId(url: string): (r: Option<string>)
    ensures r.Some? ==> |r.value| > 0 && forall i :: 0 <= i < |r.value| ==> IsAlnum(r.value[i])
    ensures SpotifyApi.ExtractPlaylistId(url).Some? ==> r.Some?
  {
    var m := Capture.Extract(url, PlaylistHeads, IsAlnum);
    if SpotifyApi.ExtractPlaylistId(url).Some? then
      var p: nat :| p <= |url| && Capture.HeadAt(url, p, SpotifyApi.PlaylistHeads, IsAlnum).Some?;
      assert Capture.HeadAt(url, p, PlaylistHeads, IsAlnum).Some?;
      m
    else m
  }

  /** Either form after a prefix without an 'l' gives the id. */
  lemma {:induction false} PlaylistUrl(u: string, h: string, id: string, tail: string)
    requires h in PlaylistHeads && 'l' !in u
    requires |id| > 0 && forall i :: 0 <= i < |id| ==> IsAlnum(id[i])
    requires tail == [] || !IsAlnum(tail[0])
    ensures ExtractPlaylistId(u + h + id + tail) == Some(id)
  {
    var s := u + h + id + tail;
    forall q, j | 0 <= q < |u| && 0 <= j < |PlaylistHeads|
      ensures !OccursAt(s, PlaylistHeads[j], q)
    {
      if q + 1 < |u| {
        assert s[q + 1] == u[q + 1] != 'l';
      } else {
        assert s[q + 1] == h[0] == 'p';
      }
    }
    forall j | 0 <= j < |PlaylistHeads| && OccursAt(s, PlaylistHeads[j], |u|)
      ensures PlaylistHeads[j] == h
    {
      assert s[|u| + 8] == h[8];
    }
    Capture.ExtractAt(u, h, id, tail, PlaylistHeads, IsAlnum);
  }

  /** The `spotify:playlist:ID` URI. */
  const UriPrefix: string := "spotify:playlist:"

  /** The importer accepts the URI form. */
  lemma {:induction false} UriForm(id: string)
    requires |id| > 0 && forall i :: 0 <= i < |id| ==> IsAlnum(id[i])
    ensures ExtractPlaylistId(UriPrefix + id) == Some(id)
  {
    assert UriPrefix == "spotify:" + PlaylistHeads[1];
    PlaylistUrl("spotify:", PlaylistHeads[1], id, []);
    assert "spotify:" + PlaylistHeads[1] + id + [] == UriPrefix + id;
  }

  /** The API client's own extractor rejects the URI form: it holds no '/'. */
  lemma {:induction false} UriFormRejectedByApi(id: string)
    requires forall i :: 0 <= i < |id| ==> IsAlnum(id[i])
    ensures SpotifyApi.ExtractPlaylistId(UriPrefix + id) == None
  {
    var s := UriPrefix + id;
    forall i | 0 <= i < |s|
      ensures s[i] != '/'
    {
      if i >= |UriPrefix| {
        assert s[i] == id[i - |UriPrefix|];
      }
    }
    MissingCharNotContained(s, SpotifyApi.PlaylistHeads[0], '/');
    SpotifyApi.NoPlaylist(s);
  }

  /** `findYouTubeVideo(title, artist)`: the id of the first hit of the
      search for "title artist official audio"; `null` on any failure,
      including a missing first hit. */
  function FindYouTubeVideo(title: string, artist: string, search: string -> Lookup<seq<Option<YouTubeImport.Video>>>): (r: Option<string>)
    ensures var found := search(title + " " + artist + " official audio");
            && (r.Some? ==> found.Ok? && found.value.Some? && |found.value.value| > 0
                            && found.value.value[0].Some? && r == found.value.value[0].value.id)
            && (found.Err? || found.value.None? || found.value.value == [] ==> r == None)
            && (found.Ok? && found.value.Some? && |found.value.value| > 0 ==>
                  r == if found.value.value[0].Some? then found.value.value[0].value.id else None)
  {
    match search(title + " " + artist + " official audio")
    case Err(_) => None
    case Ok(None) => None
    case Ok(Some(results)) =>
      if |results| == 0 || results[0].None? then None else results[0].value.id
  }

  /** One section of Spotify's audio analysis. */
  datatype Section = Section(start: real, loudness: real)

  datatype Analysis = Analysis(sections: Option<seq<Section>>)

  function Min(a: real, b: real): real {
    if a <= b then a else b
  }

  function Max(a: real, b: real): real {
    if a >= b then a else b
  }

  /** Half the length of the fallback fragment. */
  const HalfWindow: real := 7.5

  /** The fallback fragment: 15 seconds centred on the middle of the track,
      clamped to the track. */
  function FallbackWindow(d: real): (w: (real, real))
    ensures d >= 0.0 ==> 0.0 <= w.0 <= w.1 <= d
    ensures d >= 0.0 ==> w.0 + w.1 == d
    ensures d >= 15.0 ==> w.1 - w.0 == 15.0
    ensures 0.0 <= d <= 15.0 ==> w == (0.0, d)
  {
    var middle := d / 2.0;
    (Max(0.0, middle - HalfWindow), Min(d, middle + HalfWindow))
  }

  /** The `reduce` of `detectBestClip` from position `k` on, with `best`
      the winner so far: a later section wins only if strictly louder. */
  function LoudestFrom(secs: seq<Section>, k: nat, best: nat): (i: nat)
    requires best < k <= |secs|
    requires forall j :: 0 <= j < k ==> secs[j].loudness <= secs[best].loudness
    requires forall j :: 0 <= j < best ==> secs[j].loudness < secs[best].loudness
    ensures i < |secs|
    ensures forall j :: 0 <= j < |secs| ==> secs[j].loudness <= secs[i].loudness
    ensures forall j :: 0 <= j < i ==> secs[j].loudness < secs[i].loudness
    decreases |secs| - k
  {
    if k == |secs| then best
    else LoudestFrom(secs, k + 1, if secs[k].loudness > secs[best].loudness then k else best)
  }

  /** The loudest section: the first one of maximal loudness. */
  function Loudest(secs: seq<Section>): (i: nat)
    requires |secs| > 0
    ensures i < |secs|
    ensures forall j :: 0 <= j < |secs| ==> secs[j].loudness <= secs[i].loudness
    ensures forall j :: 0 <= j < i ==> secs[j].loudness < secs[i].loudness
  {
    LoudestFrom(secs, 1, 0)
  }

  /** Those two properties pin the section down: any index of maximal
      loudness with only quieter sections before it is the one chosen. */
  lemma LoudestIsUnique(secs: seq<Section>, i: nat)
    requires i < |secs|
    requires forall j :: 0 <= j < |secs| ==> secs[j].loudness <= secs[i].loudness
    requires forall j :: 0 <= j < i ==> secs[j].loudness < secs[i].loudness
    ensures Loudest(secs) == i
  {
  }

  /** The fragment of the loudest section: from the whole second at or
      before its start, for 15 seconds, cut at the end of the track. */
  function SectionWindow(s: Section, d: real): (w: (real, real))
    ensures w.0 <= s.start < w.0 + 1.0
    ensures w.0 == s.start.Floor as real
    ensures w.1 <= d && w.1 <= w.0 + 15.0
    ensures w.0 + 15.0 <= d ==> w.1 == w.0 + 15.0
    ensures w.0 + 15.0 > d ==> w.1 == d
  {
    var cueIn := s.start.Floor;
    assert (s.start + 15.0).Floor == cueIn + 15;
    (cueIn as real, Min((s.start + 15.0).Floor as real, d))
  }

  /** `detectBestClip(trackId, d)`: the loudest section's fragment, or the
      fallback when the analysis fails, is missing, has no sections, or has
      an empty list of them (the `reduce` then throws and the error is
      caught). */
  function DetectBestClip(trackId: string, d: real, getAudioAnalysis: string -> Result<Option<Analysis>, string>): (w: (real, real))
    ensures getAudioAnalysis(trackId).Err? ==> w == FallbackWindow(d)
    ensures getAudioAnalysis(trackId).Ok? ==>
              var a := getAudioAnalysis(trackId).value;
              && (a.None? || a.value.sections.None? || a.value.sections.value == [] ==> w == FallbackWindow(d))
              && (a.Some? && a.value.sections.Some? && a.value.sections.value != [] ==>
                    var secs := a.value.sections.value;
                    exists i :: 0 <= i < |secs|
                                && (forall j :: 0 <= j < |secs| ==> secs[j].loudness <= secs[i].loudness)
                                && (forall j :: 0 <= j < i ==> secs[j].loudness < secs[i].loudness)
                                && w == SectionWindow(secs[i], d))
  {
    match getAudioAnalysis(trackId)
    case Err(_) => FallbackWindow(d)
    case Ok(None) => FallbackWindow(d)
    case Ok(Some(a)) =>
      if a.sections.None? || |a.sections.value| == 0 then FallbackWindow(d)
      else SectionWindow(a.sections.value[Loudest(a.sections.value)], d)
  }

  /** The window used without clip detection. */
  const FixedWindow: (real, real) := (30.0, 45.0)

  /** `artists.map(a => a.name).join(', ')`. */
  function ArtistLine(artists: seq<string>): (r: string)
    ensures |artists| == 1 ==> r == artists[0]
    ensures |artists| == 0 ==> r == []
  {
    Join(artists, ", ")
  }

  /** The song for one present track. */
  function TrackSong(t: Track, autoDetectClip: bool, search: string -> Lookup<seq<Option<YouTubeImport.Video>>>,
                     getAudioAnalysis: string -> Result<Option<Analysis>, string>, id: string, now: string): Song
    requires |t.artists| > 0
  {
    var d := t.durationMs as real / 1000.0;
    var youtubeId := FindYouTubeVideo(t.name, t.artists[0], search);
    var w := if autoDetectClip then DetectBestClip(t.id, d, getAudioAnalysis) else FixedWindow;
    Song(id, t.name, ArtistLine(t.artists), Some(t.album), d, youtubeId, youtubeId, Some(t.id), w.0, w.1,
         Truthy(youtubeId), now, None)
  }

  /** What a track's song holds: the track's name, all its artists, its
      album and duration in seconds, the first YouTube hit of its first
      artist's search (audio exactly when one was found), and the detected
      or the fixed window. */
  lemma TrackSongFields(t: Track, autoDetectClip: bool, search: string -> Lookup<seq<Option<YouTubeImport.Video>>>,
                        getAudioAnalysis: string -> Result<Option<Analysis>, string>, id: string, now: string)
    requires |t.artists| > 0
    ensures var s := TrackSong(t, autoDetectClip, search, getAudioAnalysis, id, now);
            && s.title == t.name && s.artist == ArtistLine(t.artists) && s.album == Some(t.album)
            && s.duration == t.durationMs as real / 1000.0
            && s.youtubeId == FindYouTubeVideo(t.name, t.artists[0], search) && s.sourcePath == s.youtubeId
            && (s.hasAudio <==> Truthy(s.youtubeId))
            && s.spotifyId == Some(t.id)
            && (!autoDetectClip ==> (s.cueIn, s.cueOut) == FixedWindow)
            && (autoDetectClip ==> (s.cueIn, s.cueOut) == DetectBestClip(t.id, s.duration, getAudioAnalysis))
            && s.id == id && s.createdAt == now && s.updatedAt == None
  {
  }

  predicate HasTrack(item: Option<Track>) {
    item.Some?
  }

  /** The per-import settings and oracles, fixed for one call. */
  datatype Sources = Sources(
    autoDetectClip: bool,
    search: string -> Lookup<seq<Option<YouTubeImport.Video>>>,
    getAudioAnalysis: string -> Result<Option<Analysis>, string>,
    freshId: nat -> string,
    now: string)

  /** The songs of a playlist: one per present track, in order. */
  predicate BuiltFrom(songs: seq<Song>, present: seq<Option<Track>>, src: Sources) {
    && |songs| == |present|
    && forall j :: 0 <= j < |songs| ==>
         && present[j].Some? && |present[j].value.artists| > 0
         && songs[j] == TrackSong(present[j].value, src.autoDetectClip, src.search, src.getAudioAnalysis, src.freshId(j), src.now)
  }

  /** Appending a present track and its song keeps `BuiltFrom`. */
  lemma BuiltStep(songs: seq<Song>, present: seq<Option<Track>>, t: Track, src: Sources)
    requires BuiltFrom(songs, present, src) && |t.artists| > 0
    ensures BuiltFrom(songs + [TrackSong(t, src.autoDetectClip, src.search, src.getAudioAnalysis, src.freshId(|songs|), src.now)],
                      present + [Some(t)], src)
  {
    var song := TrackSong(t, src.autoDetectClip, src.search, src.getAudioAnalysis, src.freshId(|songs|), src.now);
    var songs' := songs + [song];
    var present' := present + [Some(t)];
    forall j | 0 <= j < |songs'|
      ensures present'[j].Some? && |present'[j].value.artists| > 0
      ensures songs'[j] == TrackSong(present'[j].value, src.autoDetectClip, src.search, src.getAudioAnalysis, src.freshId(j), src.now)
    {
      if j < |songs| {
        assert songs'[j] == songs[j];
        assert present'[j] == present[j];
      } else {
        assert songs'[j] == song;
        assert present'[j] == Some(t);
      }
    }
  }

  /** The present tracks among the first `k + 1` items are those among the
      first `k`, plus item `k` when it has a track. */
  lemma {:induction false} PresentStep(items: seq<Option<Track>>, k: nat)
    requires k < |items|
    ensures Filter(items[..k + 1], HasTrack)
            == Filter(items[..k], HasTrack) + (if HasTrack(items[k]) then [items[k]] else [])
  {
    assert items[..k + 1] == items[..k] + [items[k]];
    FilterConcat(items[..k], [items[k]], HasTrack);
  }

  /** One turn of the loop of `importPlaylist`: a missing track is
      skipped, a present one adds its song and a progress report. */
  function Advance(item: Option<Track>, songs: seq<Song>, progress: seq<YouTubeImport.Progress>, total: nat, src: Sources)
    : (seq<Song>, seq<YouTubeImport.Progress>)
    requires item.Some? ==> |item.value.artists| > 0
  {
    if item.None? then (songs, progress)
    else
      var song := TrackSong(item.value, src.autoDetectClip, src.search, src.getAudioAnalysis, src.freshId(|songs|), src.now);
      (songs + [song], progress + [YouTubeImport.Progress(|songs| + 1, total, song)])
  }

  /** A turn of the loop keeps its invariants. */
  lemma {:induction false} AdvanceKeeps(items: seq<Option<Track>>, k: nat, songs: seq<Song>,
                                        progress: seq<YouTubeImport.Progress>, src: Sources)
    requires k < |items| && (items[k].Some? ==> |items[k].value.artists| > 0)
    requires BuiltFrom(songs, Filter(items[..k], HasTrack), src)
    requires YouTubeImport.Reported(progress, songs, |items|)
    ensures var next := Advance(items[k], songs, progress, |items|, src);
            && BuiltFrom(next.0, Filter(items[..k + 1], HasTrack), src)
            && YouTubeImport.Reported(next.1, next.0, |items|)
  {
    PresentStep(items, k);
    if items[k].Some? {
      var t := items[k].value;
      var song := TrackSong(t, src.autoDetectClip, src.search, src.getAudioAnalysis, src.freshId(|songs|), src.now);
      BuiltStep(songs, Filter(items[..k], HasTrack), t, src);
      YouTubeImport.ReportedStep(progress, songs, |items|, song);
    } else {
      assert Filter(items[..k + 1], HasTrack) == Filter(items[..k], HasTrack);
    }
  }

  /** The loop of `importPlaylist` over items whose tracks all name an
      artist: items without a track are skipped, one progress report per
      song. */
  method BuildSongs(items: seq<Option<Track>>, src: Sources)
    returns (songs: seq<Song>, progress: seq<YouTubeImport.Progress>)
    requires forall j :: 0 <= j < |items| && items[j].Some? ==> |items[j].value.artists| > 0
    ensures BuiltFrom(songs, Filter(items, HasTrack), src)
    ensures YouTubeImport.Reported(progress, songs, |items|)
    ensures |songs| == CountIf(items, HasTrack)
  {
    songs := [];
    progress := [];
    var k := 0;
    while k < |items|
      invariant 0 <= k <= |items|
      invariant BuiltFrom(songs, Filter(items[..k], HasTrack), src)
      invariant YouTubeImport.Reported(progress, songs, |items|)
    {
      AdvanceKeeps(items, k, songs, progress, src);
      var next := Advance(items[k], songs, progress, |items|, src);
      songs, progress := next.0, next.1;
      k := k + 1;
    }
    assert items[..|items|] == items;
    FilterLength(items, HasTrack);
  }

  /** The playlist's own name and description. */
  datatype Playlist = Playlist(name: Option<string>, description: Option<string>)

  datatype PlaylistImport = PlaylistImport(
    playlistName: Option<string>,
    playlistDescription: Option<string>,
    songs: seq<Song>,
    stats: YouTubeImport.Stats,
    progress: seq<YouTubeImport.Progress>)

  predicate WithAudio(s: Song) {
    s.hasAudio
  }

  predicate WithoutAudio(s: Song) {
    !s.hasAudio
  }

  /** `importPlaylist(url, options)`: rejects a URL without a playlist id
      before any lookup, passes on a failing playlist or track lookup and a
      present track without artists, and otherwise imports every present
      track (see `BuildSongs`); the stats split the songs by `hasAudio`. */
  method ImportPlaylist(url: string, getPlaylist: string -> Result<Playlist, string>,
                        getPlaylistTracks: string -> Result<seq<Option<Track>>, string>, src: Sources)
    returns (r: Result<PlaylistImport, ImportError>)
    ensures ExtractPlaylistId(url).None? ==> r == Err(InvalidPlaylistUrl)
    ensures ExtractPlaylistId(url).Some? && getPlaylist(ExtractPlaylistId(url).value).Err? ==>
              r == Err(LookupFailed(getPlaylist(ExtractPlaylistId(url).value).error))
    ensures ExtractPlaylistId(url).Some? && getPlaylist(ExtractPlaylistId(url).value).Ok?
            && getPlaylistTracks(ExtractPlaylistId(url).value).Err? ==>
              r == Err(LookupFailed(getPlaylistTracks(ExtractPlaylistId(url).value).error))
    ensures ExtractPlaylistId(url).Some? && getPlaylist(ExtractPlaylistId(url).value).Ok?
            && getPlaylistTracks(ExtractPlaylistId(url).value).Ok?
            && (var items := getPlaylistTracks(ExtractPlaylistId(url).value).value;
                forall j :: 0 <= j < |items| && items[j].Some? ==> |items[j].value.artists| > 0) ==>
              r.Ok?
    ensures r.Ok? ==> ExtractPlaylistId(url).Some? && getPlaylist(ExtractPlaylistId(url).value).Ok?
                      && getPlaylistTracks(ExtractPlaylistId(url).value).Ok?
    ensures r.Ok? ==> var items := getPlaylistTracks(ExtractPlaylistId(url).value).value;
                      && BuiltFrom(r.value.songs, Filter(items, HasTrack), src)
                      && YouTubeImport.Reported(r.value.progress, r.value.songs, |items|)
                      && r.value.playlistName == getPlaylist(ExtractPlaylistId(url).value).value.name
    ensures r.Ok? ==> && r.value.stats.total == |r.value.songs|
                      && r.value.stats.withAudio == CountIf(r.value.songs, WithAudio)
                      && r.value.stats.withoutAudio == CountIf(r.value.songs, WithoutAudio)
                      && r.value.stats.withAudio + r.value.stats.withoutAudio == r.value.stats.total
    ensures forall items: seq<Option<Track>> :: (ExtractPlaylistId(url).Some? && getPlaylist(ExtractPlaylistId(url).value).Ok?
                            && getPlaylistTracks(ExtractPlaylistId(url).value) == Ok(items)) ==>
              (r == Err(MissingArtist) <==> exists j :: 0 <= j < |items| && items[j].Some? && |items[j].value.artists| == 0)
  {
    var playlistId := ExtractPlaylistId(url);
    if playlistId.None? {
      return Err(InvalidPlaylistUrl);
    }
    var playlist := getPlaylist(playlistId.value);
    if playlist.Err? {
      return Err(LookupFailed(playlist.error));
    }
    var tracks := getPlaylistTracks(playlistId.value);
    if tracks.Err? {
      return Err(LookupFailed(tracks.error));
    }
    var items := tracks.value;
    if exists j :: 0 <= j < |items| && items[j].Some? && |items[j].value.artists| == 0 {
      return Err(MissingArtist);
    }
    var songs, progress := BuildSongs(items, src);
    var withAudio := CountIf(songs, WithAudio);
    var withoutAudio := CountIf(songs, WithoutAudio);
    CountSplit(songs, WithAudio, WithoutAudio);
    r := Ok(PlaylistImport(playlist.value.name, playlist.value.description, songs,
                           YouTubeImport.Stats(|songs|, withAudio, withoutAudio), progress));
  }

  /** Without clip detection every song has the fixed window; with it,
      every song's window lies inside the track when the analysis is
      unavailable. */
  lemma WindowsOfImportedSongs(t: Track, src: Sources, id: string)
    requires |t.artists| > 0 && t.durationMs >= 0
    ensures var s := TrackSong(t, src.autoDetectClip, src.search, src.getAudioAnalysis, id, src.now);
            && (!src.autoDetectClip ==> (s.cueIn, s.cueOut) == FixedWindow)
            && (src.autoDetectClip && src.getAudioAnalysis(t.id).Err? ==>
                  0.0 <= s.cueIn <= s.cueOut <= s.duration && s.cueOut - s.cueIn <= 15.0)
  {
  }
}

=== FILE: text.dfy ===
/** String operations of JavaScript that the application relies on:
    the `\s` character class, `trim`, `indexOf`/`includes`, `startsWith`,
    `split`/`join` on a literal separator, `toLowerCase` and decimal
    `parseInt`. Strings are sequences of characters. */
module Text {
  import opened Wrappers

  /** JavaScript's `\s`: the WhiteSpace and LineTerminator characters of
      ECMAScript (section 12.2 and 12.3 of ECMA-262). `trim` removes the
      same set. */
  predicate IsSpace(c: char) {
    c == '\t' || c == '\n' || c == '\U{B}' || c == '\U{C}' || c == '\r' || c == ' '
    || c == '\U{A0}' || c == '\U{1680}' || ('\U{2000}' <= c <= '\U{200A}')
    || c == '\U{2028}' || c == '\U{2029}' || c == '\U{202F}' || c == '\U{205F}'
    || c == '\U{3000}' || c == '\U{FEFF}'
  }

  /** Drops the longest prefix whose characters all satisfy `p`. */
  function TrimStartBy(s: string, p: char -> bool): (r: string)
    ensures |r| <= |s| && r == s[|s| - |r|..]
    ensures forall i :: 0 <= i < |s| - |r| ==> p(s[i])
    ensures r == [] || !p(r[0])
    decreases |s|
  {
    if |s| > 0 && p(s[0]) then TrimStartBy(s[1..], p) else s
  }

  /** Drops the longest suffix whose characters all satisfy `p`. */
  function TrimEndBy(s: string, p: char -> bool): (r: string)
    ensures |r| <= |s| && r == s[..|r|]
    ensures forall i :: |r| <= i < |s| ==> p(s[i])
    ensures r == [] || !p(r[|r| - 1])
    decreases |s|
  {
    if |s| > 0 && p(s[|s| - 1]) then TrimEndBy(s[..|s| - 1], p) else s
  }

  /** Both ends: the maximal runs of `p`-characters at the front and at
      the back are removed; nothing is left only when every character is
      a `p`-character. */
  function TrimBy(s: string, p: char -> bool): (r: string)
    ensures |r| <= |s|
    ensures r == [] || (!p(r[0]) && !p(r[|r| - 1]))
    ensures r == [] <==> forall k :: 0 <= k < |s| ==> p(s[k])
  {
    var a := TrimStartBy(s, p);
    var r := TrimEndBy(a, p);
    PrefixOfSuffix(s, a, r);
    r
  }

  /** What `TrimBy` keeps is the slice `s[i..j]` with only `p`-characters
      outside it. */
  lemma TrimBySlice(s: string, p: char -> bool) returns (i: nat, j: nat)
    ensures i <= j <= |s| && TrimBy(s, p) == s[i..j]
    ensures forall k :: 0 <= k < i ==> p(s[k])
    ensures forall k :: j <= k < |s| ==> p(s[k])
  {
    var a := TrimStartBy(s, p);
    var r := TrimEndBy(a, p);
    i, j := |s| - |a|, |s| - |a| + |r|;
    PrefixOfSuffix(s, a, r);
  }

  /** A prefix of a suffix is a slice. */
  lemma PrefixOfSuffix(s: string, a: string, r: string)
    requires |a| <= |s| && a == s[|s| - |a|..]
    requires |r| <= |a| && r == a[..|r|]
    ensures r == s[|s| - |a|..|s| - |a| + |r|]
    ensures forall k :: |s| - |a| <= k < |s| ==> s[k] == a[k - (|s| - |a|)]
  {
  }

  /** Text already free of `p` at both ends is left as it is. */
  lemma TrimByIdentity(s: string, p: char -> bool)
    requires s == [] || (!p(s[0]) && !p(s[|s| - 1]))
    ensures TrimBy(s, p) == s
  {
    assert TrimStartBy(s, p) == s;
    assert TrimEndBy(s, p) == s;
  }

  /** `String.prototype.trim`. */
  function Trim(s: string): (r: string)
    ensures r == [] || (!IsSpace(r[0]) && !IsSpace(r[|r| - 1]))
    ensures |r| <= |s|
    ensures (forall k :: 0 <= k < |s| ==> IsSpace(s[k])) <==> r == []
  {
    TrimBy(s, IsSpace)
  }

  /** `!s.trim()` in the source: the string is empty or all whitespace. */
  predicate IsBlank(s: string) {
    Trim(s) == []
  }

  /** `sub` occurs in `s` starting at index `i`. */
  predicate OccursAt(s: string, sub: string, i: int) {
    0 <= i && i + |sub| <= |s| && s[i..i + |sub|] == sub
  }

  /** `s.startsWith(prefix)`. */
  predicate StartsWith(s: string, prefix: string) {
    OccursAt(s, prefix, 0)
  }

  /** `s.indexOf(sub, from)`: the first occurrence at or after `from`. */
  function IndexFrom(s: string, sub: string, from: nat): (r: Option<nat>)
    ensures r.Some? ==> from <= r.value && OccursAt(s, sub, r.value)
    ensures r.Some? ==> forall j :: from <= j < r.value ==> !OccursAt(s, sub, j)
    ensures r.None? ==> forall j :: from <= j ==> !OccursAt(s, sub, j)
    decreases |s| - from
  {
    if from + |sub| > |s| then None
    else if OccursAt(s, sub, from) then Some(from)
    else IndexFrom(s, sub, from + 1)
  }

  /** `s.indexOf(sub)`, with `None` for -1. */
  function IndexOf(s: string, sub: string): (r: Option<nat>)
    ensures r.Some? <==> exists j :: OccursAt(s, sub, j)
    ensures r.Some? ==> OccursAt(s, sub, r.value) && forall j :: 0 <= j < r.value ==> !OccursAt(s, sub, j)
  {
    IndexFrom(s, sub, 0)
  }

  /** `s.includes(sub)`. */
  predicate Contains(s: string, sub: string) {
    IndexOf(s, sub).Some?
  }

  /** A needle holding a character the haystack lacks cannot occur in it. */
  lemma MissingCharNotContained(s: string, sub: string, c: char)
    requires c in sub && c !in s
    ensures !Contains(s, sub)
  {
  }

  /** An occurrence in `s` is an occurrence in any extension of `s`. */
  lemma ContainsExtend(s: string, t: string, sub: string)
    requires Contains(s, sub)
    ensures Contains(s + t, sub) && Contains(t + s, sub)
  {
    var i := IndexOf(s, sub).value;
    assert (s + t)[i..i + |sub|] == s[i..i + |sub|];
    assert OccursAt(s + t, sub, i);
    assert (t + s)[|t| + i..|t| + i + |sub|] == s[i..i + |sub|];
    assert OccursAt(t + s, sub, |t| + i);
  }

  /** `s.split(sep)` for a non-empty literal separator. */
  function Split(s: string, sep: string): (parts: seq<string>)
    requires |sep| > 0
    ensures |parts| >= 1
    ensures IndexOf(s, sep).None? <==> parts == [s]
    decreases |s|
  {
    match IndexOf(s, sep)
    case None => [s]
    case Some(i) => [s[..i]] + Split(s[i + |sep|..], sep)
  }

  /** `parts.join(sep)`. */
  function Join(parts: seq<string>, sep: string): string {
    if |parts| == 0 then []
    else if |parts| == 1 then parts[0]
    else parts[0] + sep + Join(parts[1..], sep)
  }

  /** Splitting and joining with the same separator gives the string back. */
  lemma {:induction false} JoinSplit(s: string, sep: string)
    requires |sep| > 0
    ensures Join(Split(s, sep), sep) == s
    decreases |s|
  {
    match IndexOf(s, sep)
    case None =>
    case Some(i) =>
      var rest := s[i + |sep|..];
      JoinSplit(rest, sep);
      assert s[i..i + |sep|] == sep;
      assert s == s[..i] + sep + rest;
  }

  /** After a split on the first separator, the remaining parts joined
      again are exactly the text after that separator. */
  lemma SplitHeadTail(s: string, sep: string, i: nat)
    requires |sep| > 0 && IndexOf(s, sep) == Some(i)
    ensures Split(s, sep)[0] == s[..i]
    ensures Join(Split(s, sep)[1..], sep) == s[i + |sep|..]
  {
    var rest := s[i + |sep|..];
    var parts := Split(s, sep);
    assert parts == [s[..i]] + Split(rest, sep);
    assert parts[1..] == Split(rest, sep);
    JoinSplit(rest, sep);
  }

  /** `toLowerCase` on one character, for ASCII and Latin-1. */
  function LowerChar(c: char): (d: char)
    ensures 'A' <= c <= 'Z' ==> d as int == c as int + 32
    ensures !('A' <= c <= 'Z') && !('\U{C0}' <= c <= '\U{DE}') ==> d == c
  {
    if 'A' <= c <= 'Z' then (c as int + 32) as char
    else if '\U{C0}' <= c <= '\U{DE}' && c != '\U{D7}' then (c as int + 32) as char
    else c
  }

  /** `s.toLowerCase()`. */
  function Lower(s: string): (r: string)
    ensures |r| == |s|
    ensures forall i :: 0 <= i < |s| ==> r[i] == LowerChar(s[i])
  {
    seq(|s|, i requires 0 <= i < |s| => LowerChar(s[i]))
  }

  predicate IsDigit(c: char) {
    '0' <= c <= '9'
  }

  /** The class `[a-zA-Z0-9]`. */
  predicate IsAlnum(c: char) {
    'a' <= c <= 'z' || 'A' <= c <= 'Z' || IsDigit(c)
  }

  predicate AllDigits(ds: string) {
    forall i :: 0 <= i < |ds| ==> IsDigit(ds[i])
  }

  /** `parseInt` of a string of decimal digits. */
  function DecimalValue(ds: string): nat
    requires AllDigits(ds)
  {
    if |ds| == 0 then 0
    else DecimalValue(ds[..|ds| - 1]) * 10 + (ds[|ds| - 1] as int - '0' as int)
  }

  /** `String(n)` for a natural number: its decimal digits, no leading zero. */
  function Decimal(n: nat): (ds: string)
    ensures |ds| >= 1 && AllDigits(ds)
    ensures DecimalValue(ds) == n
  {
    var last := ('0' as int + n % 10) as char;
    if n < 10 then [last]
    else
      var ds := Decimal(n / 10) + [last];
      assert ds[..|ds| - 1] == Decimal(n / 10);
      ds
  }
}

=== FILE: validation.dfy ===
/** The request-log audit (`src/services/ValidationHelper.js`): a check
    that no logged request went to the official YouTube API, and the
    cleanup that empties the log. The console summary and the JSON export
    are reporting only. */
module Validation {
  import opened Text
  import Invidious

  type LogEntry = Invidious.LogEntry

  /** The two markers of the official API. */
  const GoogleApis: string := "googleapis.com"
  const YouTubeApiPath: string := "youtube.com/api"

  /** The test `log.some` applies to one entry. */
  predicate Flagged(e: LogEntry) {
    Contains(e.instance, GoogleApis) || Contains(e.instance, YouTubeApiPath)
  }

  /** `log.some(...)`, scanning from the front. */
  function AnyFlagged(log: seq<LogEntry>): (b: bool)
    ensures b <==> exists i :: 0 <= i < |log| && Flagged(log[i])
  {
    if |log| == 0 then false
    else if Flagged(log[0]) then true
    else
      assert forall i :: 1 <= i < |log| ==> log[i] == log[1..][i - 1];
      AnyFlagged(log[1..])
  }

  /** `checkForYouTubeAPIUsage()`: true when no entry is flagged. */
  function CheckForYouTubeApiUsage(c: Invidious.Client): (ok: bool)
    ensures !ok <==> exists i :: 0 <= i < |c.log| && Flagged(c.log[i])
  {
    !AnyFlagged(c.log)
  }

  /** `cleanup()`: the log is emptied. */
  function Cleanup(c: Invidious.Client): (r: Invidious.Client)
    ensures r.log == [] && r.index == c.index
  {
    Invidious.ClearRequestLog(c)
  }

  /** An empty log passes, so a cleaned-up client always passes. */
  lemma CleanupPasses(c: Invidious.Client)
    ensures CheckForYouTubeApiUsage(Invidious.Initial)
    ensures CheckForYouTubeApiUsage(Cleanup(c))
  {
  }

  /** Logging one more request keeps a passing check passing unless that
      request is flagged, and never turns a failing check into a passing
      one. */
  lemma LoggingIsMonotone(c: Invidious.Client, endpoint: string, verb: string, success: bool, instance: string, now: string)
    ensures var c' := Invidious.LogRequest(c, endpoint, verb, success, instance, now);
            CheckForYouTubeApiUsage(c') <==> CheckForYouTubeApiUsage(c) && !Flagged(c'.log[|c.log|])
    ensures !CheckForYouTubeApiUsage(c) ==>
              !CheckForYouTubeApiUsage(Invidious.LogRequest(c, endpoint, verb, success, instance, now))
  {
    var c' := Invidious.LogRequest(c, endpoint, verb, success, instance, now);
    assert forall i :: 0 <= i < |c.log| ==> c'.log[i] == c.log[i];
  }

  /** No configured mirror has a 'g', the first letter of "googleapis". */
  lemma NoLetterG(instance: string)
    requires instance in Invidious.Instances
    ensures 'g' !in instance
  {
  }

  /** No configured mirror has a 'b', as "youtube.com/api" has. */
  lemma NoLetterB(instance: string)
    requires instance in Invidious.Instances
    ensures 'b' !in instance
  {
  }

  /** None of the configured mirrors carries either marker. */
  lemma InstancesNotFlagged(instance: string)
    requires instance in Invidious.Instances
    ensures !Contains(instance, GoogleApis) && !Contains(instance, YouTubeApiPath)
  {
    NoLetterG(instance);
    NoLetterB(instance);
    MissingCharNotContained(instance, GoogleApis, 'g');
    MissingCharNotContained(instance, YouTubeApiPath, 'b');
  }

  /** A log of requests to the configured mirrors only always passes. */
  lemma MirrorOnlyLogPasses(c: Invidious.Client)
    requires forall i :: 0 <= i < |c.log| ==> c.log[i].instance in Invidious.Instances
    ensures CheckForYouTubeApiUsage(c)
  {
    forall i | 0 <= i < |c.log|
      ensures !Flagged(c.log[i])
    {
      InstancesNotFlagged(c.log[i].instance);
    }
  }
}

=== FILE: wrappers.dfy ===
/** Optional values and error results, standing in for JavaScript's
    `null`/`undefined` and for thrown exceptions. */
module Wrappers {

  /** `None` is the source's `null` (or `undefined`); `Some(v)` a present value. */
  datatype Option<+T> = None | Some(value: T) {

    /** The value, or `default` when absent (the source's `x || default`
        for values whose only falsy form is absence). */
    function GetOr(default: T): T {
      match this
      case Some(v) => v
      case None => default
    }
  }

  /** `Ok(v)` is a normal return; `Err(e)` is a thrown `Error` carrying `e`. */
  datatype Result<+T, +E> = Ok(value: T) | Err(error: E) {

    predicate IsFailure() {
      Err?
    }

    function PropagateFailure<U>(): Result<U, E>
      requires Err?
    {
      Err(error)
    }

    function Extract(): T
      requires Ok?
    {
      value
    }
  }
}

=== FILE: youtube_api.dfy ===
/** The YouTube search service (`src/services/YouTubeAPI.js`): a search
    that answers from the cache, then from Invidious, and only then from
    the official API, which costs quota. The cache, the Invidious client
    and the official endpoint are oracles: the cache lookup is `None` when
    there is no database or no entry, and each search either throws (an
    error message) or returns a value that may be `null`. */
module YouTubeApi {
  import opened Wrappers
  import Invidious

  /** The daily safety limit and the cost of one official search. */
  const QuotaLimit: int := 9000
  const SearchCost: int := 100

  datatype Api = Api(hasDatabase: bool, quotaUsed: int)

  /** A new service: nothing spent. */
  function Create(hasDatabase: bool): (a: Api)
    ensures QuotaInvariant(a)
  {
    Api(hasDatabase, 0)
  }

  datatype SearchError =
    | NoService        // 'No se pudo buscar en ningún servicio'
    | QuotaExhausted   // 'Cuota de YouTube API agotada por hoy'

  /** What one search does: the new state, the answer (`Ok(None)` is a
      `null` result) or the error thrown, and what it stored in the cache. */
  datatype Outcome<R> = Outcome(api: Api, result: Result<Option<seq<R>>, SearchError>, stored: Option<seq<R>>)

  /** `results.length > 0` when a database is set; `None` means it throws. */
  function ShouldStore<R>(hasDatabase: bool, results: Option<seq<R>>): (s: Option<bool>)
    ensures s.None? <==> hasDatabase && results.None?
    ensures s == Some(true) <==> hasDatabase && results.Some? && |results.value| > 0
  {
    if !hasDatabase then Some(false)
    else if results.None? then None
    else Some(|results.value| > 0)
  }

  /** `searchSongs(query)`: `cached` is the cache's answer, `invidious` and
      `official` are the two searches. */
  function SearchSongs<R>(a: Api, cached: Option<seq<R>>, invidious: Result<Option<seq<R>>, string>,
                          official: Result<Option<seq<R>>, string>): (o: Outcome<R>)
    ensures a.hasDatabase && cached.Some? ==> o == Outcome(a, Ok(cached), None)
    ensures o.api.hasDatabase == a.hasDatabase
    ensures o.api.quotaUsed == a.quotaUsed || o.api.quotaUsed == a.quotaUsed + SearchCost
    ensures o.api.quotaUsed == a.quotaUsed + SearchCost ==> a.quotaUsed < QuotaLimit && official.Ok?
    ensures o.stored.Some? ==> o.result == Ok(o.stored) && |o.stored.value| > 0 && a.hasDatabase
    ensures !(a.hasDatabase && cached.Some?) && a.hasDatabase && o.result.Ok? && o.result.value.Some?
            && |o.result.value.value| > 0 ==>
              o.stored == o.result.value
  {
    if a.hasDatabase && cached.Some? then Outcome(a, Ok(cached), None)
    else
      var viaInvidious :=
        match invidious
        case Err(_) => None
        case Ok(results) =>
          match ShouldStore(a.hasDatabase, results)
          case None => None
          case Some(store) => Some(Outcome(a, Ok(results), if store then results else None));
      if viaInvidious.Some? then viaInvidious.value
      else if a.quotaUsed < QuotaLimit then
        match official
        case Err(_) => Outcome(a, Err(NoService), None)
        case Ok(results) =>
          var spent := a.(quotaUsed := a.quotaUsed + SearchCost);
          match ShouldStore(a.hasDatabase, results)
          case None => Outcome(spent, Err(NoService), None)
          case Some(store) => Outcome(spent, Ok(results), if store then results else None)
      else Outcome(a, Err(QuotaExhausted), None)
  }

  /** An answer from the cache is final: neither search is consulted. */
  lemma CacheFirst<R>(a: Api, cached: seq<R>, i1: Result<Option<seq<R>>, string>, i2: Result<Option<seq<R>>, string>,
                      o1: Result<Option<seq<R>>, string>, o2: Result<Option<seq<R>>, string>)
    requires a.hasDatabase
    ensures SearchSongs(a, Some(cached), i1, o1) == SearchSongs(a, Some(cached), i2, o2) == Outcome(a, Ok(Some(cached)), None)
  {
  }

  /** A successful Invidious search is returned as is, the quota untouched,
      whatever the official API would do. */
  lemma InvidiousSuccessSpendsNothing<R>(a: Api, cached: Option<seq<R>>, results: seq<R>,
                                         o1: Result<Option<seq<R>>, string>, o2: Result<Option<seq<R>>, string>)
    requires !(a.hasDatabase && cached.Some?)
    ensures SearchSongs(a, cached, Ok(Some(results)), o1) == SearchSongs(a, cached, Ok(Some(results)), o2)
    ensures SearchSongs(a, cached, Ok(Some(results)), o1).api == a
    ensures SearchSongs(a, cached, Ok(Some(results)), o1).result == Ok(Some(results))
  {
  }

  /** With the quota spent, the official API is never consulted: a failed
      Invidious search ends with the quota error and no state change. */
  lemma ExhaustedQuotaNeverCallsOfficial<R>(a: Api, cached: Option<seq<R>>, message: string,
                                            o1: Result<Option<seq<R>>, string>, o2: Result<Option<seq<R>>, string>)
    requires !(a.hasDatabase && cached.Some?) && a.quotaUsed >= QuotaLimit
    ensures SearchSongs(a, cached, Err(message), o1) == SearchSongs(a, cached, Err(message), o2)
                                                   == Outcome(a, Err(QuotaExhausted), None)
  {
  }

  /** After a failed Invidious search with quota left, a successful
      official search costs exactly one search; a failed one costs nothing
      and reports that no service answered. */
  lemma OfficialSearchCost<R>(a: Api, cached: Option<seq<R>>, message: string, official: Result<Option<seq<R>>, string>)
    requires !(a.hasDatabase && cached.Some?) && a.quotaUsed < QuotaLimit
    ensures official.Ok? && (official.value.Some? || !a.hasDatabase) ==>
              && SearchSongs(a, cached, Err(message), official).api.quotaUsed == a.quotaUsed + SearchCost
              && SearchSongs(a, cached, Err(message), official).result == Ok(official.value)
    ensures official.Err? ==> SearchSongs(a, cached, Err(message), official) == Outcome(a, Err(NoService), None)
  {
  }

  /** The quota stays a whole number of searches within the limit. */
  predicate QuotaInvariant(a: Api) {
    0 <= a.quotaUsed <= QuotaLimit && a.quotaUsed % SearchCost == 0
  }

  /** Every search keeps the quota invariant. */
  lemma SearchKeepsQuotaInvariant<R>(a: Api, cached: Option<seq<R>>, invidious: Result<Option<seq<R>>, string>,
                                     official: Result<Option<seq<R>>, string>)
    requires QuotaInvariant(a)
    ensures QuotaInvariant(SearchSongs(a, cached, invidious, official).api)
  {
    var used := SearchSongs(a, cached, invidious, official).api.quotaUsed;
    if used != a.quotaUsed {
      assert a.quotaUsed <= QuotaLimit - SearchCost by {
        assert a.quotaUsed < QuotaLimit && a.quotaUsed % SearchCost == 0 && QuotaLimit % SearchCost == 0;
      }
    }
  }

  /** `resetQuota()`. */
  function ResetQuota(a: Api): (r: Api)
    ensures r.quotaUsed == 0 && r.hasDatabase == a.hasDatabase
    ensures QuotaInvariant(r)
  {
    a.(quotaUsed := 0)
  }

  /** The integer part of `getQuotaStatus()`. */
  datatype QuotaStatus = QuotaStatus(used: int, limit: int, remaining: int)

  function GetQuotaStatus(a: Api): (s: QuotaStatus)
    ensures s.used + s.remaining == s.limit == QuotaLimit
    ensures QuotaInvariant(a) ==> 0 <= s.remaining <= QuotaLimit && s.remaining % SearchCost == 0
  {
    QuotaStatus(a.quotaUsed, QuotaLimit, QuotaLimit - a.quotaUsed)
  }

  /** `getVideoUrl(videoId)`. */
  function GetVideoUrl(videoId: string): (url: string)
    ensures |url| > |videoId|
  {
    "https://www." + Invidious.VideoHeads[0] + videoId
  }

  /** The watch URL gives the id back to the Invidious id extractor. */
  lemma {:induction false} VideoUrlRoundTrip(videoId: string)
    requires |videoId| > 0 && forall i :: 0 <= i < |videoId| ==> Invidious.VideoIdChar(videoId[i])
    ensures Invidious.ExtractVideoId(GetVideoUrl(videoId)) == Some(videoId)
  {
    Invidious.WatchUrl("https://www.", videoId, []);
    assert "https://www." + Invidious.VideoHeads[0] + videoId + [] == GetVideoUrl(videoId);
  }
}

=== FILE: youtube_import.dfy ===
/** The YouTube importer (`src/services/YouTubeImporter.cjs`): turns a video
    URL, a playlist URL or a search into catalogue songs with a 15-second
    clip window. The three Invidious lookups it calls are oracles returning
    either a thrown message or the (possibly `null`) data; `uuidv4()` is a
    function of the song's position and the ISO timestamp is a parameter. */
module YouTubeImport {
  import opened Wrappers
  import opened Songs
  import opened Lists
  import Invidious

  /** The shape of a video the Invidious client hands back. */
  datatype Video = Video(id: Option<string>, title: Option<string>, artist: Option<string>, duration: Option<real>)

  /** What a lookup does: throws with a message, or returns data or `null`. */
  type Lookup<T> = Result<Option<T>, string>

  datatype ImportError =
    | InvalidVideoUrl        // 'URL de YouTube inválida'
    | NoVideoInfo            // 'No se pudo obtener información del video'
    | InvalidPlaylistUrl     // 'URL de playlist inválida'
    | EmptyPlaylist          // 'La playlist está vacía o no se pudo acceder'
    | LookupFailed(message: string)

  /** Seconds used when a duration is missing or zero (`duration || 180`). */
  const DefaultDuration: real := 180.0

  function DurationOr(d: Option<real>): (r: real)
    ensures d.Some? && d.value != 0.0 ==> r == d.value
    ensures d.None? || d.value == 0.0 ==> r == DefaultDuration
  {
    if d.Some? && d.value != 0.0 then d.value else DefaultDuration
  }

  function Min(a: real, b: real): real {
    if a <= b then a else b
  }

  function Max(a: real, b: real): real {
    if a >= b then a else b
  }

  /** `cueIn = min(30, max(0, d - 15))`, `cueOut = min(cueIn + 15, d)`: a
      clip of at most 15 seconds that starts at 30 s when the video is long
      enough and otherwise ends as late as it can. */
  function CueWindow(d: real): (w: (real, real))
    ensures d >= 0.0 ==> 0.0 <= w.0 <= w.1 <= d
    ensures d >= 0.0 ==> w.1 - w.0 == Min(15.0, d)
    ensures d >= 45.0 ==> w == (30.0, 45.0)
    ensures 15.0 <= d <= 45.0 ==> w.1 == d
    ensures w.0 <= 30.0
  {
    var cueIn := Min(30.0, Max(0.0, d - 15.0));
    (cueIn, Min(cueIn + 15.0, d))
  }

  /** The window of a video is always inside it and at most 15 s long, and
      the fixed window `searchAndImport` uses is the one of any video of
      45 s or more. */
  lemma WindowOfLongVideos(d: Option<real>)
    ensures var w := CueWindow(DurationOr(d));
            DurationOr(d) >= 0.0 ==> 0.0 <= w.0 <= w.1 <= DurationOr(d) && w.1 - w.0 <= 15.0
    ensures d.None? ==> CueWindow(DurationOr(d)) == (30.0, 45.0)
    ensures d.Some? && d.value >= 45.0 ==> CueWindow(DurationOr(d)) == SearchWindow
  {
  }

  /** The song built from a video with id `youtubeId`. */
  function SongOf(v: Video, youtubeId: string, id: string, now: string): (s: Song)
    ensures s.youtubeId == Some(youtubeId) && s.hasAudio && s.album == Some("YouTube")
    ensures s.duration == DurationOr(v.duration)
    ensures (s.cueIn, s.cueOut) == CueWindow(s.duration)
    ensures s.title == OrElse(v.title, "Video sin t\U{ED}tulo")
    ensures s.artist == OrElse(v.artist, "Artista desconocido")
    ensures s.id == id && s.createdAt == now && s.spotifyId == None && s.updatedAt == None
    ensures s.sourcePath == s.youtubeId
  {
    var d := DurationOr(v.duration);
    var w := CueWindow(d);
    Song(id, OrElse(v.title, "Video sin t\U{ED}tulo"), OrElse(v.artist, "Artista desconocido"),
         Some("YouTube"), d, Some(youtubeId), Some(youtubeId), None, w.0, w.1, true, now, None)
  }

  /** `importVideo(url)`: an URL without a video id fails before any
      lookup; a lookup that throws fails with its message; missing data or
      data without an id fails; otherwise one song for the extracted id. */
  function ImportVideo(url: string, getVideoInfo: string -> Lookup<Video>, id: string, now: string): (r: Result<Song, ImportError>)
    ensures Invidious.ExtractVideoId(url).None? ==> r == Err(InvalidVideoUrl)
    ensures r.Ok? ==> Invidious.ExtractVideoId(url).Some?
                      && r.value.youtubeId == Invidious.ExtractVideoId(url)
                      && r.value.hasAudio
    ensures Invidious.ExtractVideoId(url).Some? ==>
              var info := getVideoInfo(Invidious.ExtractVideoId(url).value);
              && (info.Err? ==> r == Err(LookupFailed(info.error)))
              && (info.Ok? && (info.value.None? || !Truthy(info.value.value.id)) ==> r == Err(NoVideoInfo))
              && (info.Ok? && info.value.Some? && Truthy(info.value.value.id) ==>
                    r == Ok(SongOf(info.value.value, Invidious.ExtractVideoId(url).value, id, now)))
  {
    match Invidious.ExtractVideoId(url)
    case None => Err(InvalidVideoUrl)
    case Some(videoId) =>
      match getVideoInfo(videoId)
      case Err(msg) => Err(LookupFailed(msg))
      case Ok(info) =>
        if info.None? || !Truthy(info.value.id) then Err(NoVideoInfo)
        else Ok(SongOf(info.value, videoId, id, now))
  }

  /** A URL without a video id is rejected whatever the lookup would say:
      no lookup happens. */
  lemma InvalidUrlNeedsNoLookup(url: string, l1: string -> Lookup<Video>, l2: string -> Lookup<Video>, id: string, now: string)
    requires Invidious.ExtractVideoId(url).None?
    ensures ImportVideo(url, l1, id, now) == ImportVideo(url, l2, id, now) == Err(InvalidVideoUrl)
  {
  }

  /** The per-video test of `importPlaylist`: a present video with an id. */
  predicate HasVideoId(v: Option<Video>) {
    v.Some? && Truthy(v.value.id)
  }

  /** The `onProgress` report after each accepted song. */
  datatype Progress = Progress(current: nat, total: nat, song: Song)

  datatype Stats = Stats(total: nat, withAudio: nat, withoutAudio: nat)

  datatype PlaylistImport = PlaylistImport(songs: seq<Song>, stats: Stats, progress: seq<Progress>)

  /** The songs `importPlaylist` builds: one per accepted video, in input
      order, the `k`-th taking the `k`-th fresh id. */
  predicate BuiltFrom(songs: seq<Song>, accepted: seq<Option<Video>>, freshId: nat -> string, now: string) {
    && |songs| == |accepted|
    && forall j :: 0 <= j < |songs| ==>
         HasVideoId(accepted[j])
         && songs[j] == SongOf(accepted[j].value, accepted[j].value.id.value, freshId(j), now)
  }

  /** `current` counts the accepted songs, `total` is the playlist size. */
  predicate Reported(progress: seq<Progress>, songs: seq<Song>, total: nat) {
    && |progress| == |songs|
    && forall j :: 0 <= j < |progress| ==> progress[j] == Progress(j + 1, total, songs[j])
  }

  /** The loop of `importPlaylist`: one song per video with an id,
      skipping the others, and one progress report per song. */
  method BuildSongs(videos: seq<Option<Video>>, freshId: nat -> string, now: string)
    returns (songs: seq<Song>, progress: seq<Progress>)
    ensures BuiltFrom(songs, Filter(videos, HasVideoId), freshId, now)
    ensures Reported(progress, songs, |videos|)
    ensures |songs| == CountIf(videos, HasVideoId)
    ensures (forall j :: 0 <= j < |videos| ==> HasVideoId(videos[j])) ==> |songs| == |videos|
  {
    songs := [];
    progress := [];
    var k := 0;
    while k < |videos|
      invariant 0 <= k <= |videos|
      invariant BuiltFrom(songs, Filter(videos[..k], HasVideoId), freshId, now)
      invariant Reported(progress, songs, |videos|)
    {
      AdvanceKeeps(videos, k, songs, progress, freshId, now);
      var next := Advance(videos[k], songs, progress, |videos|, freshId, now);
      songs, progress := next.0, next.1;
      k := k + 1;
    }
    assert videos[..|videos|] == videos;
    FilterLength(videos, HasVideoId);
    if forall j :: 0 <= j < |videos| ==> HasVideoId(videos[j]) {
      FilterAll(videos, HasVideoId);
    }
  }

  /** One turn of the loop: a video with an id adds its song and a report;
      any other entry changes nothing. */
  function Advance(v: Option<Video>, songs: seq<Song>, progress: seq<Progress>, total: nat,
                   freshId: nat -> string, now: string): (seq<Song>, seq<Progress>)
  {
    if !HasVideoId(v) then (songs, progress)
    else
      var song := SongOf(v.value, v.value.id.value, freshId(|songs|), now);
      (songs + [song], progress + [Progress(|songs| + 1, total, song)])
  }

  /** A turn of the loop keeps its invariants. */
  lemma {:induction false} AdvanceKeeps(videos: seq<Option<Video>>, k: nat, songs: seq<Song>, progress: seq<Progress>,
                                        freshId: nat -> string, now: string)
    requires k < |videos|
    requires BuiltFrom(songs, Filter(videos[..k], HasVideoId), freshId, now)
    requires Reported(progress, songs, |videos|)
    ensures var next := Advance(videos[k], songs, progress, |videos|, freshId, now);
            && BuiltFrom(next.0, Filter(videos[..k + 1], HasVideoId), freshId, now)
            && Reported(next.1, next.0, |videos|)
  {
    AcceptedStep(videos, k);
    if HasVideoId(videos[k]) {
      var video := videos[k].value;
      var song := SongOf(video, video.id.value, freshId(|songs|), now);
      BuiltStep(songs, Filter(videos[..k], HasVideoId), videos[k], freshId, now);
      ReportedStep(progress, songs, |videos|, song);
    } else {
      assert Filter(videos[..k + 1], HasVideoId) == Filter(videos[..k], HasVideoId);
    }
  }

  /** Appending an accepted video and its song keeps `BuiltFrom`. */
  lemma BuiltStep(songs: seq<Song>, accepted: seq<Option<Video>>, v: Option<Video>, freshId: nat -> string, now: string)
    requires BuiltFrom(songs, accepted, freshId, now)
    requires HasVideoId(v)
    ensures BuiltFrom(songs + [SongOf(v.value, v.value.id.value, freshId(|songs|), now)], accepted + [v], freshId, now)
  {
    var songs' := songs + [SongOf(v.value, v.value.id.value, freshId(|songs|), now)];
    var accepted' := accepted + [v];
    forall j | 0 <= j < |songs'|
      ensures HasVideoId(accepted'[j])
      ensures songs'[j] == SongOf(accepted'[j].value, accepted'[j].value.id.value, freshId(j), now)
    {
      if j < |songs| {
        assert songs'[j] == songs[j] && accepted'[j] == accepted[j];
      }
    }
  }

  /** Appending the next report keeps `Reported`. */
  lemma ReportedStep(progress: seq<Progress>, songs: seq<Song>, total: nat, song: Song)
    requires Reported(progress, songs, total)
    ensures Reported(progress + [Progress(|songs| + 1, total, song)], songs + [song], total)
  {
    var progress' := progress + [Progress(|songs| + 1, total, song)];
    var songs' := songs + [song];
    forall j | 0 <= j < |progress'|
      ensures progress'[j] == Progress(j + 1, total, songs'[j])
    {
      if j < |progress| {
        assert progress'[j] == progress[j] && songs'[j] == songs[j];
      }
    }
  }

  /** `importPlaylist(url)`: rejects a URL without a playlist id before any
      lookup, passes on a thrown lookup, rejects a missing or empty list,
      and otherwise imports every video with an id (see `BuildSongs`), with
      stats that count every song as having audio. */
  method ImportPlaylist(url: string, getPlaylistVideos: string -> Lookup<seq<Option<Video>>>,
                        freshId: nat -> string, now: string)
    returns (r: Result<PlaylistImport, ImportError>)
    ensures Invidious.ExtractPlaylistId(url).None? ==> r == Err(InvalidPlaylistUrl)
    ensures Invidious.ExtractPlaylistId(url).Some? && getPlaylistVideos(Invidious.ExtractPlaylistId(url).value).Err? ==>
              r == Err(LookupFailed(getPlaylistVideos(Invidious.ExtractPlaylistId(url).value).error))
    ensures Invidious.ExtractPlaylistId(url).Some? && getPlaylistVideos(Invidious.ExtractPlaylistId(url).value) == Ok(None) ==>
              r == Err(EmptyPlaylist)
    ensures Invidious.ExtractPlaylistId(url).Some? && getPlaylistVideos(Invidious.ExtractPlaylistId(url).value) == Ok(Some([])) ==>
              r == Err(EmptyPlaylist)
    ensures forall videos :: (Invidious.ExtractPlaylistId(url).Some?
              && getPlaylistVideos(Invidious.ExtractPlaylistId(url).value) == Ok(Some(videos)) && |videos| > 0) ==>
                && r.Ok?
                && BuiltFrom(r.value.songs, Filter(videos, HasVideoId), freshId, now)
                && Reported(r.value.progress, r.value.songs, |videos|)
    ensures r.Ok? ==> r.value.stats == Stats(|r.value.songs|, |r.value.songs|, 0)
    ensures r.Ok? ==> forall j :: 0 <= j < |r.value.songs| ==> r.value.songs[j].hasAudio
  {
    var playlistId := Invidious.ExtractPlaylistId(url);
    if playlistId.None? {
      return Err(InvalidPlaylistUrl);
    }
    var fetched := getPlaylistVideos(playlistId.value);
    if fetched.Err? {
      return Err(LookupFailed(fetched.error));
    }
    if fetched.value.None? || |fetched.value.value| == 0 {
      return Err(EmptyPlaylist);
    }
    var songs, progress := BuildSongs(fetched.value.value, freshId, now);
    r := Ok(PlaylistImport(songs, Stats(|songs|, |songs|, 0), progress));
  }

  /** The accepted videos among the first `k + 1` are those among the first
      `k`, plus video `k` when it has an id. */
  lemma {:induction false} AcceptedStep(videos: seq<Option<Video>>, k: nat)
    requires k < |videos|
    ensures Filter(videos[..k + 1], HasVideoId)
            == Filter(videos[..k], HasVideoId) + (if HasVideoId(videos[k]) then [videos[k]] else [])
  {
    assert videos[..k + 1] == videos[..k] + [videos[k]];
    FilterConcat(videos[..k], [videos[k]], HasVideoId);
  }

  /** The window `searchAndImport` gives every result. */
  const SearchWindow: (real, real) := (30.0, 45.0)

  /** A search result as a song: the fixed window, the result's own id
      (possibly missing) and the same defaults as the other imports. */
  function SearchSong(v: Video, id: string, now: string): (s: Song)
    ensures (s.cueIn, s.cueOut) == SearchWindow && s.hasAudio
    ensures s.youtubeId == v.id && s.sourcePath == v.id && s.duration == DurationOr(v.duration)
  {
    Song(id, OrElse(v.title, "Video sin t\U{ED}tulo"), OrElse(v.artist, "Artista desconocido"),
         Some("YouTube"), DurationOr(v.duration), v.id, v.id, None, SearchWindow.0, SearchWindow.1, true, now, None)
  }

  /** `searchAndImport(query)`: `[]` when the search throws, returns
      nothing, or returns a `null` entry (the mapping then throws and the
      error is swallowed); otherwise one song per result, in order. */
  function SearchAndImport(query: string, searchVideos: string -> Lookup<seq<Option<Video>>>,
                           freshId: nat -> string, now: string): (r: seq<Song>)
    ensures searchVideos(query).Err? || searchVideos(query).value.None? ==> r == []
    ensures searchVideos(query).Ok? && searchVideos(query).value.Some? ==>
              var results := searchVideos(query).value.value;
              && ((exists j :: 0 <= j < |results| && results[j].None?) ==> r == [])
              && ((forall j :: 0 <= j < |results| ==> results[j].Some?) ==>
                    |r| == |results|
                    && forall j :: 0 <= j < |r| ==> r[j] == SearchSong(results[j].value, freshId(j), now))
    ensures forall j :: 0 <= j < |r| ==> (r[j].cueIn, r[j].cueOut) == SearchWindow
  {
    match searchVideos(query)
    case Err(_) => []
    case Ok(None) => []
    case Ok(Some(results)) =>
      if exists j :: 0 <= j < |results| && results[j].None? then []
      else seq(|results|, j requires 0 <= j < |results| => SearchSong(results[j].value, freshId(j), now))
  }
}
